=== FILE: README.md ===
# SecureAttend attendance core in Dafny

SecureAttend is a FastAPI backend for classroom attendance. A faculty member
opens an attendance session for a course. Opening it creates and starts the
session and returns a QR check-in token: a sealed JSON payload naming the
session, valid for 15 minutes. A student scans the token and submits it with
the verification factors the phone collected. The server opens the token,
checks it has not expired, finds the session, refuses if the session is not
ACTIVE or the student already has a record for it, and otherwise writes one
attendance record.

This project models that core as pure functions over immutable state:

- `Sessions`: the session table and its lifecycle. Status moves
  CREATED → ACTIVE → COMPLETED; there are also create, delete and the list
  queries.
- `QrCode`: the token payload, its generation, refresh and verification.
  `Cipher` is an authenticated envelope that stands in for Fernet. `Json`
  is the flat string-valued JSON the payload uses. `Numerals` holds the
  timestamp text.
- `Attendance`: the recorder. This covers `mark_attendance_with_qr`, the older
  idempotent `mark_attendance`, `create_attendance`, and deleting a session
  with its records (the ORM cascade).
- `Reports`: the read side. This covers the faculty roster of one session, a
  student's history, and the per-session counts with the five newest records.
- `Http`, `SessionEndpoints`, `AttendanceEndpoints`: the route handlers,
  reduced to their guard logic. Each returns a status code and a detail text,
  including how a catch-all `except` turns an inner error into a 400 or 500.
- `Registry`, `Courses`, `Rooms`: the course and room services. Both are one
  generic registry keyed by a unique natural key: course code or room
  number.
- `Persistence`, `Wrappers`: shared result types.

Time is a natural number of seconds passed in by the caller. Identifiers
such as `uuid4()` and `token_hex(4)` are parameters too.

## Model

| member | source | states |
|---|---|---|
| Sessions.GetSession | app/services/session.py:19-40 | the lookup finds a session exactly when the id is stored, and returns the stored row |
| Sessions.CreateSession | app/services/session.py:55-90 | a new session is CREATED, not ended, and stamped with the creation time as start time; it keeps the given proximity id unless that is absent or empty, in which case it gets the generated 8-hex-digit token; the insert fails exactly when the faculty id is empty (falsy, so `None` reaches the non-nullable `faculty_id` of app/models/session.py:20) or the id is taken |
| Sessions.StartSession | app/services/session.py:94-113 | start succeeds exactly for a stored CREATED session; it sets ACTIVE and a fresh start time, keeps every other field, and otherwise leaves the table unchanged |
| Sessions.EndSession | app/services/session.py:115-128 | end succeeds exactly for a stored ACTIVE session; it sets COMPLETED and the end time, keeps the start time and every other field, and otherwise leaves the table unchanged |
| Sessions.EndSessionAsWritten | app/services/session.py:115-128 | as written, ending an ACTIVE session raises, because the enum lacks the member it assigns; every other call returns None |
| Sessions.EndAsWrittenNeverEnds | app/services/session.py:122 | the as-written end never changes a session; it raises on exactly the sessions the intended end would end |
| Sessions.EndAsWrittenCounterexample | app/models/session.py:9-13 | a concrete ACTIVE session on which the as-written end raises AttributeError while the intended end records it as COMPLETED |
| Sessions.StartTwice | app/services/session.py:102-105 | a started session cannot be started again |
| Sessions.EndOnlyOnce | app/services/session.py:118-119 | a CREATED session cannot be ended before it is started; once started it ends exactly once |
| Sessions.TransitionsTouchOnlyTarget | app/services/session.py:107-110 | start and end change no other session |
| Sessions.OperationsKeepValid | app/services/session.py:94-128 | start and end keep every stored session filed under its own id |
| Sessions.CreateKeepsValid | app/services/session.py:74-88 | create keeps every stored session filed under its own id |
| Sessions.NothingCancels | app/models/session.py:13 | create, start and end never produce CANCELLED |
| Sessions.GetActiveSessions | app/services/session.py:47-53 | the result is exactly the stored ACTIVE sessions, restricted to the faculty when a truthy faculty id is given |
| Sessions.GetFacultySessions | app/services/session.py:43-45 | the result is exactly the stored sessions of that faculty |
| Sessions.FacultyListOnCreate | app/services/session.py:43-45 | a created session joins its creator's list, and every other faculty's list is unchanged |
| Sessions.FacultyListOnStart | app/services/session.py:43-45 | starting a session replaces it in its owner's list by its ACTIVE state, and every other list is unchanged |
| Sessions.FacultyListOnEnd | app/services/session.py:43-45 | ending a session replaces it in its owner's list by its COMPLETED state, and every other list is unchanged |
| Sessions.ActiveListFollowsTransitions | app/services/session.py:47-53 | a just-started session appears in the active list, and a just-ended one does not |
| QrCode.RoomLabel | app/services/qr_code.py:55 | an absent or empty room shows as "Not specified"; any other room shows as itself |
| QrCode.GenerateSessionQr | app/services/qr_code.py:37-100 | the token opens under the key to the serialized payload; the returned expiry is the issue time plus 15 minutes and equals the payload's `expires_at`; session id and proximity id are echoed |
| QrCode.PayloadFields | app/services/qr_code.py:51-60 | the payload carries the session id, faculty id, course code, room label, proximity id, issue time and expiry under their names |
| QrCode.Open | app/services/qr_code.py:127-133 | a token that does not open under the key gives the decrypt error; an opened token yields the document its text parses to |
| QrCode.VerifyQrData | app/services/qr_code.py:122-144 | a token is accepted exactly when it opens, parses, carries a readable expiry and now is not later than that expiry, and then the result is the parsed document; it counts as expired exactly when it opens and now is strictly later than its expiry; otherwise the error is the first failing step's, undecryptable exactly when it does not open |
| QrCode.AcceptedTokenIsSealed | app/services/qr_code.py:127-140 | an accepted token is exactly the sealing of the payload it yields, and that payload's expiry is not before now |
| QrCode.GeneratedTokenLifetime | app/core/config.py:34 | a generated token verifies to its own payload up to issue time plus 15 minutes, and reports expired strictly after |
| QrCode.FreshTokenVerifies | app/services/qr_code.py:133-140 | within its lifetime a generated token is accepted and names its session and proximity id |
| QrCode.ExpiredStaysExpired | app/services/qr_code.py:134-136 | once expired, a token stays expired |
| QrCode.ValidEarlier | app/services/qr_code.py:134-140 | a token valid now was valid, with the same payload, at every earlier time |
| QrCode.TamperedTokenRejected | app/services/qr_code.py:155-162 | changing any single character of a token makes it undecryptable |
| QrCode.ForeignKeyRejected | app/services/qr_code.py:155-162 | a token sealed under another key is undecryptable |
| QrCode.RefreshKeepsSession | app/services/qr_code.py:102-120 | a refresh at a different time issues a different token; both tokens verify to the same session and proximity id |
| Cipher.DecryptEncrypt | app/services/qr_code.py:146-162 | opening a sealed text under the same key gives the text back |
| Cipher.DecryptOnlyImages | app/services/qr_code.py:155-162 | a token opens only if it is exactly the sealing of what it opens to |
| Cipher.EncryptInjective | app/services/qr_code.py:146-153 | different texts seal to different tokens |
| Cipher.WrongKeyFails | app/services/qr_code.py:155-162 | a token sealed under one key does not open under another |
| Cipher.TamperBodyFails | app/services/qr_code.py:155-162 | changing one character of the sealed body makes the token fail to open |
| Cipher.TamperTagFails | app/services/qr_code.py:155-162 | changing one character of the tag makes the token fail to open |
| Cipher.TamperFails | app/services/qr_code.py:155-162 | changing any one character of a token makes it fail to open |
| Json.Get | app/services/qr_code.py:133 | a lookup finds a value exactly when some member has that name; the value is that of the last member with the name, as with `json.loads` |
| Json.ParseSerialize | app/services/qr_code.py:63 | parsing a serialized document gives the document back |
| Json.SerializeInjective | app/services/qr_code.py:63 | different documents serialize to different texts |
| Json.ParseCanonical | app/services/qr_code.py:130 | a text that parses is exactly the serialization of what it parses to |
| Json.ReadMembersRoundTrip | app/services/qr_code.py:130 | the member list reader reads a serialized member list back |
| Json.ReadBodyCanonical | app/services/qr_code.py:130 | a string body that reads is exactly the escaped form of what it reads to |
| Numerals.DecimalRoundTrip | app/services/qr_code.py:57-59 | a timestamp written as text reads back to the same time |
| Numerals.DecimalInjective | app/services/qr_code.py:57-59 | different times give different timestamp texts |
| Numerals.HexFixedRoundTrip | app/services/qr_code.py:146-162 | a fixed-width hex field reads back to its value |
| Numerals.HexReadCanonical | app/services/qr_code.py:155-162 | a hex field that reads is exactly the fixed-width rendering of its value |
| Attendance.FindRecord | app/services/attendance.py:218-232 | the lookup finds a record exactly when the store holds one for the (session, student) pair, and returns such a record |
| Attendance.CreateAttendance | app/services/attendance.py:234-267 | the insert appends the record with the given session, student, time and factors, and fails, writing nothing, exactly when the record id is taken |
| Attendance.MarkAttendance | app/services/attendance.py:91-125 | an existing record for the pair is returned unchanged; otherwise a missing or non-ACTIVE session gives None; for an ACTIVE session the new record is appended and returned, or, when its id is taken, the insert fault is reported with nothing written |
| Attendance.MarkIdempotent | app/services/attendance.py:98-107 | marking the same pair again returns the first record and writes nothing |
| Attendance.NamedSession | app/services/attendance.py:152-159 | a payload names a session exactly when its `session_id` is present and non-empty |
| Attendance.Admit | app/services/attendance.py:144-210 | after verification, a check-in succeeds exactly when the payload names a stored ACTIVE session with no record for the student and the id is free; success appends exactly that record; every refusal writes nothing; each failed check gives its own refusal, in the source's order: the verifier's reason for a refused token, then invalid session data for a missing or empty `session_id`, session not found, session not active with its status, already marked, and failed to mark when the insert fails |
| Attendance.MarkAttendanceWithQr | app/services/attendance.py:127-210 | the check-in succeeds exactly when the token verifies now and names an admissible session; the record is for the named session, student, time and factors; only success writes; each failed check, in order (token, `session_id`, session, status, earlier record, insert), gives its own refusal |
| Attendance.CheckInTokenIsSealed | app/services/attendance.py:138-152 | a successful check-in's token is the sealing of a payload that names the recorded session |
| Attendance.SecondCheckInRefused | app/services/attendance.py:181-191 | after a check-in, a second valid token for the same session is refused as already marked, and no later check-in by that student records that session again |
| Attendance.RescanAfterCheckIn | app/services/attendance.py:181-191 | rescanning the same token writes nothing; it is refused as already marked while the token is valid, and otherwise with the token's own error |
| Attendance.RescanRefused | app/services/attendance.py:127-210 | a rescan of a freshly issued token is refused as already marked before expiry and as expired after, and writes nothing |
| Attendance.FactorsNeverDecide | app/services/attendance.py:194-198 | the submitted factors never change whether a check-in succeeds; they are only stored |
| Attendance.IssuedTokenChecksIn | app/services/attendance.py:127-210 | a token issued for an ACTIVE session checks a student with no record in, within its lifetime |
| Attendance.ExpiredTokenRefused | app/services/attendance.py:144-148 | an expired token is refused with the expiry error and writes nothing |
| Attendance.CheckInAgreesWithMark | app/services/attendance.py:91-125 | on a successful check-in, the older `mark_attendance` for the same session would have written the same record |
| Attendance.NoDuplicatesMeansAtMostOne | app/services/attendance.py:181-191 | having no two records for a pair is the same as every pair having at most one record |
| Attendance.CheckInKeepsConsistent | app/services/attendance.py:181-204 | a check-in keeps record ids unique, at most one record per pair, and every record pointing at a stored session |
| Attendance.MarkKeepsConsistent | app/services/attendance.py:98-125 | the older mark keeps the same invariant |
| Attendance.ReplayKeepsConsistent | app/services/attendance.py:127-216 | any sequence of check-ins handled one after another keeps the invariant and leaves at most one record per pair |
| Attendance.Replay | app/services/attendance.py:127-216 | handling requests in order only appends, at most one record per request |
| Attendance.Detach | app/models/session.py:33 | the cascade keeps exactly the records of other sessions |
| Attendance.DetachKeepsUnique | app/models/session.py:33 | the cascade keeps record ids unique and at most one record per pair |
| Attendance.DeleteSession | app/services/session.py:130-138 | delete succeeds exactly when the session is stored; it removes the session and exactly its records, and otherwise changes nothing |
| Attendance.DeleteKeepsConsistent | app/services/session.py:130-138 | delete keeps the recorder's invariant |
| Reports.Summarize | app/services/attendance.py:60-78 | the verification summary lists exactly the submitted factor names; it is complete exactly when there is a factor and none failed; qr, face and proximity are true exactly when present and passed |
| Reports.CompleteMeansAllPassed | app/services/attendance.py:63 | complete means a non-empty factor set that all passed; all three passed factors make a record complete |
| Reports.SortNewestFirst | app/services/attendance.py:37-39 | the sort returns a permutation of its input ordered newest first |
| Reports.Insert | app/services/attendance.py:39 | inserting into a newest-first list keeps it ordered and adds exactly the one record |
| Reports.OfSession | app/services/attendance.py:37-38 | the filter keeps exactly the session's records |
| Reports.Lookup | app/services/attendance.py:58 | a known student shows their directory entry; an unknown one shows "Unknown", "Unknown", "" |
| Reports.RosterRows | app/services/attendance.py:55-79 | the roster has one row per record, in order, each with the student's details and the record's summary |
| Reports.Roster | app/services/attendance.py:33-84 | the roster lists exactly the session's records, newest first, each with its student's details and verification summary |
| Reports.CheckInShowsInRoster | app/services/attendance.py:33-84 | after a check-in, the session's roster gains exactly the new record, and other rosters are unchanged |
| Reports.Joined | app/services/attendance.py:278-284 | the join keeps exactly the student's records whose session is stored |
| Reports.HistoryRows | app/services/attendance.py:291-321 | each history row carries its record, the session it joins to, and its verification summary |
| Reports.History | app/services/attendance.py:271-326 | the history lists exactly the joined records, newest first, each with its session and verification summary |
| Reports.HistoryIsComplete | app/services/attendance.py:283 | when every record points at a stored session, the join loses nothing |
| Reports.Stats | app/services/attendance.py:339-352 | the count is the number of the session's records; the preview is at most five of them, newest first, and none left out is newer than any shown |
| Reports.PrefixIsNewest | app/services/attendance.py:346-351 | a prefix of a newest-first list is newest first, and nothing after it is newer than anything in it |
| Reports.FacultyOverview | app/services/attendance.py:328-397 | the overview covers exactly the faculty's sessions, with each session's row and record count |
| Reports.OverviewMatchesRoster | app/services/attendance.py:340-352 | a session's count and preview agree with its roster: the same total, and the preview is the roster's head |
| Http.Refusal | app/api/deps.py:59-97 | the inactive-user guard refuses exactly inactive users with 400; the faculty and student guards refuse exactly other roles with 403 |
| Http.Rewrap | app/api/endpoints/sessions.py:122-128 | the catch-all keeps the new status and starts the detail with its prefix |
| SessionEndpoints.Facts | app/api/endpoints/sessions.py:110-116 | the token is generated from the session's own id, faculty, course, room and proximity id |
| SessionEndpoints.Launch | app/api/endpoints/sessions.py:99-107 | create then start yields an ACTIVE session with the caller's fields and the generated proximity id, and stores it |
| SessionEndpoints.CreateEndpoint | app/api/endpoints/sessions.py:83-128 | non-faculty get 403; a faculty caller with a non-empty id gets a stored ACTIVE session and the token generated for it, unless the id is taken; a failure is a 500 and writes nothing |
| SessionEndpoints.OwnedSession | app/api/endpoints/sessions.py:186-196 | a missing session gives 404; another faculty's session gives 403; only the owner gets the session |
| SessionEndpoints.StartEndpoint | app/api/endpoints/sessions.py:177-206 | non-faculty 403, then 404, 403 and "Cannot start session" 400, each exactly in its case; the owner starts a CREATED session |
| SessionEndpoints.EndEndpoint | app/api/endpoints/sessions.py:208-237 | non-faculty 403, then 404, 403 and "Cannot end session" 400, each exactly in its case; the owner ends an ACTIVE session |
| SessionEndpoints.EndEndpointAsWritten | app/api/endpoints/sessions.py:208-237 | as written, the route never changes the table, and answers the app-wide handler's 500 with the AttributeError's text exactly when the owner ends an ACTIVE session |
| SessionEndpoints.EndEndpointNeverSucceeds | app/api/endpoints/sessions.py:230 | as written, the end route never succeeds; where the intended route would end the session, it answers 500 and leaves it ACTIVE |
| SessionEndpoints.ReadableSession | app/api/endpoints/sessions.py:146-157 | any non-faculty caller or the owning faculty may read a stored session; otherwise 404 if missing, else 403 |
| SessionEndpoints.SessionQrEndpoint | app/api/endpoints/sessions.py:131-175 | readable sessions get the token generated from the session's facts; every refusal surfaces as 500 through the catch-all |
| SessionEndpoints.SessionUuidEndpoint | app/api/endpoints/sessions.py:350-388 | readable sessions get their id and proximity id; every refusal surfaces as 500 |
| SessionEndpoints.RefreshEndpoint | app/api/endpoints/sessions.py:305-347 | non-faculty 403; only the owning faculty gets a refreshed token; other refusals surface as 500 |
| SessionEndpoints.VerifyChecks | app/api/endpoints/sessions.py:254-286 | a token passes exactly when it is non-empty, verifies, and names a stored ACTIVE session |
| SessionEndpoints.VerifyEndpoint | app/api/endpoints/sessions.py:240-302 | non-students 403; a student gets the session's details exactly when the checks pass, and otherwise 400 |
| SessionEndpoints.IssuedQrVerifies | app/api/endpoints/sessions.py:131-302 | a token handed out for an ACTIVE session verifies for any student within its lifetime, naming that session and its proximity id |
| SessionEndpoints.EndedSessionTokenRefused | app/api/endpoints/sessions.py:208-302 | after a session is ended, its tokens no longer verify |
| AttendanceEndpoints.CheckInRoute | app/api/endpoints/attendance.py:98-125 | non-students 403; for a student the route writes what the service writes, answers 400 with the service's error text on refusal, and confirms session, course and time on success |
| AttendanceEndpoints.MarkWithQrEndpoint | app/api/endpoints/attendance.py:98-125 | the route succeeds exactly for a student whose check-in is allowed; success adds exactly one record, and failure adds none |
| AttendanceEndpoints.MarkWithFactorsEndpoint | app/api/endpoints/attendance.py:176-203 | the same guarantee for the factors route |
| AttendanceEndpoints.CheckInRoutesAgree | app/api/endpoints/attendance.py:176-203 | the two check-in routes behave identically |
| AttendanceEndpoints.MarkEndpoint | app/api/endpoints/attendance.py:75-93 | non-students 403; for a student, "Cannot mark attendance" 400 exactly when the service returns None, the app-wide handler's 500 with the database error's text when the insert fails, otherwise the student's record for that session |
| AttendanceEndpoints.MarkEndpointAsWritten | app/api/endpoints/attendance.py:75-93 | as written, `/mark` never succeeds and never writes: non-students get 403, and every student gets the app-wide handler's 500 (app/main.py:52-58) carrying the raised exception's text |
| AttendanceEndpoints.MarkEndpointIdempotent | app/api/endpoints/attendance.py:75-93 | repeating a successful mark gives the same answer and writes nothing |
| AttendanceEndpoints.PyEquals | app/api/endpoints/attendance.py:53 | a str never equals a UUID; values of the same kind are equal exactly when identical |
| AttendanceEndpoints.StudentListAsWritten | app/api/endpoints/attendance.py:45-61 | as written, the route never succeeds: an inactive caller gets 400, every student gets 403 from the id comparison, and every other caller gets the app-wide handler's 500 (app/main.py:52-58) carrying the text of what the service call raises |
| AttendanceEndpoints.StudentList | app/api/endpoints/attendance.py:45-61 | the intended guard serves active users who are not students or who ask for their own records |
| AttendanceEndpoints.AsyncRoutesNeverSucceed | app/services/attendance.py:86-105 | wherever the intended `/mark` or `/student/{id}` succeeds, the route as written fails: a student's mark gets the handler's 500 with the raised text and writes nothing; a student's own list gets 403, anyone else's list the same 500 |
| AttendanceEndpoints.StudentListRefusesOwner | app/api/endpoints/attendance.py:53-57 | as written, a student asking for their own records is refused with 403; the intended guard serves them |
| AttendanceEndpoints.FullSessionEndpoint | app/api/endpoints/attendance.py:147-174 | non-faculty 403, missing 404; the owner gets the session's records newest first with details |
| AttendanceEndpoints.CheckInFlow | app/api/endpoints/attendance.py:98-125 | end to end: a faculty creates a session, a student checks in once with its token and gets confirmation, and a rescan within the lifetime is refused as already marked and writes nothing |
| AttendanceEndpoints.FirstScan | app/api/endpoints/attendance.py:98-125 | a first scan of a fresh token confirms the check-in and appends exactly one record |
| AttendanceEndpoints.SecondScan | app/api/endpoints/attendance.py:113-117 | a second scan of a token that checked in writes nothing and fails; while the token is valid the detail is "Attendance already marked for this session" |
| Registry.FindByKey | app/services/course.py:18-20 | the lookup finds a row exactly when one has the key, and returns such a row |
| Registry.Create | app/services/course.py:26-50 | create refuses a taken key with the duplicate error; otherwise it appends the new row, unless the id clashes |
| Registry.Update | app/services/course.py:52-76 | update of a missing id gives None; a key changed to a taken one is refused; a save changes only the target row, applying exactly the submitted fields |
| Registry.Delete | app/services/course.py:78-89 | delete fails with a constraint violation exactly when the row exists and an assignment references it (no delete cascade on app/models/course.py:19, non-nullable `course_id` at app/models/assignment.py:13); otherwise it reports whether the id existed and removes exactly that row |
| Registry.CreateThenFind | app/services/course.py:26-50 | a created row is found by its key and by its id |
| Registry.UpdateKeepsValid | app/models/course.py:12 | a saved update keeps ids and keys unique, and the row is found under its new key |
| Registry.TakenKeyRefused | app/services/course.py:62-66 | changing to another row's key is refused as a duplicate, or, for the empty key the service does not check, by the unique constraint |
| Registry.DeleteKeepsValid | app/services/course.py:78-89 | a committed delete keeps ids and keys unique and removes the id |
| Courses.ApplyPatch | app/services/course.py:60-70 | a patch sets exactly the submitted fields; clearing the required name is refused |
| Courses.CreateCourse | app/services/course.py:26-50 | create is refused exactly when the code is taken; otherwise the new course is found by its code |
| Courses.UpdateCourse | app/services/course.py:52-76 | update of a missing id gives None; a saved course has the patched code and fields; a duplicate refusal names the submitted non-empty code |
| Courses.DeleteCourse | app/services/course.py:78-89 | deleting a course an assignment references raises the integrity error; otherwise delete reports whether the id existed and keeps exactly the other courses |
| Courses.EmptyPatchChangesNothing | app/services/course.py:60-70 | an empty patch saves the course unchanged |
| Courses.NameCannotBeCleared | app/models/course.py:13 | a patch that clears the name is never saved |
| Courses.CodesStayUnique | app/models/course.py:12 | create, update and a committed delete keep course ids and codes unique |
| Rooms.ApplyPatch | app/services/room.py:60-70 | a patch sets exactly the submitted fields |
| Rooms.CreateRoom | app/services/room.py:26-50 | create is refused exactly when the number is taken; otherwise the new room is found by its number |
| Rooms.UpdateRoom | app/services/room.py:52-76 | update of a missing id gives None; a saved room has the patched number and fields; any refusal is a cleared number or one held by another room |
| Rooms.DeleteRoom | app/services/room.py:78-89 | deleting a room an assignment references raises the integrity error (app/models/room.py:19, app/models/assignment.py:14); otherwise delete reports whether the id existed and keeps exactly the other rooms |
| Rooms.NumbersStayUnique | app/models/room.py:12 | create, update and a committed delete keep room ids and numbers unique |
| Rooms.RenumberToFreeNumber | app/services/room.py:62-70 | renumbering to a free number succeeds, keeps the other fields, and the room is found under the new number |

## Left out

- Cipher.Encrypt: Fernet (AES-CBC with an HMAC-SHA-256 tag, base64 text) is replaced by a deterministic envelope: a marker, a keyed checksum tag, then the plain text. Fernet draws a fresh IV and timestamp on every call, so sealing one text twice gives two different tokens; the envelope gives one token per key and text. The envelope keeps the properties the service relies on: a token opens only under its key, and opening is the inverse of sealing. That any one-character change is rejected is a property of the envelope, not of Fernet: with `=` padding, the last base64 character carries unused bits that `urlsafe_b64decode` ignores. The envelope models no secrecy and no resistance to forgery.
- QrCode.GenerateSessionQr: the PNG rendering, the file under `static/qr_codes`, `_remove_old_qr` and `cleanup_expired_qr_codes` are file I/O. The image URL is kept as text only.
- QrCode.GenerateSessionQr: the source reads the clock twice, for `timestamp` and for `expires_at`. The model takes one time for both.
- ISO-8601 timestamps are modelled as decimal seconds. Dates and times of day in the history and overview rows are left out.
- `json.dumps`/`json.loads` are modelled for the payload shape only: a flat object of string values, escaping only quote and backslash.
- QrCode.ErrorMessage: the exception texts for a malformed payload or expiry stand in for Python's own messages, which depend on the input.
- Authentication (JWT decoding and `get_current_user`) is left out; the caller's id, role and active flag are inputs.
- The user, assignment, admin and auth services and routes are outside the core.
- Registry.Delete: the `assignments` table enters only as the set of course or room ids its rows reference. The course and room delete routes (app/api/endpoints/courses.py:68-79, app/api/endpoints/rooms.py:68-79) turn `false` into a 404 and do not catch the integrity error, which the app-wide handler (app/main.py:52-58) answers with a 500; the routes are not modelled.
- These session routes are left out as plain reads with no guard beyond the role checks modelled in `Http`: listing (`/`, `/my`), `/{id}`, `/{id}/info`, `get_session_with_qr`.
- These attendance routes are left out: `/session/{id}` and `/my`. `/history` and `/faculty/sessions` are modelled through `Reports.History` and `Reports.FacultyOverview` only.
- Attendance.MarkAttendanceWithQr: the outer `except` ("Error marking attendance: ...") is left out, because no modelled step raises inside it.
- Attendance.MarkAttendance: models the intended synchronous service method. As written it cannot run on the synchronous session the routes pass it; the third finding covers this.
- AttendanceEndpoints.FullSessionEndpoint: promises every record of the session. As written, the route passes its `uuid.UUID` path parameter unconverted into the roster query on the string `session_id` column (app/services/attendance.py:37-38). Unlike `get_session` (app/services/session.py:25-27), the query does not convert it. If the driver refuses to bind a `UUID`, the `except` at app/services/attendance.py:82-84 turns the error into an empty roster. Whether that happens depends on the database driver, so it is not modelled.
- Concurrency is left out: there is no unique constraint on (session, student), so two simultaneous check-ins could both pass the check. The model handles requests one after another.
- Nullable `status` and `verification_factors` columns are left out: the model always has a status and a factor map (`or {}`).
- Key order of the factor map is left out: the methods list is a set.
- Order among records with equal `marked_at` is left out: the database's order for ties is unspecified, and the model only promises newest first.
- Reports.FacultyOverview: the student names and rolls in the five-record preview are left out; the preview rows are the records themselves.
- Persistence.Message: the database error text after "Failed to create session: ", and in the app-wide handler's `detail`, stands in for the driver's message, which names the table and depends on the driver.
- Http.Crash: the app-wide handler's body (app/main.py:52-58) also carries the fixed `message` "Internal server error"; `Problem` holds only the status and the `detail`, which is the exception's text.
- Sessions.Text: `str()` of the AttributeError is the missing name, as the enum's own lookup raises it on Python 3.11 and earlier; later versions word it as a missing attribute of the class.
- AttendanceEndpoints.MarkEndpointAsWritten: the text of the exception that escapes the async service call is a parameter, because it is a TypeError at the `await` or already a bind error for the `UUID` parameter, depending on the driver.
- Path-parameter parsing (FastAPI's 422 for a malformed UUID) and pydantic's 422 for a missing body field are left out.
- Session status texts in messages use the member names. Rendering a str-valued enum with an f-string differs between Python versions.
- Attendance.CheckInTokenIsSealed: states that the token is a sealing of the payload, not that a party without the key could not have produced it.

## Findings

| source | as written | input that shows it | evidently intended | confidence | as-written member | corrected member |
|---|---|---|---|---|---|---|
| app/services/session.py:122 | `end_session` assigns `SessionStatus.ENDED`, but the enum (app/models/session.py:9-13) has CREATED, ACTIVE, COMPLETED and CANCELLED only, so the assignment raises AttributeError; the route does not catch it, so the app-wide handler (app/main.py:52-58) answers 500 and the session stays ACTIVE | the owner ends ACTIVE session "s1" | the session moves to the enum's terminal state COMPLETED with an end time, and the route returns it | not executed | Sessions.EndSessionAsWritten, Sessions.EndAsWrittenCounterexample, SessionEndpoints.EndEndpointNeverSucceeds | Sessions.EndSession, SessionEndpoints.EndEndpoint |
| app/api/endpoints/attendance.py:53 | the guard compares the user's id (a str column) with the path parameter (a `uuid.UUID`); these never compare equal, so every student is refused, including for their own records | an active student requests `/student/{their own id}` | a student may read their own attendance and no one else's | not executed | AttendanceEndpoints.StudentListAsWritten, AttendanceEndpoints.StudentListRefusesOwner | AttendanceEndpoints.StudentList |
| app/services/attendance.py:99 | `mark_attendance` (and `get_student_attendances` at line 88) awaits `self.db.execute(...)`, but `get_db` (app/db/session.py:21-26) yields a synchronous `Session`, whose query result cannot be awaited; the call raises (a bind error for the `UUID` parameter or the TypeError of the `await`, depending on the driver), nothing in `/mark` (app/api/endpoints/attendance.py:83) or `/student/{id}` (line 60) catches it, and the app-wide handler (app/main.py:52-58) answers 500, so neither route ever answers with a body | a student posts `/mark` for an ACTIVE session; an active faculty member requests `/student/{id}` | the service methods run synchronously: `/mark` records or returns the attendance, `/student/{id}` lists the student's records | not executed | AttendanceEndpoints.MarkEndpointAsWritten, AttendanceEndpoints.StudentListAsWritten, AttendanceEndpoints.AsyncRoutesNeverSucceed | AttendanceEndpoints.MarkEndpoint, AttendanceEndpoints.StudentList, Attendance.MarkAttendance |

=== FILE: attendance.dfy ===
/** The attendance recorder (`AttendanceService`): the guarded write that
    turns a redeemed check-in token into an attendance record, the older
    idempotent `mark_attendance`, and session deletion with its cascade.
    Requests are handled one after another; the model states the
    one-record-per-pair guarantee for such sequential runs. */
module Attendance {
  import opened Wrappers
  import Json
  import Cipher
  import QrCode
  import Persistence
  import Sessions

  /** The verification factors submitted with a check-in (factor name to
      outcome), stored as given. */
  type Factors = map<string, bool>

  /** A row of the `attendance` table. */
  datatype Attendance = Attendance(
    id: string,
    sessionId: string,
    studentId: string,
    markedAt: nat,
    factors: Factors)

  /** The two tables the recorder reads and writes. */
  datatype Db = Db(sessions: Sessions.Store, records: seq<Attendance>)

  /** Whether `a` records `studentId` in `sessionId`. */
  predicate IsFor(a: Attendance, sessionId: string, studentId: string) {
    a.sessionId == sessionId && a.studentId == studentId
  }

  /** At most one record per (session, student) pair. */
  predicate NoDuplicates(records: seq<Attendance>) {
    forall i, j :: 0 <= i < j < |records| ==>
      !IsFor(records[j], records[i].sessionId, records[i].studentId)
  }

  /** How many records `records` holds for the pair. */
  function Count(records: seq<Attendance>, sessionId: string, studentId: string): (n: nat)
    ensures n <= |records|
  {
    if |records| == 0 then 0
    else Count(records[..|records| - 1], sessionId, studentId)
         + (if IsFor(records[|records| - 1], sessionId, studentId) then 1 else 0)
  }

  lemma CountAppend(records: seq<Attendance>, a: Attendance, sessionId: string, studentId: string)
    ensures Count(records + [a], sessionId, studentId)
            == Count(records, sessionId, studentId) + (if IsFor(a, sessionId, studentId) then 1 else 0)
  {
    assert (records + [a])[..|records|] == records;
  }

  /** Without duplicates every pair has at most one record; with a
      duplicate, some pair has two. */
  lemma {:induction false} NoDuplicatesMeansAtMostOne(records: seq<Attendance>)
    ensures NoDuplicates(records) <==>
      forall i :: 0 <= i < |records| ==> Count(records, records[i].sessionId, records[i].studentId) <= 1
  {
    if |records| > 0 {
      var front := records[..|records| - 1];
      var last := records[|records| - 1];
      assert records == front + [last];
      NoDuplicatesMeansAtMostOne(front);
      forall s, t { CountAppend(front, last, s, t); }
      if NoDuplicates(records) {
        assert NoDuplicates(front);
        forall i | 0 <= i < |records|
          ensures Count(records, records[i].sessionId, records[i].studentId) <= 1
        {
          var s, t := records[i].sessionId, records[i].studentId;
          if IsFor(last, s, t) {
            CountZero(front, s, t);
          }
        }
      } else {
        var i, j :| 0 <= i < j < |records| && IsFor(records[j], records[i].sessionId, records[i].studentId);
        var s, t := records[i].sessionId, records[i].studentId;
        if j < |records| - 1 {
          assert front[i] == records[i] && front[j] == records[j];
          CountAtLeastTwo(front, i, j);
          CountMonotone(front, last, s, t);
        } else {
          assert front[i] == records[i];
          CountPositive(front, i);
        }
      }
    }
  }

  /** A pair no earlier record is for has count zero. */
  lemma {:induction false} CountZero(records: seq<Attendance>, sessionId: string, studentId: string)
    requires forall i :: 0 <= i < |records| ==> !IsFor(records[i], sessionId, studentId)
    ensures Count(records, sessionId, studentId) == 0
  {
    if |records| > 0 {
      CountZero(records[..|records| - 1], sessionId, studentId);
    }
  }

  lemma {:induction false} CountPositive(records: seq<Attendance>, i: nat)
    requires i < |records|
    ensures Count(records, records[i].sessionId, records[i].studentId) >= 1
  {
    var n := |records| - 1;
    if i < n {
      assert records[..n][i] == records[i];
      CountPositive(records[..n], i);
    }
  }

  lemma {:induction false} CountAtLeastTwo(records: seq<Attendance>, i: nat, j: nat)
    requires i < j < |records|
    requires IsFor(records[j], records[i].sessionId, records[i].studentId)
    ensures Count(records, records[i].sessionId, records[i].studentId) >= 2
  {
    var n := |records| - 1;
    if j < n {
      assert records[..n][i] == records[i] && records[..n][j] == records[j];
      CountAtLeastTwo(records[..n], i, j);
    } else {
      assert records[..n][i] == records[i];
      CountPositive(records[..n], i);
    }
  }

  lemma CountMonotone(records: seq<Attendance>, a: Attendance, sessionId: string, studentId: string)
    ensures Count(records + [a], sessionId, studentId) >= Count(records, sessionId, studentId)
  {
    CountAppend(records, a, sessionId, studentId);
  }

  /** `get_student_attendance_for_session`: the first record for the pair. */
  function FindRecord(records: seq<Attendance>, sessionId: string, studentId: string): (r: Option<Attendance>)
    ensures r.None? <==> forall i :: 0 <= i < |records| ==> !IsFor(records[i], sessionId, studentId)
    ensures r.Some? ==> r.value in records && IsFor(r.value, sessionId, studentId)
  {
    if |records| == 0 then None
    else if IsFor(records[0], sessionId, studentId) then Some(records[0])
    else
      var r := FindRecord(records[1..], sessionId, studentId);
      assert forall i :: 1 <= i < |records| ==> records[1..][i - 1] == records[i];
      r
  }

  /** Whether some record already uses `id` as its primary key. */
  predicate IdTaken(records: seq<Attendance>, id: string) {
    exists i :: 0 <= i < |records| && records[i].id == id
  }

  /** `create_attendance`: appends a record unconditionally; a taken primary
      key makes the database refuse and nothing is written. */
  function CreateAttendance(
    records: seq<Attendance>, newId: string, sessionId: string, studentId: string,
    factors: Factors, now: nat)
    : (r: Result<(seq<Attendance>, Attendance), Persistence.Fault>)
    ensures r.Failure? <==> IdTaken(records, newId)
    ensures r.Success? ==>
      && r.value.0 == records + [r.value.1]
      && r.value.1 == Attendance(newId, sessionId, studentId, now, factors)
  {
    if IdTaken(records, newId) then Failure(Persistence.DuplicateId(newId))
    else
      var a := Attendance(newId, sessionId, studentId, now, factors);
      Success((records + [a], a))
  }

  /** What `mark_attendance` returns. */
  datatype MarkReply =
    | Returned(record: Attendance)          // an existing or a new record
    | NotMarked                             // `None`: no such session or not ACTIVE
    | Faulted(fault: Persistence.Fault)     // the insert raised

  /** The records after a call, and what the call returned. */
  datatype Marking<T> = Marking(records: seq<Attendance>, reply: T)

  /** `mark_attendance`: idempotent. An existing record for the pair is
      returned as it is, whatever the session's state; otherwise the session
      must exist and be ACTIVE, and a new record is inserted. */
  function MarkAttendance(db: Db, sessionId: string, studentId: string, factors: Factors, newId: string, now: nat)
    : (m: Marking<MarkReply>)
    ensures FindRecord(db.records, sessionId, studentId).Some? ==>
      m == Marking(db.records, Returned(FindRecord(db.records, sessionId, studentId).value))
    ensures FindRecord(db.records, sessionId, studentId).None? ==>
      ((sessionId !in db.sessions || db.sessions[sessionId].status != Sessions.Active) <==> m.reply == NotMarked)
    ensures !m.reply.Returned? ==> m.records == db.records
    ensures m.records != db.records ==>
      && FindRecord(db.records, sessionId, studentId).None?
      && m.reply.Returned?
      && m.records == db.records + [m.reply.record]
      && m.reply.record == Attendance(newId, sessionId, studentId, now, factors)
    ensures
      && FindRecord(db.records, sessionId, studentId).None?
      && sessionId in db.sessions && db.sessions[sessionId].status == Sessions.Active
      ==>
      var a := Attendance(newId, sessionId, studentId, now, factors);
      && (!IdTaken(db.records, newId) ==> m == Marking(db.records + [a], Returned(a)))
      && (IdTaken(db.records, newId) ==> m == Marking(db.records, Faulted(Persistence.DuplicateId(newId))))
  {
    match FindRecord(db.records, sessionId, studentId)
    case Some(existing) => Marking(db.records, Returned(existing))
    case None =>
      match Sessions.GetSession(db.sessions, sessionId)
      case None => Marking(db.records, NotMarked)
      case Some(s) =>
        if s.status != Sessions.Active then Marking(db.records, NotMarked)
        else
          match CreateAttendance(db.records, newId, sessionId, studentId, factors, now)
          case Failure(f) => Marking(db.records, Faulted(f))
          case Success(created) => Marking(created.0, Returned(created.1))
  }

  /** Why `mark_attendance_with_qr` refused a check-in. */
  datatype QrMarkError =
    | TokenRejected(reason: QrCode.TokenError)   // `verify_qr_data` said invalid
    | InvalidSessionData                         // no or empty `session_id` in the payload
    | SessionNotFound
    | SessionNotActive(status: Sessions.Status)
    | AlreadyMarked
    | MarkFailed                                 // `create_attendance` returned `None`

  /** The dictionary `mark_attendance_with_qr` returns. */
  datatype QrMarkOutcome =
    | Marked(record: Attendance, session: Sessions.Session)
    | Refused(error: QrMarkError)

  /** The `error` text of a refusal; a refused token carries the verifier's
      own text. */
  function QrMarkMessage(e: QrMarkError): string {
    match e
    case TokenRejected(reason) => QrCode.ErrorMessage(reason)
    case InvalidSessionData => "Invalid session data in QR code"
    case SessionNotFound => "Session not found"
    case SessionNotActive(status) => "Session is not active (status: " + Sessions.StatusName(status) + ")"
    case AlreadyMarked => "Attendance already marked for this session"
    case MarkFailed => "Failed to mark attendance"
  }

  /** The session a verified payload names, if it names one: `session_id`
      must be present and non-empty. */
  function NamedSession(data: Json.Document): (r: Option<string>)
    ensures r.Some? <==> Json.Get(data, "session_id").Some? && Json.Get(data, "session_id").value != ""
    ensures r.Some? ==> Json.Get(data, "session_id") == Some(r.value)
  {
    match Json.Get(data, "session_id")
    case None => None
    case Some(id) => if id == "" then None else Some(id)
  }

  /** Everything a check-in needs to succeed once the token has been
      verified: it names an ACTIVE session the student has no record for,
      and the new record's id is free. */
  predicate Admissible(db: Db, v: QrCode.Verification, studentId: string, newId: string) {
    && v.Valid?
    && NamedSession(v.data).Some?
    && var sid := NamedSession(v.data).value;
       && sid in db.sessions
       && db.sessions[sid].status == Sessions.Active
       && FindRecord(db.records, sid, studentId).None?
       && !IdTaken(db.records, newId)
  }

  /** Everything a check-in at time `now` needs to succeed. */
  predicate CheckInAllowed(db: Db, key: Cipher.Key, studentId: string, token: string, newId: string, now: nat) {
    Admissible(db, QrCode.VerifyQrData(key, token, now), studentId, newId)
  }

  /** The part of `mark_attendance_with_qr` after the token is verified. */
  function Admit(db: Db, v: QrCode.Verification, studentId: string, factors: Factors, newId: string, now: nat)
    : (m: Marking<QrMarkOutcome>)
    requires Sessions.WellKeyed(db.sessions)
    ensures m.reply.Marked? <==> Admissible(db, v, studentId, newId)
    ensures m.reply.Marked? ==>
      && m.records == db.records + [m.reply.record]
      && Some(m.reply.record.sessionId) == NamedSession(v.data)
      && m.reply.session == db.sessions[m.reply.record.sessionId]
      && m.reply.record == Attendance(newId, m.reply.record.sessionId, studentId, now, factors)
    ensures m.reply.Refused? ==> m.records == db.records
    ensures v.Invalid? <==> m.reply.Refused? && m.reply.error.TokenRejected?
    ensures v.Invalid? ==> m.reply.error == TokenRejected(v.error)
    ensures v.Valid? && NamedSession(v.data).None? ==> m.reply == Refused(InvalidSessionData)
    ensures v.Valid? && NamedSession(v.data).Some? ==>
      var sid := NamedSession(v.data).value;
      && (sid !in db.sessions ==> m.reply == Refused(SessionNotFound))
      && (sid in db.sessions && db.sessions[sid].status != Sessions.Active ==>
            m.reply == Refused(SessionNotActive(db.sessions[sid].status)))
      && (sid in db.sessions && db.sessions[sid].status == Sessions.Active ==>
            && (FindRecord(db.records, sid, studentId).Some? ==> m.reply == Refused(AlreadyMarked))
            && (FindRecord(db.records, sid, studentId).None? && IdTaken(db.records, newId) ==>
                  m.reply == Refused(MarkFailed)))
  {
    match v
    case Invalid(e) => Marking(db.records, Refused(TokenRejected(e)))
    case Valid(data) =>
      match NamedSession(data)
      case None => Marking(db.records, Refused(InvalidSessionData))
      case Some(sid) =>
        match Sessions.GetSession(db.sessions, sid)
        case None => Marking(db.records, Refused(SessionNotFound))
        case Some(session) =>
          if session.status != Sessions.Active then
            Marking(db.records, Refused(SessionNotActive(session.status)))
          else if FindRecord(db.records, session.id, studentId).Some? then
            Marking(db.records, Refused(AlreadyMarked))
          else
            match CreateAttendance(db.records, newId, session.id, studentId, factors, now)
            case Failure(_) => Marking(db.records, Refused(MarkFailed))
            case Success(created) => Marking(created.0, Marked(created.1, session))
  }

  /** `mark_attendance_with_qr` at time `now`. The checks run in the
      source's order: token, session id, session, status, earlier record,
      insert. Only a successful check-in writes, and it records the session
      the sealed payload names. */
  function MarkAttendanceWithQr(
    db: Db, key: Cipher.Key, studentId: string, token: string, factors: Factors, newId: string, now: nat)
    : (m: Marking<QrMarkOutcome>)
    requires Sessions.WellKeyed(db.sessions)
    ensures m.reply.Marked? <==> CheckInAllowed(db, key, studentId, token, newId, now)
    ensures m.reply.Marked? ==>
      && Json.Get(QrCode.VerifyQrData(key, token, now).data, "session_id") == Some(m.reply.record.sessionId)
      && m.records == db.records + [m.reply.record]
      && m.reply.record == Attendance(newId, m.reply.record.sessionId, studentId, now, factors)
    ensures m.reply.Refused? ==> m.records == db.records
    ensures QrCode.VerifyQrData(key, token, now).Invalid? <==> m.reply.Refused? && m.reply.error.TokenRejected?
    ensures var v := QrCode.VerifyQrData(key, token, now);
      && (v.Invalid? ==> m.reply == Refused(TokenRejected(v.error)))
      && (v.Valid? && NamedSession(v.data).None? ==> m.reply == Refused(InvalidSessionData))
      && (v.Valid? && NamedSession(v.data).Some? ==>
            var sid := NamedSession(v.data).value;
            && (sid !in db.sessions ==> m.reply == Refused(SessionNotFound))
            && (sid in db.sessions && db.sessions[sid].status != Sessions.Active ==>
                  m.reply == Refused(SessionNotActive(db.sessions[sid].status)))
            && (sid in db.sessions && db.sessions[sid].status == Sessions.Active ==>
                  && (FindRecord(db.records, sid, studentId).Some? ==> m.reply == Refused(AlreadyMarked))
                  && (FindRecord(db.records, sid, studentId).None? && IdTaken(db.records, newId) ==>
                        m.reply == Refused(MarkFailed))))
  {
    var v := QrCode.VerifyQrData(key, token, now);
    Admit(db, v, studentId, factors, newId, now)
  }

  /** A check-in is only ever made with a token sealed under the server
      key, and it records the session named in the sealed payload. */
  lemma CheckInTokenIsSealed(
    db: Db, key: Cipher.Key, studentId: string, token: string, factors: Factors, newId: string, now: nat)
    requires Sessions.WellKeyed(db.sessions)
    ensures
      var m := MarkAttendanceWithQr(db, key, studentId, token, factors, newId, now);
      m.reply.Marked? ==>
        exists payload: Json.Document ::
          && token == Cipher.Encrypt(key, Json.Serialize(payload))
          && Json.Get(payload, "session_id") == Some(m.reply.record.sessionId)
  {
    var m := MarkAttendanceWithQr(db, key, studentId, token, factors, newId, now);
    QrCode.AcceptedTokenIsSealed(key, token, now);
    if m.reply.Marked? {
      var payload := QrCode.VerifyQrData(key, token, now).data;
      assert token == Cipher.Encrypt(key, Json.Serialize(payload));
    }
  }

  /** No two records share a primary key. */
  predicate UniqueIds(records: seq<Attendance>) {
    forall i, j :: 0 <= i < j < |records| ==> records[i].id != records[j].id
  }

  /** Every record belongs to a stored session (the foreign key). */
  predicate Referenced(db: Db) {
    forall i :: 0 <= i < |db.records| ==> db.records[i].sessionId in db.sessions
  }

  /** The state the recorder keeps: sessions stored under their ids, unique
      record ids, existing sessions only, one record per pair. */
  predicate Consistent(db: Db) {
    && Sessions.WellKeyed(db.sessions)
    && UniqueIds(db.records)
    && Referenced(db)
    && NoDuplicates(db.records)
  }

  /** Appending a record for an existing session, with a free id, for a
      pair without a record, keeps the database consistent. */
  lemma AppendKeepsConsistent(db: Db, a: Attendance)
    requires Consistent(db)
    requires a.sessionId in db.sessions
    requires !IdTaken(db.records, a.id)
    requires FindRecord(db.records, a.sessionId, a.studentId).None?
    ensures Consistent(Db(db.sessions, db.records + [a]))
  {
    var r := db.records + [a];
    forall i, j | 0 <= i < j < |r| ensures r[i].id != r[j].id && !IsFor(r[j], r[i].sessionId, r[i].studentId) {
      if j == |db.records| {
        assert r[i] == db.records[i];
      }
    }
  }

  /** A check-in keeps the database consistent. */
  lemma CheckInKeepsConsistent(
    db: Db, key: Cipher.Key, studentId: string, token: string, factors: Factors, newId: string, now: nat)
    requires Consistent(db)
    ensures Consistent(Db(db.sessions, MarkAttendanceWithQr(db, key, studentId, token, factors, newId, now).records))
  {
    var m := MarkAttendanceWithQr(db, key, studentId, token, factors, newId, now);
    if m.reply.Marked? {
      AppendKeepsConsistent(db, m.reply.record);
    }
  }

  /** The idempotent `mark_attendance` keeps the database consistent. */
  lemma MarkKeepsConsistent(db: Db, sessionId: string, studentId: string, factors: Factors, newId: string, now: nat)
    requires Consistent(db)
    ensures Consistent(Db(db.sessions, MarkAttendance(db, sessionId, studentId, factors, newId, now).records))
  {
    var m := MarkAttendance(db, sessionId, studentId, factors, newId, now);
    if m.records != db.records {
      AppendKeepsConsistent(db, m.reply.record);
    }
  }

  /** Once a student has checked in to a session, no later check-in by that
      student, with any token, marks the same session again; a valid token
      for it, while the session is still ACTIVE, is refused as already
      marked. */
  lemma {:induction false} SecondCheckInRefused(
    db: Db, key: Cipher.Key, studentId: string,
    token1: string, factors1: Factors, id1: string, t1: nat,
    token2: string, factors2: Factors, id2: string, t2: nat)
    requires Sessions.WellKeyed(db.sessions)
    requires MarkAttendanceWithQr(db, key, studentId, token1, factors1, id1, t1).reply.Marked?
    ensures
      var first := MarkAttendanceWithQr(db, key, studentId, token1, factors1, id1, t1);
      var second := MarkAttendanceWithQr(Db(db.sessions, first.records), key, studentId, token2, factors2, id2, t2);
      var v := QrCode.VerifyQrData(key, token2, t2);
      && (second.reply.Marked? ==> second.reply.record.sessionId != first.reply.record.sessionId)
      && (v.Valid? && NamedSession(v.data) == Some(first.reply.record.sessionId) ==>
            second.reply == Refused(AlreadyMarked))
  {
    var first := MarkAttendanceWithQr(db, key, studentId, token1, factors1, id1, t1);
    var a := first.reply.record;
    var db2 := Db(db.sessions, first.records);
    assert db2.records[|db.records|] == a;
    assert FindRecord(db2.records, a.sessionId, studentId).Some?;
  }

  /** The submitted factors never decide a check-in: any two factor maps
      give the same outcome apart from the stored factors, which are kept
      as submitted. */
  lemma FactorsNeverDecide(
    db: Db, key: Cipher.Key, studentId: string, token: string, f1: Factors, f2: Factors, newId: string, now: nat)
    requires Sessions.WellKeyed(db.sessions)
    ensures
      var m1 := MarkAttendanceWithQr(db, key, studentId, token, f1, newId, now);
      var m2 := MarkAttendanceWithQr(db, key, studentId, token, f2, newId, now);
      && m1.reply.Marked? == m2.reply.Marked?
      && (m1.reply.Refused? ==> m1 == m2)
      && (m1.reply.Marked? ==>
            && m1.reply.record.factors == f1
            && m1.reply.record.(factors := f2) == m2.reply.record
            && m1.reply.session == m2.reply.session)
  {
  }

  /** End to end: a token issued for an ACTIVE session checks in a student
      without a record until it expires, recording exactly that session. */
  lemma IssuedTokenChecksIn(
    db: Db, key: Cipher.Key, facts: QrCode.SessionFacts, issued: nat,
    studentId: string, factors: Factors, newId: string, now: nat)
    requires Sessions.WellKeyed(db.sessions)
    requires facts.sessionId != ""
    requires facts.sessionId in db.sessions && db.sessions[facts.sessionId].status == Sessions.Active
    requires FindRecord(db.records, facts.sessionId, studentId).None? && !IdTaken(db.records, newId)
    requires now <= issued + QrCode.ExpirySeconds
    ensures
      var m := MarkAttendanceWithQr(db, key, studentId, QrCode.GenerateSessionQr(key, facts, issued).encryptedData, factors, newId, now);
      && m.reply.Marked?
      && m.reply.record == Attendance(newId, facts.sessionId, studentId, now, factors)
      && m.reply.session == db.sessions[facts.sessionId]
  {
    var token := QrCode.GenerateSessionQr(key, facts, issued).encryptedData;
    QrCode.GeneratedTokenLifetime(key, facts, issued, now);
    QrCode.PayloadFields(facts, issued);
    var v := QrCode.VerifyQrData(key, token, now);
    assert v == QrCode.Valid(QrCode.Payload(facts, issued));
    assert NamedSession(v.data) == Some(facts.sessionId);
    assert Admissible(db, v, studentId, newId);
  }

  /** After its lifetime a token never checks anyone in, and nothing is
      written. */
  lemma ExpiredTokenRefused(
    db: Db, key: Cipher.Key, facts: QrCode.SessionFacts, issued: nat,
    studentId: string, factors: Factors, newId: string, now: nat)
    requires Sessions.WellKeyed(db.sessions)
    requires now > issued + QrCode.ExpirySeconds
    ensures
      var m := MarkAttendanceWithQr(db, key, studentId, QrCode.GenerateSessionQr(key, facts, issued).encryptedData, factors, newId, now);
      m == Marking(db.records, Refused(TokenRejected(QrCode.ExpiredToken)))
  {
    QrCode.GeneratedTokenLifetime(key, facts, issued, now);
  }

  /** A successful check-in writes the same record the idempotent
      `mark_attendance` would for the session the token names. */
  lemma CheckInAgreesWithMark(
    db: Db, key: Cipher.Key, studentId: string, token: string, factors: Factors, newId: string, now: nat)
    requires Sessions.WellKeyed(db.sessions)
    requires MarkAttendanceWithQr(db, key, studentId, token, factors, newId, now).reply.Marked?
    ensures
      var m := MarkAttendanceWithQr(db, key, studentId, token, factors, newId, now);
      MarkAttendance(db, m.reply.record.sessionId, studentId, factors, newId, now)
        == Marking(m.records, Returned(m.reply.record))
  {
  }

  /** `mark_attendance` twice for the same pair: the second call returns the
      first call's record and writes nothing. */
  lemma MarkIdempotent(
    db: Db, sessionId: string, studentId: string, f1: Factors, id1: string, t1: nat, f2: Factors, id2: string, t2: nat)
    requires MarkAttendance(db, sessionId, studentId, f1, id1, t1).reply.Returned?
    ensures
      var first := MarkAttendance(db, sessionId, studentId, f1, id1, t1);
      MarkAttendance(Db(db.sessions, first.records), sessionId, studentId, f2, id2, t2)
        == Marking(first.records, first.reply)
  {
    var first := MarkAttendance(db, sessionId, studentId, f1, id1, t1);
    if first.records != db.records {
      FindAppended(db.records, first.reply.record);
    }
  }

  /** Appending a record for a pair that had none makes it the one found. */
  lemma FindAppended(records: seq<Attendance>, a: Attendance)
    requires FindRecord(records, a.sessionId, a.studentId).None?
    ensures FindRecord(records + [a], a.sessionId, a.studentId) == Some(a)
  {
    if |records| > 0 {
      assert (records + [a])[1..] == records[1..] + [a];
      FindAppended(records[1..], a);
    }
  }

  /** The records that do not belong to `sessionId`, in their order. */
  function Detach(records: seq<Attendance>, sessionId: string): (kept: seq<Attendance>)
    ensures |kept| <= |records|
    ensures forall a :: a in kept <==> a in records && a.sessionId != sessionId
  {
    if |records| == 0 then []
    else
      var rest := Detach(records[1..], sessionId);
      assert forall a :: a in records <==> a == records[0] || a in records[1..];
      if records[0].sessionId == sessionId then rest else [records[0]] + rest
  }

  /** `x` clashes with no record of `rest`: another id and another pair. */
  predicate Apart(x: Attendance, rest: seq<Attendance>) {
    forall b :: b in rest ==> b.id != x.id && !IsFor(b, x.sessionId, x.studentId)
  }

  /** Unique ids and pairs, split at the first record. */
  lemma UniqueTail(records: seq<Attendance>)
    requires |records| > 0 && UniqueIds(records) && NoDuplicates(records)
    ensures UniqueIds(records[1..]) && NoDuplicates(records[1..])
    ensures Apart(records[0], records[1..])
  {
    var tail := records[1..];
    forall i, j | 0 <= i < j < |tail|
      ensures tail[i].id != tail[j].id && !IsFor(tail[j], tail[i].sessionId, tail[i].studentId)
    {
      assert tail[i] == records[i + 1] && tail[j] == records[j + 1];
    }
    forall b | b in tail
      ensures b.id != records[0].id && !IsFor(b, records[0].sessionId, records[0].studentId)
    {
      var k :| 0 <= k < |tail| && tail[k] == b;
      assert records[k + 1] == b;
    }
  }

  /** Unique ids and pairs, joined at the first record. */
  lemma UniqueCons(x: Attendance, rest: seq<Attendance>)
    requires UniqueIds(rest) && NoDuplicates(rest) && Apart(x, rest)
    ensures UniqueIds([x] + rest) && NoDuplicates([x] + rest)
  {
    var r := [x] + rest;
    forall i, j | 0 <= i < j < |r|
      ensures r[i].id != r[j].id && !IsFor(r[j], r[i].sessionId, r[i].studentId)
    {
      assert r[j] == rest[j - 1];
      if i > 0 {
        assert r[i] == rest[i - 1];
      }
    }
  }

  /** Dropping records keeps ids and pairs unique. */
  lemma {:induction false} DetachKeepsUnique(records: seq<Attendance>, sessionId: string)
    requires UniqueIds(records) && NoDuplicates(records)
    ensures UniqueIds(Detach(records, sessionId)) && NoDuplicates(Detach(records, sessionId))
  {
    if |records| > 0 {
      var tail := records[1..];
      UniqueTail(records);
      DetachKeepsUnique(tail, sessionId);
      var rest := Detach(tail, sessionId);
      if records[0].sessionId != sessionId {
        assert Apart(records[0], rest);
        UniqueCons(records[0], rest);
      }
    }
  }

  /** `delete_session`: `False` for an unknown id; otherwise the session is
      removed together with its attendance records (the relationship's
      delete-orphan cascade). */
  function DeleteSession(db: Db, id: string): (r: (Db, bool))
    ensures r.1 <==> id in db.sessions
    ensures !r.1 ==> r.0 == db
    ensures r.1 ==> r.0.sessions == db.sessions - {id}
    ensures r.1 ==> forall a :: a in r.0.records <==> a in db.records && a.sessionId != id
  {
    match Sessions.GetSession(db.sessions, id)
    case None => (db, false)
    case Some(_) => (Db(db.sessions - {id}, Detach(db.records, id)), true)
  }

  /** Deleting a session keeps the database consistent: no record is left
      pointing at the removed session. */
  lemma DeleteKeepsConsistent(db: Db, id: string)
    requires Consistent(db)
    ensures Consistent(DeleteSession(db, id).0)
  {
    if id in db.sessions {
      DetachKeepsUnique(db.records, id);
      var after := DeleteSession(db, id).0;
      forall i | 0 <= i < |after.records| ensures after.records[i].sessionId in after.sessions {
        var a := after.records[i];
        assert a in after.records;
        var k :| 0 <= k < |db.records| && db.records[k] == a;
      }
    }
  }

  /** One check-in request as it reaches the recorder. */
  datatype CheckIn = CheckIn(studentId: string, token: string, factors: Factors, newId: string, now: nat)

  /** The records after handling one request: the old ones, and at most one
      more at the end. */
  function Handle(db: Db, key: Cipher.Key, q: CheckIn): (records: seq<Attendance>)
    requires Sessions.WellKeyed(db.sessions)
    ensures |db.records| <= |records| <= |db.records| + 1
    ensures records[..|db.records|] == db.records
  {
    var m := MarkAttendanceWithQr(db, key, q.studentId, q.token, q.factors, q.newId, q.now);
    assert m.records == db.records || m.records == db.records + [m.reply.record];
    m.records
  }

  /** The records after handling `requests` one after another. */
  function Replay(db: Db, key: Cipher.Key, requests: seq<CheckIn>): (records: seq<Attendance>)
    requires Sessions.WellKeyed(db.sessions)
    ensures |db.records| <= |records| <= |db.records| + |requests|
    ensures records[..|db.records|] == db.records
    decreases |requests|
  {
    if |requests| == 0 then db.records
    else
      var next := Handle(db, key, requests[0]);
      var records := Replay(Db(db.sessions, next), key, requests[1..]);
      assert records[..|db.records|] == next[..|db.records|];
      records
  }

  /** However many check-ins arrive, one after another, each student has at
      most one record per session. */
  lemma {:induction false} ReplayKeepsConsistent(db: Db, key: Cipher.Key, requests: seq<CheckIn>)
    requires Consistent(db)
    ensures Consistent(Db(db.sessions, Replay(db, key, requests)))
    ensures forall i :: 0 <= i < |Replay(db, key, requests)| ==>
      Count(Replay(db, key, requests), Replay(db, key, requests)[i].sessionId, Replay(db, key, requests)[i].studentId) <= 1
    decreases |requests|
  {
    if |requests| > 0 {
      var q := requests[0];
      CheckInKeepsConsistent(db, key, q.studentId, q.token, q.factors, q.newId, q.now);
      var m := MarkAttendanceWithQr(db, key, q.studentId, q.token, q.factors, q.newId, q.now);
      ReplayKeepsConsistent(Db(db.sessions, m.records), key, requests[1..]);
    }
    NoDuplicatesMeansAtMostOne(Replay(db, key, requests));
  }

  /** After a check-in, scanning the same token again never writes: while
      it still verifies the refusal is "already marked", afterwards it is
      the token's own rejection. */
  lemma RescanAfterCheckIn(
    db: Db, key: Cipher.Key, studentId: string, token: string,
    factors: Factors, recordId: string, now: nat, factors2: Factors, recordId2: string, later: nat)
    requires Sessions.WellKeyed(db.sessions)
    requires MarkAttendanceWithQr(db, key, studentId, token, factors, recordId, now).reply.Marked?
    ensures
      var first := MarkAttendanceWithQr(db, key, studentId, token, factors, recordId, now);
      var second := MarkAttendanceWithQr(Db(db.sessions, first.records), key, studentId, token, factors2, recordId2, later);
      var v := QrCode.VerifyQrData(key, token, later);
      && second.records == first.records
      && second.reply == Refused(if v.Valid? then AlreadyMarked else TokenRejected(v.error))
  {
    var first := MarkAttendanceWithQr(db, key, studentId, token, factors, recordId, now);
    var v1 := QrCode.VerifyQrData(key, token, now);
    var v := QrCode.VerifyQrData(key, token, later);
    var db2 := Db(db.sessions, first.records);
    var a := first.reply.record;
    assert Admissible(db, v1, studentId, recordId);
    if v.Valid? {
      QrCode.SamePayload(key, token, now, later);
      assert NamedSession(v.data) == Some(a.sessionId);
      assert db2.records[|db.records|] == a;
      assert FindRecord(db2.records, a.sessionId, studentId).Some?;
    }
  }

  /** The same, for a token issued for an ACTIVE session: the second scan
      is refused as already marked until the token expires, and as expired
      after that. */
  lemma RescanRefused(
    db: Db, key: Cipher.Key, facts: QrCode.SessionFacts, issued: nat,
    studentId: string, factors: Factors, recordId: string, now: nat,
    factors2: Factors, recordId2: string, later: nat)
    requires Sessions.WellKeyed(db.sessions)
    requires facts.sessionId != ""
    requires facts.sessionId in db.sessions && db.sessions[facts.sessionId].status == Sessions.Active
    requires FindRecord(db.records, facts.sessionId, studentId).None? && !IdTaken(db.records, recordId)
    requires now <= issued + QrCode.ExpirySeconds
    ensures
      var token := QrCode.GenerateSessionQr(key, facts, issued).encryptedData;
      var first := MarkAttendanceWithQr(db, key, studentId, token, factors, recordId, now);
      var second := MarkAttendanceWithQr(Db(db.sessions, first.records), key, studentId, token, factors2, recordId2, later);
      && second.records == first.records
      && second.reply == Refused(if later <= issued + QrCode.ExpirySeconds then AlreadyMarked else TokenRejected(QrCode.ExpiredToken))
  {
    var token := QrCode.GenerateSessionQr(key, facts, issued).encryptedData;
    IssuedTokenChecksIn(db, key, facts, issued, studentId, factors, recordId, now);
    QrCode.GeneratedTokenLifetime(key, facts, issued, later);
    RescanAfterCheckIn(db, key, studentId, token, factors, recordId, now, factors2, recordId2, later);
  }
}

=== FILE: attendance_endpoints.dfy ===
/** The attendance routes: the two check-in routes, the older `/mark`, a
    student's own list, and the owner's full roster of a session. */
module AttendanceEndpoints {
  import opened Wrappers
  import Persistence
  import Cipher
  import QrCode
  import Sessions
  import opened Attendance
  import Reports
  import SessionEndpoints
  import opened Http

  /** The body of a successful check-in. */
  datatype Confirmation = Confirmation(message: string, sessionId: string, courseCode: string, markedAt: nat)

  const MarkedMessage: string := "Attendance marked successfully"

  /** The shared body of `/mark-with-qr` and `/mark-with-factors`: students
      only; a refused check-in is a 400 carrying the service's own text. */
  function CheckInRoute(
    db: Db, key: Cipher.Key, caller: Caller, token: string, factors: Factors, newId: string, now: nat)
    : (r: (seq<Attendance>, Response<Confirmation>))
    requires Sessions.WellKeyed(db.sessions)
    ensures caller.role != Student ==> r == (db.records, Err(Problem(Forbidden, "Student access required")))
    ensures caller.role == Student ==>
      var m := MarkAttendanceWithQr(db, key, caller.id, token, factors, newId, now);
      && r.0 == m.records
      && (r.1.Err? <==> m.reply.Refused?)
      && (m.reply.Refused? ==> r.1.problem == Problem(BadRequest, QrMarkMessage(m.reply.error)))
      && (m.reply.Marked? ==>
            r.1.body == Confirmation(MarkedMessage, m.reply.record.sessionId, m.reply.session.courseCode, now))
  {
    match Refusal(StudentUser, caller)
    case Some(p) => (db.records, Err(p))
    case None =>
      var m := MarkAttendanceWithQr(db, key, caller.id, token, factors, newId, now);
      match m.reply
      case Refused(e) => (m.records, Err(Problem(BadRequest, QrMarkMessage(e))))
      case Marked(record, session) =>
        (m.records, Ok(Confirmation(MarkedMessage, session.id, session.courseCode, record.markedAt)))
  }

  /** `POST /mark-with-qr`. */
  function MarkWithQrEndpoint(
    db: Db, key: Cipher.Key, caller: Caller, token: string, factors: Factors, newId: string, now: nat)
    : (r: (seq<Attendance>, Response<Confirmation>))
    requires Sessions.WellKeyed(db.sessions)
    ensures r.1.Ok? <==> caller.role == Student && CheckInAllowed(db, key, caller.id, token, newId, now)
    ensures r.1.Ok? ==> |r.0| == |db.records| + 1
    ensures r.1.Err? ==> r.0 == db.records
  {
    CheckInRoute(db, key, caller, token, factors, newId, now)
  }

  /** `POST /mark-with-factors`: the same service call as `/mark-with-qr`. */
  function MarkWithFactorsEndpoint(
    db: Db, key: Cipher.Key, caller: Caller, token: string, factors: Factors, newId: string, now: nat)
    : (r: (seq<Attendance>, Response<Confirmation>))
    requires Sessions.WellKeyed(db.sessions)
    ensures r.1.Ok? <==> caller.role == Student && CheckInAllowed(db, key, caller.id, token, newId, now)
    ensures r.1.Ok? ==> |r.0| == |db.records| + 1
    ensures r.1.Err? ==> r.0 == db.records
  {
    CheckInRoute(db, key, caller, token, factors, newId, now)
  }

  /** The two check-in routes answer every request alike. */
  lemma CheckInRoutesAgree(
    db: Db, key: Cipher.Key, caller: Caller, token: string, factors: Factors, newId: string, now: nat)
    requires Sessions.WellKeyed(db.sessions)
    ensures MarkWithQrEndpoint(db, key, caller, token, factors, newId, now)
            == MarkWithFactorsEndpoint(db, key, caller, token, factors, newId, now)
  {
  }

  /** `POST /mark`: students only; `None` from the service is a 400, and a
      failing insert, which the route does not catch, the app-wide
      handler's 500. */
  function MarkEndpoint(db: Db, caller: Caller, sessionId: string, factors: Factors, newId: string, now: nat)
    : (r: (seq<Attendance>, Response<Attendance>))
    ensures caller.role != Student ==> r == (db.records, Err(Problem(Forbidden, "Student access required")))
    ensures caller.role == Student ==>
      var m := MarkAttendance(db, sessionId, caller.id, factors, newId, now);
      && r.0 == m.records
      && (r.1.Ok? <==> m.reply.Returned?)
      && (r.1.Ok? ==> r.1.body == m.reply.record && r.1.body.studentId == caller.id && r.1.body.sessionId == sessionId)
      && (m.reply.NotMarked? <==> r.1 == Err(Problem(BadRequest, "Cannot mark attendance")))
      && (m.reply.Faulted? ==> r.1 == Err(Crash(Persistence.Message(m.reply.fault))))
  {
    match Refusal(StudentUser, caller)
    case Some(p) => (db.records, Err(p))
    case None =>
      var m := MarkAttendance(db, sessionId, caller.id, factors, newId, now);
      match m.reply
      case Returned(a) => (m.records, Ok(a))
      case NotMarked => (m.records, Err(Problem(BadRequest, "Cannot mark attendance")))
      case Faulted(f) => (m.records, Err(Crash(Persistence.Message(f))))
  }

  /** `POST /mark` as written. The route awaits `mark_attendance`, whose
      first step awaits `self.db.execute(...)`; `get_db` yields a synchronous
      `Session`, whose query result cannot be awaited. Every student's
      request therefore raises before anything is written: a `TypeError`
      at the `await`, or already a bind error for the `UUID` parameter,
      depending on the driver. `raised` is that exception's text; the route
      does not catch it, so the app-wide handler answers 500. */
  function MarkEndpointAsWritten(
    db: Db, caller: Caller, sessionId: string, factors: Factors, newId: string, now: nat, raised: string)
    : (r: (seq<Attendance>, Response<Attendance>))
    ensures r.0 == db.records
    ensures r.1.Err?
    ensures r.1 == Err(Crash(raised)) <==> caller.role == Student
  {
    match Refusal(StudentUser, caller)
    case Some(p) => (db.records, Err(p))
    case None => (db.records, Err(Crash(raised)))
  }

  /** Repeating `/mark` returns the first answer's record and writes
      nothing more. */
  lemma MarkEndpointIdempotent(
    db: Db, caller: Caller, sessionId: string, f1: Factors, id1: string, t1: nat, f2: Factors, id2: string, t2: nat)
    requires MarkEndpoint(db, caller, sessionId, f1, id1, t1).1.Ok?
    ensures
      var first := MarkEndpoint(db, caller, sessionId, f1, id1, t1);
      MarkEndpoint(Db(db.sessions, first.0), caller, sessionId, f2, id2, t2) == first
  {
    MarkIdempotent(db, sessionId, caller.id, f1, id1, t1, f2, id2, t2);
  }

  /** A value as the Python guard sees it: the caller's id is a `str`, the
      path parameter a `uuid.UUID`. */
  datatype PyValue = Str(text: string) | Uuid(canonical: string)

  /** Python's `==`: a `str` never equals a `uuid.UUID`. */
  function PyEquals(a: PyValue, b: PyValue): (eq: bool)
    ensures a.Str? != b.Str? ==> !eq
    ensures a.Str? == b.Str? ==> (eq <==> a == b)
  {
    match (a, b)
    case (Str(x), Str(y)) => x == y
    case (Uuid(x), Uuid(y)) => x == y
    case _ => false
  }

  /** `GET /student/{student_id}` as written. The caller must be active. A
      STUDENT is refused unless `current_user.id != student_id` is false,
      which it never is for a `str` against a `uuid.UUID`. Every other
      caller reaches `await get_student_attendances(...)`, which runs a
      query on the synchronous `Session` and raises (a bind error or the
      `TypeError` of the `await`) with text `raised`; the app-wide handler
      answers 500. */
  function StudentListAsWritten(db: Db, caller: Caller, studentId: string, raised: string)
    : (r: Response<seq<Attendance>>)
    ensures r.Err?
    ensures r.problem.status == BadRequest <==> !caller.active
    ensures caller.active && caller.role == Student ==>
      r.problem == Problem(Forbidden, "Not authorized to access this student's attendance")
    ensures caller.active && caller.role != Student ==> r.problem == Crash(raised)
  {
    match Refusal(ActiveUser, caller)
    case Some(p) => Err(p)
    case None =>
      if caller.role == Student && !PyEquals(Str(caller.id), Uuid(studentId)) then
        Err(Problem(Forbidden, "Not authorized to access this student's attendance"))
      else Err(Crash(raised))
  }

  /** `GET /student/{student_id}` as intended: the two ids compared in their
      string forms, as the full-roster route does. */
  function StudentList(db: Db, caller: Caller, studentId: string): (r: Response<seq<Attendance>>)
    ensures r.Ok? <==> caller.active && (caller.role != Student || caller.id == studentId)
    ensures r.Ok? ==> forall a :: a in r.body <==> a in db.records && a.studentId == studentId
  {
    match Refusal(ActiveUser, caller)
    case Some(p) => Err(p)
    case None =>
      if caller.role == Student && !PyEquals(Str(caller.id), Str(studentId)) then
        Err(Problem(Forbidden, "Not authorized to access this student's attendance"))
      else Ok(Reports.OfStudent(db.records, studentId))
  }

  /** The route as written refuses an active student their own list, which
      the intended route returns. */
  lemma StudentListRefusesOwner(db: Db, caller: Caller, raised: string)
    requires caller.active && caller.role == Student
    ensures StudentListAsWritten(db, caller, caller.id, raised)
            == Err(Problem(Forbidden, "Not authorized to access this student's attendance"))
    ensures StudentList(db, caller, caller.id).Ok?
  {
  }

  /** As written, neither `/mark` nor `/student/{student_id}` ever answers
      with a body: wherever the intended route succeeds, the route as
      written fails, with the app-wide handler's 500 for a student's mark
      or a non-student's list, and `/mark` writes nothing. */
  lemma AsyncRoutesNeverSucceed(
    db: Db, caller: Caller, sessionId: string, factors: Factors, newId: string, now: nat, studentId: string,
    raised: string)
    ensures MarkEndpoint(db, caller, sessionId, factors, newId, now).1.Ok? ==>
      MarkEndpointAsWritten(db, caller, sessionId, factors, newId, now, raised) == (db.records, Err(Crash(raised)))
    ensures StudentList(db, caller, studentId).Ok? ==>
      StudentListAsWritten(db, caller, studentId, raised)
      == Err(if caller.role == Student then Problem(Forbidden, "Not authorized to access this student's attendance")
             else Crash(raised))
  {
  }

  /** `GET /session/{session_id}/full`: faculty only; 404 for an unknown
      session, 403 unless the caller owns it, otherwise its roster. */
  function FullSessionEndpoint(db: Db, directory: Reports.Directory, caller: Caller, sessionId: string)
    : (r: Response<seq<Reports.RosterRow>>)
    ensures caller.role != Faculty ==> r == Err(Problem(Forbidden, "Faculty access required"))
    ensures caller.role == Faculty ==>
      && (r == Err(Problem(NotFound, "Session not found")) <==> sessionId !in db.sessions)
      && (r.Ok? <==> sessionId in db.sessions && db.sessions[sessionId].facultyId == caller.id)
    ensures r.Ok? ==>
      && multiset(Reports.RosterRecords(r.body)) == multiset(Reports.OfSession(db.records, sessionId))
      && Reports.NewestFirst(Reports.RosterRecords(r.body))
  {
    match Refusal(FacultyUser, caller)
    case Some(p) => Err(p)
    case None =>
      match SessionEndpoints.OwnedSession(db.sessions, caller, sessionId)
      case Failure(p) => Err(p)
      case Success(_) => Ok(Reports.Roster(db.records, directory, sessionId))
  }

  /** The whole check-in flow: a faculty member creates a session, which
      starts at once; a student who scans its QR code before it expires is
      checked in with the factors as sent, and a second scan is refused as
      already marked. */
  lemma CheckInFlow(
    db: Db, key: Cipher.Key, faculty: Caller, student: Caller, courseCode: string, roomNumber: Option<string>,
    sessionId: string, generated: string, issued: nat,
    factors: Factors, recordId: string, now: nat, factors2: Factors, recordId2: string, later: nat)
    requires Sessions.WellKeyed(db.sessions) && Sessions.IsProximityToken(generated)
    requires faculty.role == Faculty && faculty.id != "" && student.role == Student
    requires sessionId != "" && sessionId !in db.sessions
    requires FindRecord(db.records, sessionId, student.id).None? && !IdTaken(db.records, recordId)
    requires issued <= now <= issued + QrCode.ExpirySeconds
    ensures
      var created := SessionEndpoints.CreateEndpoint(db.sessions, key, faculty, courseCode, roomNumber, sessionId, generated, issued);
      && created.1.Ok?
      && Sessions.WellKeyed(created.0)
      && var token := created.1.body.qr.encryptedData;
         var first := MarkWithQrEndpoint(Db(created.0, db.records), key, student, token, factors, recordId, now);
         var second := MarkWithQrEndpoint(Db(created.0, first.0), key, student, token, factors2, recordId2, later);
         && first.1 == Ok(Confirmation(MarkedMessage, sessionId, courseCode, now))
         && first.0 == db.records + [Attendance(recordId, sessionId, student.id, now, factors)]
         && (later <= issued + QrCode.ExpirySeconds ==>
               second.1 == Err(Problem(BadRequest, "Attendance already marked for this session")))
         && second.0 == first.0
  {
    var created := SessionEndpoints.CreateEndpoint(db.sessions, key, faculty, courseCode, roomNumber, sessionId, generated, issued);
    SessionEndpoints.CreateKeepsWellKeyed(db.sessions, key, faculty, courseCode, roomNumber, sessionId, generated, issued);
    var s := created.1.body.session;
    assert s.id == sessionId && s.courseCode == courseCode && s.status == Sessions.Active;
    var facts := SessionEndpoints.Facts(s);
    assert facts.sessionId == sessionId;
    var db1 := Db(created.0, db.records);
    var token := created.1.body.qr.encryptedData;
    assert token == QrCode.GenerateSessionQr(key, facts, issued).encryptedData;
    FirstScan(db1, key, facts, issued, student, factors, recordId, now);
    SecondScan(db1, key, student, token, factors, recordId, now, factors2, recordId2, later);
    if later <= issued + QrCode.ExpirySeconds {
      QrCode.GeneratedTokenLifetime(key, facts, issued, later);
    }
  }

  /** A student's first scan of a live token for an ACTIVE session. */
  lemma FirstScan(
    db: Db, key: Cipher.Key, facts: QrCode.SessionFacts, issued: nat,
    student: Caller, factors: Factors, recordId: string, now: nat)
    requires Sessions.WellKeyed(db.sessions) && student.role == Student
    requires facts.sessionId != ""
    requires facts.sessionId in db.sessions && db.sessions[facts.sessionId].status == Sessions.Active
    requires FindRecord(db.records, facts.sessionId, student.id).None? && !IdTaken(db.records, recordId)
    requires now <= issued + QrCode.ExpirySeconds
    ensures
      var token := QrCode.GenerateSessionQr(key, facts, issued).encryptedData;
      var r := MarkWithQrEndpoint(db, key, student, token, factors, recordId, now);
      && r.1 == Ok(Confirmation(MarkedMessage, facts.sessionId, db.sessions[facts.sessionId].courseCode, now))
      && r.0 == db.records + [Attendance(recordId, facts.sessionId, student.id, now, factors)]
  {
    IssuedTokenChecksIn(db, key, facts, issued, student.id, factors, recordId, now);
  }

  /** Any later scan of a token that already checked the student in is
      refused and writes nothing; while the token still verifies the
      refusal is "already marked". */
  lemma SecondScan(
    db: Db, key: Cipher.Key, student: Caller, token: string,
    factors: Factors, recordId: string, now: nat, factors2: Factors, recordId2: string, later: nat)
    requires Sessions.WellKeyed(db.sessions) && student.role == Student
    requires MarkWithQrEndpoint(db, key, student, token, factors, recordId, now).1.Ok?
    ensures
      var first := MarkWithQrEndpoint(db, key, student, token, factors, recordId, now);
      var second := MarkWithQrEndpoint(Db(db.sessions, first.0), key, student, token, factors2, recordId2, later);
      && second.0 == first.0
      && second.1.Err?
      && (QrCode.VerifyQrData(key, token, later).Valid? ==>
            second.1 == Err(Problem(BadRequest, "Attendance already marked for this session")))
  {
    var m1 := MarkAttendanceWithQr(db, key, student.id, token, factors, recordId, now);
    RouteWrites(db, key, student, token, factors, recordId, now);
    assert m1.reply.Marked?;
    var db2 := Db(db.sessions, m1.records);
    RescanAfterCheckIn(db, key, student.id, token, factors, recordId, now, factors2, recordId2, later);
    var m2 := MarkAttendanceWithQr(db2, key, student.id, token, factors2, recordId2, later);
    assert m2.records == m1.records && m2.reply.Refused?;
    RouteWrites(db2, key, student, token, factors2, recordId2, later);
  }

  /** For a student the check-in routes write what the service writes and
      turn its refusal into a 400 with the service's message. */
  lemma RouteWrites(
    db: Db, key: Cipher.Key, student: Caller, token: string, factors: Factors, newId: string, now: nat)
    requires Sessions.WellKeyed(db.sessions) && student.role == Student
    ensures
      var m := MarkAttendanceWithQr(db, key, student.id, token, factors, newId, now);
      var r := MarkWithQrEndpoint(db, key, student, token, factors, newId, now);
      && r.0 == m.records
      && (r.1.Ok? <==> m.reply.Marked?)
      && (m.reply.Refused? ==> r.1 == Err(Problem(BadRequest, QrMarkMessage(m.reply.error))))
  {
  }
}

=== FILE: cipher.dfy ===
/** The symmetric authenticated cipher that seals check-in tokens (Fernet in
    the source, keyed by a SHA-256 digest of the server secret).

    The model keeps what the token protocol relies on and nothing else: a
    token is a fixed marker, an authentication tag computed from the key and
    the plaintext, and the plaintext. `Decrypt` is a left inverse of
    `Encrypt` under the same key and accepts nothing that `Encrypt` under that
    key did not produce; a different key or any single altered character is
    rejected. Secrecy of the plaintext is not modelled. */
module Cipher {
  import opened Wrappers
  import Numerals

  /** Width, in hexadecimal digits, of the authentication tag. */
  const TagWidth: nat := 6

  /** Number of distinct tags (16 to the power `TagWidth`). */
  const TagModulus: nat := 0x100_0000

  /** First character of every token: a Fernet token's version byte 0x80
      shows as a leading `g` once base64-encoded. */
  const Marker: char := 'g'

  /** The key derived from the server secret; its derivation is not modelled. */
  type Key = k: nat | k < TagModulus

  lemma TagModulusIsPow16()
    ensures Numerals.Pow16(TagWidth) == TagModulus
  {
    assert Numerals.Pow16(3) == 0x1000;
  }

  /** Sum of the character codes of `s`. */
  function Checksum(s: string): nat {
    if |s| == 0 then 0 else Checksum(s[..|s| - 1]) + s[|s| - 1] as int
  }

  /** The authentication tag of `plain` under `key`. */
  function Tag(key: Key, plain: string): (t: nat)
    ensures t < TagModulus
  {
    (key + Checksum(plain)) % TagModulus
  }

  /** Seals `plain` under `key` (`_encrypt_data`). */
  function Encrypt(key: Key, plain: string): (token: string)
    ensures |token| == 1 + TagWidth + |plain|
    ensures token != plain
  {
    [Marker] + Numerals.HexFixed(Tag(key, plain), TagWidth) + plain
  }

  /** Opens a token (`_decrypt_data`); `None` stands for the raised
      `ValueError` on a malformed, foreign or altered token. */
  function Decrypt(key: Key, token: string): (r: Option<string>)
    ensures r.Some? ==> |r.value| + 1 + TagWidth == |token|
  {
    if |token| < 1 + TagWidth || token[0] != Marker then None
    else
      var plain := token[1 + TagWidth..];
      match Numerals.ReadDigits(token[1..1 + TagWidth], 16)
      case None => None
      case Some(t) => if t == Tag(key, plain) then Some(plain) else None
  }

  /** Opening a sealed text gives it back. */
  lemma DecryptEncrypt(key: Key, plain: string)
    ensures Decrypt(key, Encrypt(key, plain)) == Some(plain)
  {
    var token := Encrypt(key, plain);
    var tag := Numerals.HexFixed(Tag(key, plain), TagWidth);
    assert token[1..1 + TagWidth] == tag;
    assert token[1 + TagWidth..] == plain;
    TagModulusIsPow16();
    Numerals.HexFixedRoundTrip(Tag(key, plain), TagWidth);
  }

  /** Whatever opens under `key` is exactly the sealing of what it opens to. */
  lemma DecryptOnlyImages(key: Key, token: string)
    ensures Decrypt(key, token).Some? ==> token == Encrypt(key, Decrypt(key, token).value)
  {
    if Decrypt(key, token).Some? {
      var plain := token[1 + TagWidth..];
      var t :| Numerals.ReadDigits(token[1..1 + TagWidth], 16) == Some(t);
      Numerals.HexReadCanonical(token[1..1 + TagWidth], t);
      assert token == [token[0]] + token[1..1 + TagWidth] + plain;
    }
  }

  /** Encrypt never maps two plaintexts to one token. */
  lemma EncryptInjective(key: Key, p: string, q: string)
    ensures Encrypt(key, p) == Encrypt(key, q) ==> p == q
  {
    DecryptEncrypt(key, p);
    DecryptEncrypt(key, q);
  }

  /** Opening a token laid out as marker, tag `t` and `plain` accepts it
      exactly when `t` is the tag of `plain` under `key`. */
  lemma OpenLaidOut(key: Key, t: nat, plain: string)
    requires t < TagModulus
    ensures Decrypt(key, [Marker] + Numerals.HexFixed(t, TagWidth) + plain)
         == (if t == Tag(key, plain) then Some(plain) else None)
  {
    var token := [Marker] + Numerals.HexFixed(t, TagWidth) + plain;
    assert token[1 + TagWidth..] == plain;
    assert token[1..1 + TagWidth] == Numerals.HexFixed(t, TagWidth);
    TagModulusIsPow16();
    Numerals.HexFixedRoundTrip(t, TagWidth);
  }

  /** Two numbers less than one modulus apart leave different remainders. */
  lemma ModDiffers(x: int, y: int)
    requires x < y < x + TagModulus
    ensures x % TagModulus != y % TagModulus
  {
  }

  /** A token sealed under one key does not open under another. */
  lemma WrongKeyFails(k1: Key, k2: Key, plain: string)
    requires k1 != k2
    ensures Decrypt(k2, Encrypt(k1, plain)) == None
  {
    var c := Checksum(plain);
    if k1 < k2 {
      ModDiffers(k1 + c, k2 + c);
    } else {
      ModDiffers(k2 + c, k1 + c);
    }
    assert Tag(k1, plain) != Tag(k2, plain);
    assert Encrypt(k1, plain) == [Marker] + Numerals.HexFixed(Tag(k1, plain), TagWidth) + plain;
    OpenLaidOut(k2, Tag(k1, plain), plain);
  }

  /** Replacing one character changes the checksum by exactly the change of
      that character's code. */
  lemma {:induction false} ChecksumUpdate(s: string, j: nat, c: char)
    requires j < |s|
    ensures Checksum(s[j := c]) == Checksum(s) - s[j] as int + c as int
    decreases |s|
  {
    var u := s[j := c];
    var n := |s| - 1;
    if j < n {
      assert u[..n] == s[..n][j := c];
      ChecksumUpdate(s[..n], j, c);
    } else {
      assert u[..n] == s[..n];
    }
  }

  /** An altered marker is rejected outright. */
  lemma TamperMarkerFails(key: Key, plain: string, c: char)
    requires c != Marker
    ensures Decrypt(key, Encrypt(key, plain)[0 := c]) == None
  {
  }

  /** An altered tag no longer matches the plaintext it travels with. */
  lemma TamperTagFails(key: Key, plain: string, i: nat, c: char)
    requires 1 <= i < 1 + TagWidth
    requires c != Encrypt(key, plain)[i]
    ensures Decrypt(key, Encrypt(key, plain)[i := c]) == None
  {
    var token := Encrypt(key, plain);
    var forged := token[i := c];
    assert forged[1 + TagWidth..] == token[1 + TagWidth..] == plain;
    var tag := forged[1..1 + TagWidth];
    assert tag != token[1..1 + TagWidth] by {
      assert tag[i - 1] == c != token[1..1 + TagWidth][i - 1];
    }
    match Numerals.ReadDigits(tag, 16)
    case None =>
    case Some(t) =>
      Numerals.HexReadCanonical(tag, t);
      assert t != Tag(key, plain);
  }

  /** An altered plaintext character no longer matches the tag. */
  lemma TamperBodyFails(key: Key, plain: string, i: nat, c: char)
    requires 1 + TagWidth <= i < |Encrypt(key, plain)|
    requires c != Encrypt(key, plain)[i]
    ensures Decrypt(key, Encrypt(key, plain)[i := c]) == None
  {
    var tag := Numerals.HexFixed(Tag(key, plain), TagWidth);
    var j: nat := i - 1 - TagWidth;
    var altered := plain[j := c];
    assert Encrypt(key, plain)[i := c] == [Marker] + tag + altered;
    ChecksumUpdate(plain, j, c);
    var x, y := key + Checksum(plain), key + Checksum(altered);
    if plain[j] < c {
      ModDiffers(x, y);
    } else {
      ModDiffers(y, x);
    }
    assert Tag(key, plain) != Tag(key, altered);
    OpenLaidOut(key, Tag(key, plain), altered);
  }

  /** Altering any single character of a token makes it fail to open. */
  lemma TamperFails(key: Key, plain: string, i: nat, c: char)
    requires i < |Encrypt(key, plain)|
    requires c != Encrypt(key, plain)[i]
    ensures Decrypt(key, Encrypt(key, plain)[i := c]) == None
  {
    if i == 0 {
      TamperMarkerFails(key, plain, c);
    } else if i < 1 + TagWidth {
      TamperTagFails(key, plain, i, c);
    } else {
      TamperBodyFails(key, plain, i, c);
    }
  }
}

=== FILE: courses.dfy ===
/** `CourseService`: the course catalogue, keyed by its unique course code. */
module Courses {
  import opened Wrappers
  import opened Registry

  /** The columns of a course besides its id and code; only the name is
      non-nullable. */
  datatype CourseInfo = CourseInfo(name: string, department: Option<string>, description: Option<string>)

  /** A row of the `courses` table; its key is the course code. */
  type Course = Row<CourseInfo>

  /** `CourseUpdate` after `dict(exclude_unset=True)`. */
  datatype CoursePatch = CoursePatch(
    code: Field<string>, name: Field<string>, department: Field<string>, description: Field<string>)

  /** Assigns the patched columns; `None` when the name would be nulled. */
  function ApplyPatch(info: CourseInfo, p: CoursePatch): (r: Option<CourseInfo>)
    ensures r.None? <==> p.name.Null?
    ensures r.Some? ==>
      && Some(r.value.name) == Patched(Some(info.name), p.name)
      && r.value.department == Patched(info.department, p.department)
      && r.value.description == Patched(info.description, p.description)
  {
    match Patched(Some(info.name), p.name)
    case None => None
    case Some(name) =>
      Some(CourseInfo(name, Patched(info.department, p.department), Patched(info.description, p.description)))
  }

  /** The patch as the function the registry applies to a row's data. */
  function Patcher(p: CoursePatch): CourseInfo -> Option<CourseInfo> {
    info => ApplyPatch(info, p)
  }

  /** The text of the service's `ValueError`. */
  function DuplicateMessage(code: string): string {
    "Course with code " + code + " already exists"
  }

  /** `get_course_by_code`. */
  function GetCourseByCode(rows: seq<Course>, code: string): (r: Option<Course>)
    ensures r.None? <==> forall i :: 0 <= i < |rows| ==> rows[i].key != code
    ensures UniqueKeys(rows) && r.Some? ==> exists i :: 0 <= i < |rows| && rows[i] == r.value && rows[i].key == code
  {
    FindByKey(rows, code)
  }

  /** `create_course`: refused when the code is taken; otherwise the new
      course is found under its code. */
  function CreateCourse(rows: seq<Course>, newId: string, code: string, info: CourseInfo)
    : (r: Result<(seq<Course>, Course), Error>)
    ensures r == Failure(DuplicateKey(code)) <==> GetCourseByCode(rows, code).Some?
    ensures r.Success? ==>
      && r.value.1 == Row(newId, code, info)
      && GetCourseByCode(r.value.0, code) == Some(r.value.1)
      && |r.value.0| == |rows| + 1
  {
    var r := Create(rows, newId, code, info);
    if r.Success? then
      CreateThenFind(rows, newId, code, info);
      r
    else r
  }

  /** `update_course`. */
  function UpdateCourse(rows: seq<Course>, id: string, p: CoursePatch): (r: Updated<CourseInfo>)
    ensures r.NotFound? <==> FindById(rows, id).None?
    ensures r.Saved? ==>
      && var before := FindById(rows, id).value;
         && Some(r.row.key) == Patched(Some(before.key), p.code)
         && ApplyPatch(before.data, p) == Some(r.row.data)
    ensures r.Rejected? && r.error.DuplicateKey? ==> p.code.Set? && p.code.value != "" && r.error.key == p.code.value
  {
    Update(rows, id, p.code, Patcher(p))
  }

  /** `delete_course`: refused while an assignment references the course. */
  function DeleteCourse(rows: seq<Course>, id: string, referenced: set<string>): (r: Result<(seq<Course>, bool), Error>)
    ensures r == Failure(ConstraintViolation) <==> FindById(rows, id).Some? && id in referenced
    ensures r.Success? ==> (r.value.1 <==> FindById(rows, id).Some?)
    ensures r.Success? ==> forall c :: c in r.value.0 <==> c in rows && c.id != id
  {
    Delete(rows, id, referenced)
  }

  /** An update that sets nothing saves the course unchanged. */
  lemma EmptyPatchChangesNothing(rows: seq<Course>, id: string)
    requires Valid(rows) && FindById(rows, id).Some?
    ensures UpdateCourse(rows, id, CoursePatch(Unset, Unset, Unset, Unset)) == Saved(rows, FindById(rows, id).value)
  {
    var p := CoursePatch(Unset, Unset, Unset, Unset);
    var r := UpdateCourse(rows, id, p);
    var before := FindById(rows, id).value;
    assert !KeyHeldByOther(rows, before.key, id) by {
      var i := IndexOfId(rows, id).value;
      assert rows[i] == before;
    }
    assert r.Saved?;
    assert r.row == before;
    assert r.rows == rows by {
      forall i | 0 <= i < |rows| ensures r.rows[i] == rows[i] {
        if rows[i].id == id {
          var j := IndexOfId(rows, id).value;
          assert rows[j] == before;
          assert i == j;
        }
      }
    }
  }

  /** A course's name cannot be cleared: sending `null` for it never saves. */
  lemma NameCannotBeCleared(rows: seq<Course>, id: string, p: CoursePatch)
    requires p.name.Null?
    ensures !UpdateCourse(rows, id, p).Saved?
  {
  }

  /** Codes stay unique through any create, update or delete. */
  lemma CodesStayUnique(rows: seq<Course>, newId: string, code: string, info: CourseInfo, id: string, p: CoursePatch, referenced: set<string>)
    requires Valid(rows)
    ensures CreateCourse(rows, newId, code, info).Success? ==> Valid(CreateCourse(rows, newId, code, info).value.0)
    ensures UpdateCourse(rows, id, p).Saved? ==> Valid(UpdateCourse(rows, id, p).rows)
    ensures DeleteCourse(rows, id, referenced).Success? ==> Valid(DeleteCourse(rows, id, referenced).value.0)
  {
    if UpdateCourse(rows, id, p).Saved? {
      UpdateKeepsValid(rows, id, p.code, Patcher(p));
    }
    CreateKeepsValid(rows, newId, code, info);
    DeleteKeepsValid(rows, id, referenced);
  }
}

=== FILE: http.dfy ===
/** What the endpoints share: the authenticated caller, the role
    dependencies that admit or refuse it, and the HTTP outcome of a request. */
module Http {
  import opened Wrappers
  import Numerals

  /** `UserRole`. */
  datatype Role = Admin | Faculty | Student

  /** The user the bearer token resolved to. Decoding the token is not part
      of this model: the caller arrives already authenticated. */
  datatype Caller = Caller(id: string, role: Role, active: bool)

  /** An `HTTPException`: a status code and its `detail`. */
  datatype Problem = Problem(status: nat, detail: string)

  /** The outcome of a request: a body, or an error response. */
  datatype Response<+T> = Ok(body: T) | Err(problem: Problem)

  const BadRequest: nat := 400
  const Forbidden: nat := 403
  const NotFound: nat := 404
  const Unprocessable: nat := 422
  const ServerError: nat := 500

  /** What the app-wide `exception_handler(Exception)` answers for an
      exception no route catches: a 500 whose `detail` is the exception's
      text. */
  function Crash(text: string): Problem {
    Problem(ServerError, text)
  }

  /** The dependency an endpoint declares for its caller. */
  datatype Gate =
    | AnyUser       // `get_current_user`
    | ActiveUser    // `get_current_active_user`
    | FacultyUser   // `get_current_faculty`
    | StudentUser   // `get_current_student`

  /** The error a dependency raises for `caller`, if any. Only
      `get_current_active_user` looks at the active flag; the role checks
      do not. */
  function Refusal(gate: Gate, caller: Caller): (r: Option<Problem>)
    ensures gate == AnyUser ==> r.None?
    ensures gate == ActiveUser ==> (r.Some? <==> !caller.active)
    ensures gate == FacultyUser ==> (r.Some? <==> caller.role != Faculty)
    ensures gate == StudentUser ==> (r.Some? <==> caller.role != Student)
    ensures r.Some? ==> r.value.status == (if gate == ActiveUser then BadRequest else Forbidden)
  {
    match gate
    case AnyUser => None
    case ActiveUser => if caller.active then None else Some(Problem(BadRequest, "Inactive user"))
    case FacultyUser =>
      if caller.role == Faculty then None else Some(Problem(Forbidden, "Faculty access required"))
    case StudentUser =>
      if caller.role == Student then None else Some(Problem(Forbidden, "Student access required"))
  }

  /** The text of an `HTTPException` as `str(e)` renders it. */
  function Describe(p: Problem): string {
    Numerals.Decimal(p.status) + ": " + p.detail
  }

  /** A catch-all `except Exception` that re-raises every inner error as
      `status`, with `prefix` and the inner error's text as its detail. */
  function Rewrap(status: nat, prefix: string, inner: Problem): (p: Problem)
    ensures p.status == status
    ensures |prefix| <= |p.detail| && p.detail[..|prefix|] == prefix
  {
    Problem(status, prefix + Describe(inner))
  }
}

=== FILE: json.dfy ===
/** The slice of JSON the check-in token carries: one object whose members
    all have string values, written the way Python's `json.dumps` lays it
    out (`{"k": "v", "k2": "v2"}`) and read back by a strict parser standing
    in for `json.loads`. Only the quote and backslash escapes are modelled. */
module Json {
  import opened Wrappers

  /** A JSON object with string values, members in insertion order. */
  type Document = seq<(string, string)>

  /** The value of `name`; as with a Python dict built by `json.loads`, the
      last occurrence of a repeated name wins. */
  function Get(d: Document, name: string): (r: Option<string>)
    ensures r.None? <==> forall i :: 0 <= i < |d| ==> d[i].0 != name
    ensures r.Some? ==> exists i :: 0 <= i < |d| && d[i] == (name, r.value) && forall j :: i < j < |d| ==> d[j].0 != name
  {
    if |d| == 0 then None
    else if d[|d| - 1].0 == name then Some(d[|d| - 1].1)
    else
      var front := d[..|d| - 1];
      var r := Get(front, name);
      assert forall i :: 0 <= i < |front| ==> front[i] == d[i];
      assert r.Some? ==> exists i :: 0 <= i < |d| && d[i] == (name, r.value) && forall j :: i < j < |d| ==> d[j].0 != name by {
        if r.Some? {
          var i :| 0 <= i < |front| && front[i] == (name, r.value) && forall j :: i < j < |front| ==> front[j].0 != name;
          assert forall j :: i < j < |d| ==> d[j].0 != name by {
            forall j | i < j < |d| ensures d[j].0 != name {
              if j < |front| {
                assert front[j] == d[j];
              }
            }
          }
        }
      }
      r
  }

  /** Whether no name occurs twice in `d`. */
  predicate DistinctNames(d: Document) {
    forall i, j :: 0 <= i < j < |d| ==> d[i].0 != d[j].0
  }

  /** In a document without repeated names, each member's value is found
      under its name. */
  lemma GetDistinct(d: Document, i: nat)
    requires DistinctNames(d) && i < |d|
    ensures Get(d, d[i].0) == Some(d[i].1)
  {
  }

  /** One character of a string literal's body. */
  function EscapeChar(c: char): string {
    if c == '"' || c == '\\' then ['\\', c] else [c]
  }

  /** A string literal's body: quote and backslash are backslash-escaped. */
  function Escape(s: string): string {
    if |s| == 0 then [] else EscapeChar(s[0]) + Escape(s[1..])
  }

  /** A string literal. */
  function Quote(s: string): string {
    ['"'] + Escape(s) + ['"']
  }

  function Member(m: (string, string)): string {
    Quote(m.0) + ": " + Quote(m.1)
  }

  function Members(d: Document): string {
    if |d| == 0 then []
    else if |d| == 1 then Member(d[0])
    else Member(d[0]) + ", " + Members(d[1..])
  }

  /** The text `json.dumps` produces for `d`. */
  function Serialize(d: Document): string {
    "{" + Members(d) + "}"
  }

  /** Reads a string literal's body up to its closing quote; `t` starts just
      after the opening quote. Yields the decoded body and the text after
      the closing quote. */
  function ReadBody(t: string): (r: Option<(string, string)>)
    ensures r.Some? ==> |r.value.1| < |t|
  {
    if |t| == 0 then None
    else if t[0] == '"' then Some(([], t[1..]))
    else if t[0] == '\\' then
      if |t| >= 2 && (t[1] == '"' || t[1] == '\\') then
        match ReadBody(t[2..])
        case None => None
        case Some(body) => Some(([t[1]] + body.0, body.1))
      else None
    else
      match ReadBody(t[1..])
      case None => None
      case Some(body) => Some(([t[0]] + body.0, body.1))
  }

  /** Reads `"name": "value"` members separated by `, ` up to the closing
      brace, which must end the text. */
  function ReadMembers(t: string): (r: Option<Document>)
    decreases |t|, 1
  {
    if |t| == 0 || t[0] != '"' then None
    else
      match ReadBody(t[1..])
      case None => None
      case Some(name) =>
        var t1 := name.1;
        if |t1| < 3 || t1[..3] != ": \"" then None
        else
          match ReadBody(t1[3..])
          case None => None
          case Some(value) => ReadAfterMember((name.0, value.0), value.1)
  }

  /** What follows a member: the closing brace ending the text, or `, ` and
      further members. */
  function ReadAfterMember(m: (string, string), t: string): (r: Option<Document>)
    decreases |t|, 0
  {
    if t == "}" then Some([m])
    else if |t| >= 2 && t[..2] == ", " then
      match ReadMembers(t[2..])
      case None => None
      case Some(rest) => Some([m] + rest)
    else None
  }

  /** The stand-in for `json.loads`: `None` for any text that is not a
      complete object in the laid-out form. */
  function Parse(t: string): (r: Option<Document>) {
    if |t| < 2 || t[0] != '{' then None
    else if t[1..] == "}" then Some([])
    else ReadMembers(t[1..])
  }

  /** The body reader stops at the first unescaped quote, whatever follows. */
  lemma {:induction false} ReadBodyEscaped(s: string, rest: string)
    ensures ReadBody(Escape(s) + ['"'] + rest) == Some((s, rest))
  {
    if |s| == 0 {
      assert Escape(s) + ['"'] + rest == ['"'] + rest;
    } else {
      var t := Escape(s) + ['"'] + rest;
      ReadBodyEscaped(s[1..], rest);
      assert t == EscapeChar(s[0]) + (Escape(s[1..]) + ['"'] + rest);
      if s[0] == '"' || s[0] == '\\' {
        assert t[2..] == Escape(s[1..]) + ['"'] + rest;
      } else {
        assert t[1..] == Escape(s[1..]) + ['"'] + rest;
      }
      assert [s[0]] + s[1..] == s;
    }
  }

  /** Reading one laid-out member hands the rest of the text on unchanged. */
  lemma ReadMemberStep(m: (string, string), tail: string)
    ensures ReadMembers(Member(m) + tail) == ReadAfterMember(m, tail)
  {
    var v := Escape(m.1) + ['"'] + tail;
    var t1 := ": \"" + v;
    var s := Member(m) + tail;
    MemberRegrouped(m, tail);
    assert s[0] == '"';
    assert s[1..] == Escape(m.0) + ['"'] + t1;
    ReadBodyEscaped(m.0, t1);
    assert t1[..3] == ": \"";
    assert t1[3..] == v;
    ReadBodyEscaped(m.1, tail);
  }

  /** A laid-out member followed by `tail`, regrouped the way the reader
      consumes it. */
  lemma MemberRegrouped(m: (string, string), tail: string)
    ensures Member(m) + tail == ['"'] + (Escape(m.0) + ['"'] + (": \"" + (Escape(m.1) + ['"'] + tail)))
  {
    var q := ['"'];
    var e0, e1 := Escape(m.0), Escape(m.1);
    assert Member(m) == q + e0 + q + ": " + (q + e1 + q);
    assert ": \"" == ": " + q;
  }

  lemma {:induction false} ReadMembersRoundTrip(d: Document)
    requires |d| > 0
    ensures ReadMembers(Members(d) + "}") == Some(d)
    decreases |d|
  {
    if |d| == 1 {
      ReadMemberStep(d[0], "}");
      assert Members(d) == Member(d[0]);
      assert [d[0]] == d;
    } else {
      var rest := Members(d[1..]) + "}";
      var tail := ", " + rest;
      MembersRegrouped(d);
      ReadMemberStep(d[0], tail);
      assert tail[..2] == ", ";
      assert tail[2..] == rest;
      ReadMembersRoundTrip(d[1..]);
      assert ReadAfterMember(d[0], tail) == Some([d[0]] + d[1..]);
      assert [d[0]] + d[1..] == d;
    }
  }

  /** A laid-out list of several members, split after its first member. */
  lemma MembersRegrouped(d: Document)
    requires |d| > 1
    ensures Members(d) + "}" == Member(d[0]) + (", " + (Members(d[1..]) + "}"))
  {
  }

  /** Parsing what was serialized gives back the same document. */
  lemma ParseSerialize(d: Document)
    ensures Parse(Serialize(d)) == Some(d)
  {
    var t := Serialize(d);
    if |d| == 0 {
      assert t[1..] == "}";
    } else {
      assert t[1..] == Members(d) + "}";
      ReadMembersRoundTrip(d);
      assert |Members(d)| > 0;
    }
  }

  /** Distinct documents serialize to distinct texts. */
  lemma SerializeInjective(d1: Document, d2: Document)
    ensures Serialize(d1) == Serialize(d2) ==> d1 == d2
  {
    ParseSerialize(d1);
    ParseSerialize(d2);
  }

  /** The body reader accepts only what `Escape` writes. */
  lemma {:induction false} ReadBodyCanonical(t: string)
    requires ReadBody(t).Some?
    ensures t == Escape(ReadBody(t).value.0) + ['"'] + ReadBody(t).value.1
    decreases |t|
  {
    var r := ReadBody(t).value;
    if t[0] == '"' {
      assert t == ['"'] + t[1..];
    } else if t[0] == '\\' {
      ReadBodyCanonical(t[2..]);
      var inner := ReadBody(t[2..]).value;
      assert r.0 == [t[1]] + inner.0;
      assert Escape(r.0) == EscapeChar(t[1]) + Escape(inner.0) by {
        assert r.0[1..] == inner.0;
      }
      assert t == [t[0], t[1]] + t[2..];
    } else {
      ReadBodyCanonical(t[1..]);
      var inner := ReadBody(t[1..]).value;
      assert r.0 == [t[0]] + inner.0;
      assert Escape(r.0) == EscapeChar(t[0]) + Escape(inner.0) by {
        assert r.0[1..] == inner.0;
      }
      assert t == [t[0]] + t[1..];
    }
  }

  /** Reassembles one member from the pieces the reader consumed. */
  lemma MemberLayout(t: string, name: string, t1: string, value: string, rest: string)
    requires t == ['"'] + (Escape(name) + ['"'] + t1)
    requires t1 == ": \"" + (Escape(value) + ['"'] + rest)
    ensures t == Member((name, value)) + rest
  {
    assert Member((name, value)) == ['"'] + Escape(name) + ['"'] + ": " + ['"'] + Escape(value) + ['"'];
  }

  /** The member reader accepts only laid-out members. */
  lemma {:induction false} ReadMembersCanonical(t: string)
    requires ReadMembers(t).Some?
    ensures |ReadMembers(t).value| > 0
    ensures t == Members(ReadMembers(t).value) + "}"
    decreases |t|, 1
  {
    var name := ReadBody(t[1..]).value;
    var t1 := name.1;
    var value := ReadBody(t1[3..]).value;
    var m := (name.0, value.0);
    assert ReadMembers(t) == ReadAfterMember(m, value.1);
    ReadBodyCanonical(t[1..]);
    ReadBodyCanonical(t1[3..]);
    assert t == ['"'] + t[1..];
    assert t1 == t1[..3] + t1[3..];
    MemberLayout(t, name.0, t1, value.0, value.1);
    ReadAfterMemberCanonical(m, value.1);
  }

  lemma {:induction false} ReadAfterMemberCanonical(m: (string, string), t: string)
    requires ReadAfterMember(m, t).Some?
    ensures |ReadAfterMember(m, t).value| > 0
    ensures ReadAfterMember(m, t).value[0] == m
    ensures Member(m) + t == Members(ReadAfterMember(m, t).value) + "}"
    decreases |t|, 0
  {
    var d := ReadAfterMember(m, t).value;
    if t != "}" {
      ReadMembersCanonical(t[2..]);
      var rest := ReadMembers(t[2..]).value;
      assert d == [m] + rest;
      assert d[1..] == rest;
      assert t == ", " + t[2..];
    }
  }

  /** `Parse` accepts exactly the serializations: whatever it reads is the
      serialization of the document it returns. */
  lemma ParseCanonical(t: string, d: Document)
    requires Parse(t) == Some(d)
    ensures t == Serialize(d)
  {
    if t[1..] == "}" {
      assert t == "{" + t[1..];
    } else {
      ReadMembersCanonical(t[1..]);
      assert t == "{" + t[1..];
    }
  }
}

=== FILE: numerals.dfy ===
/** Digit strings: the fixed-width lower-case hexadecimal used inside the
    token envelope and for proximity tokens (`secrets.token_hex`), and the
    decimal rendering the model uses for timestamps where the source writes
    ISO-8601 text. */
module Numerals {
  import opened Wrappers

  /** The radixes in use: decimal timestamps and hexadecimal digests. */
  predicate IsRadix(base: nat) {
    base == 10 || base == 16
  }

  /** The lower-case digit character for `d` (`0`-`9`, `a`-`f`). */
  function DigitChar(d: nat): (c: char)
    requires d < 16
  {
    if d < 10 then ('0' as int + d) as char else ('a' as int + d - 10) as char
  }

  /** The value of the digit `c` in `base`, if it is one. */
  function DigitValue(c: char, base: nat): (r: Option<nat>)
    requires IsRadix(base)
    ensures r.Some? ==> r.value < base && DigitChar(r.value) == c
  {
    if '0' <= c <= '9' then Some(c as int - '0' as int)
    else if base == 16 && 'a' <= c <= 'f' then Some(c as int - 'a' as int + 10)
    else None
  }

  /** Every digit character is read back as its own value. */
  lemma DigitRoundTrip(d: nat, base: nat)
    requires IsRadix(base) && d < base
    ensures DigitValue(DigitChar(d), base) == Some(d)
  {
  }

  /** Whether `s` is a lower-case hexadecimal string. */
  predicate IsHex(s: string) {
    forall i :: 0 <= i < |s| ==> DigitValue(s[i], 16).Some?
  }

  /** 16 to the power `w`: the number of values `w` hexadecimal digits hold. */
  function Pow16(w: nat): (r: nat)
    ensures r >= 1
  {
    if w == 0 then 1 else 16 * Pow16(w - 1)
  }

  /** `n` as exactly `w` hexadecimal digits, most significant first. */
  function HexFixed(n: nat, w: nat): (s: string)
    ensures |s| == w
    ensures IsHex(s)
  {
    if w == 0 then []
    else
      var s := HexFixed(n / 16, w - 1) + [DigitChar(n % 16)];
      DigitRoundTrip(n % 16, 16);
      s
  }

  /** The value of a digit string in `base`; the empty string reads as 0
      and any non-digit makes the whole reading fail. */
  function ReadDigits(s: string, base: nat): (r: Option<nat>)
    requires IsRadix(base)
  {
    if |s| == 0 then Some(0)
    else
      match ReadDigits(s[..|s| - 1], base)
      case None => None
      case Some(high) =>
        match DigitValue(s[|s| - 1], base)
        case None => None
        case Some(d) => Some(high * base + d)
  }

  /** Reading a fixed-width rendering gives back the number it rendered. */
  lemma {:induction false} HexFixedRoundTrip(n: nat, w: nat)
    requires n < Pow16(w)
    ensures ReadDigits(HexFixed(n, w), 16) == Some(n)
  {
    if w > 0 {
      var s := HexFixed(n, w);
      assert s[..w - 1] == HexFixed(n / 16, w - 1);
      HexFixedRoundTrip(n / 16, w - 1);
      DigitRoundTrip(n % 16, 16);
    }
  }

  /** A successful hexadecimal reading is canonical: rendering the value at
      the same width gives back the very string that was read. */
  lemma {:induction false} HexReadCanonical(s: string, m: nat)
    requires ReadDigits(s, 16) == Some(m)
    ensures m < Pow16(|s|)
    ensures HexFixed(m, |s|) == s
  {
    if |s| > 0 {
      var front := s[..|s| - 1];
      var high :| ReadDigits(front, 16) == Some(high);
      var d :| DigitValue(s[|s| - 1], 16) == Some(d);
      HexReadCanonical(front, high);
      assert m == high * 16 + d;
      assert m / 16 == high && m % 16 == d;
      assert s == front + [s[|s| - 1]];
    }
  }

  /** `n` in decimal without leading zeros. */
  function Decimal(n: nat): (s: string)
    ensures |s| > 0
  {
    if n < 10 then [DigitChar(n)] else Decimal(n / 10) + [DigitChar(n % 10)]
  }

  /** A non-empty decimal digit string's value. */
  function ParseDecimal(s: string): (r: Option<nat>) {
    if |s| == 0 then None else ReadDigits(s, 10)
  }

  /** Decimal rendering is read back exactly. */
  lemma {:induction false} DecimalRoundTrip(n: nat)
    ensures ParseDecimal(Decimal(n)) == Some(n)
  {
    DigitRoundTrip(n % 10, 10);
    if n < 10 {
      var s := Decimal(n);
      assert s[..|s| - 1] == [];
      assert ReadDigits(s[..|s| - 1], 10) == Some(0);
    } else {
      var s := Decimal(n);
      assert s[..|s| - 1] == Decimal(n / 10);
      DecimalRoundTrip(n / 10);
    }
  }

  /** Distinct numbers have distinct decimal renderings. */
  lemma DecimalInjective(a: nat, b: nat)
    ensures Decimal(a) == Decimal(b) ==> a == b
  {
    DecimalRoundTrip(a);
    DecimalRoundTrip(b);
  }
}

=== FILE: persistence.dfy ===
/** What the database can refuse on a write, as far as the model goes. */
module Persistence {

  /** Why an insert failed: the primary key is already taken (a `uuid4`
      collision), or a non-nullable column was given `None`. */
  datatype Fault = DuplicateId(id: string) | NullColumn(column: string)

  /** The text of the database error. It stands in for the driver's own
      message, which names the table and depends on the driver. */
  function Message(f: Fault): string {
    match f
    case DuplicateId(id) => "duplicate id " + id
    case NullColumn(column) => "null value in column " + column
  }
}

=== FILE: qr_code.dfy ===
/** The check-in token service (`QRCodeService`): builds the session payload,
    seals it, and on redemption opens, parses and expiry-checks it. Image
    rendering and file handling are outside the model; time is a count of
    seconds supplied by the caller. */
module QrCode {
  import opened Wrappers
  import Numerals
  import Json
  import Cipher

  /** `QR_CODE_EXPIRY_MINUTES`, the default configuration value. */
  const ExpiryMinutes: nat := 15

  /** Token lifetime in the model's time unit (seconds). */
  const ExpirySeconds: nat := ExpiryMinutes * 60

  /** The room label carried when the session has none. */
  const NoRoom: string := "Not specified"

  /** The text `verify_qr_data` reports for an expired token. */
  const ExpiredMessage: string := "QR code has expired"

  /** A timestamp as payload text; the source writes ISO-8601, the model a
      decimal count of seconds. */
  function FormatTime(t: nat): string {
    Numerals.Decimal(t)
  }

  /** The stand-in for `datetime.fromisoformat`. */
  function ParseTime(s: string): Option<nat> {
    Numerals.ParseDecimal(s)
  }

  /** `room_number or "Not specified"`: absent and empty both fall back. */
  function RoomLabel(room: Option<string>): (shown: string)
    ensures room.Some? && room.value != [] ==> shown == room.value
    ensures room.None? || room.value == [] ==> shown == NoRoom
  {
    if room.None? || room.value == [] then NoRoom else room.value
  }

  /** What a token is generated from: the session's identifying fields. */
  datatype SessionFacts = SessionFacts(
    sessionId: string,
    facultyId: string,
    courseCode: string,
    roomNumber: Option<string>,
    proximityUuid: string)

  /** The payload dictionary, in the source's field order. */
  function Payload(facts: SessionFacts, now: nat): Json.Document {
    [("session_id", facts.sessionId),
     ("faculty_id", facts.facultyId),
     ("course_code", facts.courseCode),
     ("room_number", RoomLabel(facts.roomNumber)),
     ("proximity_uuid", facts.proximityUuid),
     ("timestamp", FormatTime(now)),
     ("expires_at", FormatTime(now + ExpirySeconds))]
  }

  /** What `generate_session_qr` returns (the image URL aside from the file
      it names). */
  datatype QrData = QrData(
    sessionId: string,
    encryptedData: string,
    imageUrl: string,
    expiresAt: string,
    proximityUuid: string)

  /** `generate_session_qr`: the sealed payload plus the fields echoed to
      the caller. */
  function GenerateSessionQr(key: Cipher.Key, facts: SessionFacts, now: nat): (q: QrData)
    ensures q.sessionId == facts.sessionId
    ensures q.proximityUuid == facts.proximityUuid
    ensures ParseTime(q.expiresAt) == Some(now + ExpirySeconds)
    ensures Json.Get(Payload(facts, now), "expires_at") == Some(q.expiresAt)
    ensures Cipher.Decrypt(key, q.encryptedData) == Some(Json.Serialize(Payload(facts, now)))
  {
    var doc := Payload(facts, now);
    Cipher.DecryptEncrypt(key, Json.Serialize(doc));
    Numerals.DecimalRoundTrip(now + ExpirySeconds);
    QrData(
      facts.sessionId,
      Cipher.Encrypt(key, Json.Serialize(doc)),
      "/static/qr_codes/session_" + facts.sessionId + ".png",
      FormatTime(now + ExpirySeconds),
      facts.proximityUuid)
  }

  /** `refresh_session_qr`: a new token for the same facts at a later time
      (removing the old image file is outside the model). */
  function RefreshSessionQr(key: Cipher.Key, facts: SessionFacts, now: nat): QrData {
    GenerateSessionQr(key, facts, now)
  }

  /** Why a token was refused. */
  datatype TokenError =
    | UndecryptableToken    // `_decrypt_data` raised
    | MalformedPayload      // `json.loads` raised
    | MissingExpiry         // `session_data["expires_at"]` raised KeyError
    | MalformedExpiry       // `fromisoformat` raised
    | ExpiredToken          // `now > expires_at`

  /** The `error` text of a refused token. */
  function ErrorMessage(e: TokenError): string {
    match e
    case UndecryptableToken => "Failed to decrypt data: "
    case MalformedPayload => "Expecting value: line 1 column 1 (char 0)"
    case MissingExpiry => "'expires_at'"
    case MalformedExpiry => "Invalid isoformat string"
    case ExpiredToken => ExpiredMessage
  }

  /** `verify_qr_data`'s result: `{"valid": True, "data": ...}` or
      `{"valid": False, "error": ...}`. */
  datatype Verification = Valid(data: Json.Document) | Invalid(error: TokenError)

  /** The time-independent part of `verify_qr_data`: open the token, parse
      its text and read its expiry. */
  function Open(key: Cipher.Key, token: string): (r: Result<(Json.Document, nat), TokenError>)
    ensures r == Failure(UndecryptableToken) <==> Cipher.Decrypt(key, token).None?
    ensures r.Success? ==> Cipher.Decrypt(key, token).Some? && Json.Parse(Cipher.Decrypt(key, token).value) == Some(r.value.0)
  {
    match Cipher.Decrypt(key, token)
    case None => Failure(UndecryptableToken)
    case Some(plain) =>
      match Json.Parse(plain)
      case None => Failure(MalformedPayload)
      case Some(doc) =>
        match Json.Get(doc, "expires_at")
        case None => Failure(MissingExpiry)
        case Some(text) =>
          match ParseTime(text)
          case None => Failure(MalformedExpiry)
          case Some(expiry) => Success((doc, expiry))
  }

  /** `verify_qr_data` at time `now`. A token is accepted only if it opens
      under `key`, its text parses, and it carries an expiry not before
      `now`; the accepted payload is then exactly what was sealed. */
  function VerifyQrData(key: Cipher.Key, token: string, now: nat): (v: Verification)
    ensures v == Invalid(ExpiredToken) <==> Open(key, token).Success? && now > Open(key, token).value.1
    ensures v == Invalid(UndecryptableToken) <==> Cipher.Decrypt(key, token).None?
    ensures v.Valid? <==> Open(key, token).Success? && now <= Open(key, token).value.1
    ensures v.Valid? ==> v.data == Open(key, token).value.0
    ensures Open(key, token).Failure? ==> v == Invalid(Open(key, token).error)
  {
    match Open(key, token)
    case Failure(e) => Invalid(e)
    case Success(payload) => if now > payload.1 then Invalid(ExpiredToken) else Valid(payload.0)
  }

  /** Only a sealed, unexpired payload is accepted: the token is exactly
      the sealing of the payload it yields, and that payload's expiry has
      not passed. */
  lemma AcceptedTokenIsSealed(key: Cipher.Key, token: string, now: nat)
    ensures
      var v := VerifyQrData(key, token, now);
      v.Valid? ==>
        && token == Cipher.Encrypt(key, Json.Serialize(v.data))
        && exists text :: Json.Get(v.data, "expires_at") == Some(text)
                          && ParseTime(text).Some? && now <= ParseTime(text).value
  {
    var v := VerifyQrData(key, token, now);
    if v.Valid? {
      var plain := Cipher.Decrypt(key, token).value;
      Cipher.DecryptOnlyImages(key, token);
      Json.ParseCanonical(plain, v.data);
      var text := Json.Get(v.data, "expires_at").value;
      assert ParseTime(text).Some? && now <= ParseTime(text).value;
    }
  }

  /** The payload carries the session's identifying fields unchanged, the
      room label, and an expiry `ExpirySeconds` after issue. */
  lemma PayloadFields(facts: SessionFacts, now: nat)
    ensures Json.Get(Payload(facts, now), "session_id") == Some(facts.sessionId)
    ensures Json.Get(Payload(facts, now), "faculty_id") == Some(facts.facultyId)
    ensures Json.Get(Payload(facts, now), "course_code") == Some(facts.courseCode)
    ensures Json.Get(Payload(facts, now), "room_number") == Some(RoomLabel(facts.roomNumber))
    ensures Json.Get(Payload(facts, now), "proximity_uuid") == Some(facts.proximityUuid)
    ensures Json.Get(Payload(facts, now), "timestamp") == Some(FormatTime(now))
    ensures Json.Get(Payload(facts, now), "expires_at") == Some(FormatTime(now + ExpirySeconds))
  {
    var d := Payload(facts, now);
    Json.GetDistinct(d, 0);
    Json.GetDistinct(d, 1);
    Json.GetDistinct(d, 2);
    Json.GetDistinct(d, 3);
    Json.GetDistinct(d, 4);
    Json.GetDistinct(d, 5);
    Json.GetDistinct(d, 6);
  }

  /** A token issued at `issued` is accepted, with exactly its payload, at
      every time up to and including `issued + ExpirySeconds`, and refused as
      expired at every later time. */
  lemma GeneratedTokenLifetime(key: Cipher.Key, facts: SessionFacts, issued: nat, now: nat)
    ensures VerifyQrData(key, GenerateSessionQr(key, facts, issued).encryptedData, now)
            == if now > issued + ExpirySeconds then Invalid(ExpiredToken) else Valid(Payload(facts, issued))
  {
    var doc := Payload(facts, issued);
    Json.ParseSerialize(doc);
    PayloadFields(facts, issued);
    Numerals.DecimalRoundTrip(issued + ExpirySeconds);
  }

  /** A fresh token verifies and yields the session id and proximity token
      it was generated for. */
  lemma FreshTokenVerifies(key: Cipher.Key, facts: SessionFacts, issued: nat, now: nat)
    requires now <= issued + ExpirySeconds
    ensures VerifyQrData(key, GenerateSessionQr(key, facts, issued).encryptedData, now).Valid?
    ensures Json.Get(VerifyQrData(key, GenerateSessionQr(key, facts, issued).encryptedData, now).data, "session_id")
            == Some(facts.sessionId)
    ensures Json.Get(VerifyQrData(key, GenerateSessionQr(key, facts, issued).encryptedData, now).data, "proximity_uuid")
            == Some(facts.proximityUuid)
  {
    GeneratedTokenLifetime(key, facts, issued, now);
    PayloadFields(facts, issued);
  }

  /** For any token at all: once refused as expired it stays expired. */
  lemma ExpiredStaysExpired(key: Cipher.Key, token: string, now: nat, later: nat)
    requires VerifyQrData(key, token, now) == Invalid(ExpiredToken)
    requires now <= later
    ensures VerifyQrData(key, token, later) == Invalid(ExpiredToken)
  {
  }

  /** For any token at all: if accepted now it was accepted, with the same
      payload, at every earlier time. */
  lemma ValidEarlier(key: Cipher.Key, token: string, now: nat, earlier: nat)
    requires VerifyQrData(key, token, now).Valid?
    requires earlier <= now
    ensures VerifyQrData(key, token, earlier) == VerifyQrData(key, token, now)
  {
  }

  /** A token that verifies at two times yields the same payload both
      times: what it carries does not depend on the clock. */
  lemma SamePayload(key: Cipher.Key, token: string, t1: nat, t2: nat)
    requires VerifyQrData(key, token, t1).Valid? && VerifyQrData(key, token, t2).Valid?
    ensures VerifyQrData(key, token, t1).data == VerifyQrData(key, token, t2).data
  {
  }

  /** A generated token with any single character altered is refused as
      undecryptable and yields no payload. */
  lemma TamperedTokenRejected(key: Cipher.Key, facts: SessionFacts, issued: nat, now: nat, i: nat, c: char)
    ensures var token := GenerateSessionQr(key, facts, issued).encryptedData;
            i < |token| && c != token[i] ==> VerifyQrData(key, token[i := c], now) == Invalid(UndecryptableToken)
  {
    var token := GenerateSessionQr(key, facts, issued).encryptedData;
    if i < |token| && c != token[i] {
      Cipher.TamperFails(key, Json.Serialize(Payload(facts, issued)), i, c);
    }
  }

  /** A token generated under another server key is refused. */
  lemma ForeignKeyRejected(key: Cipher.Key, other: Cipher.Key, facts: SessionFacts, issued: nat, now: nat)
    requires key != other
    ensures VerifyQrData(other, GenerateSessionQr(key, facts, issued).encryptedData, now)
            == Invalid(UndecryptableToken)
  {
    Cipher.WrongKeyFails(key, other, Json.Serialize(Payload(facts, issued)));
  }

  /** Refreshing issues a different token when the clock has moved, and the
      old and new tokens, while both unexpired, verify to the same session
      id and proximity token. */
  lemma RefreshKeepsSession(key: Cipher.Key, facts: SessionFacts, first: nat, second: nat, now: nat)
    requires now <= first + ExpirySeconds && now <= second + ExpirySeconds
    ensures first != second ==>
      GenerateSessionQr(key, facts, first).encryptedData != RefreshSessionQr(key, facts, second).encryptedData
    ensures
      var before := VerifyQrData(key, GenerateSessionQr(key, facts, first).encryptedData, now);
      var after := VerifyQrData(key, RefreshSessionQr(key, facts, second).encryptedData, now);
      && before.Valid? && after.Valid?
      && Json.Get(before.data, "session_id") == Json.Get(after.data, "session_id") == Some(facts.sessionId)
      && Json.Get(before.data, "proximity_uuid") == Json.Get(after.data, "proximity_uuid") == Some(facts.proximityUuid)
  {
    FreshTokenVerifies(key, facts, first, now);
    FreshTokenVerifies(key, facts, second, now);
    if first != second {
      var p1 := Payload(facts, first);
      var p2 := Payload(facts, second);
      Numerals.DecimalInjective(first, second);
      assert p1[5] != p2[5];
      Json.SerializeInjective(p1, p2);
      Cipher.EncryptInjective(key, Json.Serialize(p1), Json.Serialize(p2));
    }
  }
}

=== FILE: registry.dfy ===
/** The shape `CourseService` and `RoomService` share: a table of rows with
    a generated primary key and a unique, non-null business key (the course
    code, the room number), with create, partial update and delete. The
    business-key check in the services runs before the database's own
    unique constraint, and the two report different errors. */
module Registry {
  import opened Wrappers

  /** One field of a partial update: absent from the request, sent as
      `null`, or sent with a value. */
  datatype Field<+T> = Unset | Null | Set(value: T)

  /** The value a field ends up with: unchanged when unset, `None` when
      sent as `null`. */
  function Patched<T>(current: Option<T>, f: Field<T>): (r: Option<T>)
    ensures f.Unset? ==> r == current
    ensures f.Null? ==> r.None?
    ensures f.Set? ==> r == Some(f.value)
  {
    match f
    case Unset => current
    case Null => None
    case Set(v) => Some(v)
  }

  datatype Row<T> = Row(id: string, key: string, data: T)

  /** Why a write was refused: the service's own `ValueError`, or the
      database's `IntegrityError` (unique or not-null constraint). */
  datatype Error = DuplicateKey(key: string) | ConstraintViolation

  predicate UniqueIds<T>(rows: seq<Row<T>>) {
    forall i, j :: 0 <= i < j < |rows| ==> rows[i].id != rows[j].id
  }

  predicate UniqueKeys<T>(rows: seq<Row<T>>) {
    forall i, j :: 0 <= i < j < |rows| ==> rows[i].key != rows[j].key
  }

  /** What the table's constraints guarantee. */
  predicate Valid<T>(rows: seq<Row<T>>) {
    UniqueIds(rows) && UniqueKeys(rows)
  }

  /** The position of the first row with the given id. */
  function IndexOfId<T>(rows: seq<Row<T>>, id: string): (r: Option<nat>)
    ensures r.None? <==> forall i :: 0 <= i < |rows| ==> rows[i].id != id
    ensures r.Some? ==> r.value < |rows| && rows[r.value].id == id
    ensures r.Some? ==> forall i :: 0 <= i < r.value ==> rows[i].id != id
  {
    if |rows| == 0 then None
    else if rows[0].id == id then Some(0)
    else
      match IndexOfId(rows[1..], id)
      case None => None
      case Some(k) => Some(k + 1)
  }

  /** `get_course` / `get_room`: the first row with the id. */
  function FindById<T>(rows: seq<Row<T>>, id: string): (r: Option<Row<T>>)
    ensures r.None? <==> forall i :: 0 <= i < |rows| ==> rows[i].id != id
    ensures r.Some? ==> r.value in rows && r.value.id == id
  {
    match IndexOfId(rows, id)
    case None => None
    case Some(i) => Some(rows[i])
  }

  /** `get_course_by_code` / `get_room_by_number`: the first row with the
      key. */
  function FindByKey<T>(rows: seq<Row<T>>, key: string): (r: Option<Row<T>>)
    ensures r.None? <==> forall i :: 0 <= i < |rows| ==> rows[i].key != key
    ensures r.Some? ==> r.value in rows && r.value.key == key
  {
    if |rows| == 0 then None
    else if rows[0].key == key then Some(rows[0])
    else
      var r := FindByKey(rows[1..], key);
      assert forall i :: 1 <= i < |rows| ==> rows[i] == rows[1..][i - 1];
      r
  }

  /** Whether a row other than the one with id `id` holds `key`. */
  predicate KeyHeldByOther<T>(rows: seq<Row<T>>, key: string, id: string) {
    exists i :: 0 <= i < |rows| && rows[i].key == key && rows[i].id != id
  }

  /** `create_course` / `create_room`: a taken key is refused by the
      service; a taken primary key by the database. */
  function Create<T>(rows: seq<Row<T>>, newId: string, key: string, data: T)
    : (r: Result<(seq<Row<T>>, Row<T>), Error>)
    ensures FindByKey(rows, key).Some? <==> r == Failure(DuplicateKey(key))
    ensures r.Success? <==> FindByKey(rows, key).None? && FindById(rows, newId).None?
    ensures r.Success? ==> r.value.1 == Row(newId, key, data) && r.value.0 == rows + [r.value.1]
  {
    if FindByKey(rows, key).Some? then Failure(DuplicateKey(key))
    else if FindById(rows, newId).Some? then Failure(ConstraintViolation)
    else Success((rows + [Row(newId, key, data)], Row(newId, key, data)))
  }

  /** What `update_course` / `update_room` did. */
  datatype Updated<T> = NotFound | Rejected(error: Error) | Saved(rows: seq<Row<T>>, row: Row<T>)

  /** Whether the service itself checks a requested key: only when it is
      non-empty and differs from the row's current key. */
  predicate ServiceChecksKey(current: string, key: Field<string>) {
    key.Set? && key.value != "" && key.value != current
  }

  /** `update_course` / `update_room`. `patch` applies the data fields and
      yields `None` when it would null a non-nullable column. The key check
      of the service comes first; the database's constraints are checked at
      commit, after every field has been assigned. */
  function Update<T>(rows: seq<Row<T>>, id: string, key: Field<string>, patch: T -> Option<T>): (r: Updated<T>)
    ensures r.NotFound? <==> FindById(rows, id).None?
    ensures r.Rejected? && r.error.DuplicateKey? ==>
      && key.Set? && r.error.key == key.value
      && ServiceChecksKey(FindById(rows, id).value.key, key)
      && FindByKey(rows, key.value).Some?
    ensures Valid(rows) && r.Rejected? ==>
      || key.Null?
      || (key.Set? && KeyHeldByOther(rows, key.value, id))
      || patch(FindById(rows, id).value.data).None?
    ensures r.Saved? ==>
      && FindById(rows, id).Some?
      && var before := FindById(rows, id).value;
         && r.row.id == id
         && Some(r.row.key) == Patched(Some(before.key), key)
         && Some(r.row.data) == patch(before.data)
         && !KeyHeldByOther(rows, r.row.key, id)
         && |r.rows| == |rows|
         && forall i :: 0 <= i < |rows| ==> r.rows[i] == if rows[i].id == id then r.row else rows[i]
  {
    match IndexOfId(rows, id)
    case None => NotFound
    case Some(i) =>
      var before := rows[i];
      OwnKeyNotHeldByOther(rows, i);
      if ServiceChecksKey(before.key, key) && FindByKey(rows, key.value).Some? then
        assert UniqueIds(rows) ==> KeyHeldByOther(rows, key.value, id) by {
          var j :| 0 <= j < |rows| && rows[j] == FindByKey(rows, key.value).value;
          assert rows[j].key != rows[i].key;
        }
        Rejected(DuplicateKey(key.value))
      else
        match Patched(Some(before.key), key)
        case None => Rejected(ConstraintViolation)
        case Some(newKey) =>
          match patch(before.data)
          case None => Rejected(ConstraintViolation)
          case Some(data) =>
            if KeyHeldByOther(rows, newKey, id) then Rejected(ConstraintViolation)
            else
              var after := Row(id, newKey, data);
              var updated := seq(|rows|, j requires 0 <= j < |rows| => if rows[j].id == id then after else rows[j]);
              Saved(updated, after)
  }

  /** In a valid table no other row holds a row's own key. */
  lemma OwnKeyNotHeldByOther<T>(rows: seq<Row<T>>, i: nat)
    ensures Valid(rows) && i < |rows| ==> !KeyHeldByOther(rows, rows[i].key, rows[i].id)
  {
  }

  /** The table without the row with id `id`, and whether there was one. */
  function Remove<T(!new)>(rows: seq<Row<T>>, id: string): (r: (seq<Row<T>>, bool))
    ensures r.1 <==> FindById(rows, id).Some?
    ensures forall x :: x in r.0 <==> x in rows && x.id != id
    ensures !r.1 ==> r.0 == rows
  {
    if |rows| == 0 then ([], false)
    else
      var rest := Remove(rows[1..], id);
      assert forall x :: x in rows <==> x == rows[0] || x in rows[1..];
      assert forall i :: 1 <= i < |rows| ==> rows[i] == rows[1..][i - 1];
      if rows[0].id == id then (rest.0, true)
      else
        assert !rest.1 ==> [rows[0]] + rest.0 == rows;
        ([rows[0]] + rest.0, rest.1)
  }

  /** `delete_course` / `delete_room`: `false` for an unknown id.
      `referenced` holds the ids that rows of the `assignments` table point
      at. The relationship has no delete cascade, so on delete the ORM sets
      those rows' non-nullable foreign key to `NULL` and the commit raises
      `IntegrityError`, which leaves the table as it was. */
  function Delete<T(!new)>(rows: seq<Row<T>>, id: string, referenced: set<string>)
    : (r: Result<(seq<Row<T>>, bool), Error>)
    ensures r.Failure? <==> FindById(rows, id).Some? && id in referenced
    ensures r.Failure? ==> r.error == ConstraintViolation
    ensures r.Success? ==> (r.value.1 <==> FindById(rows, id).Some?)
    ensures r.Success? ==> forall x :: x in r.value.0 <==> x in rows && x.id != id
    ensures r.Success? && !r.value.1 ==> r.value.0 == rows
  {
    if FindById(rows, id).Some? && id in referenced then Failure(ConstraintViolation)
    else Success(Remove(rows, id))
  }

  /** A created row keeps the table's constraints. */
  lemma CreateKeepsValid<T>(rows: seq<Row<T>>, newId: string, key: string, data: T)
    requires Valid(rows)
    ensures Create(rows, newId, key, data).Success? ==> Valid(Create(rows, newId, key, data).value.0)
  {
  }

  /** With no row holding `key`, an appended row is the one found for it. */
  lemma {:induction false} FindByKeyAppend<T>(rows: seq<Row<T>>, x: Row<T>)
    requires FindByKey(rows, x.key).None?
    ensures FindByKey(rows + [x], x.key) == Some(x)
  {
    if |rows| > 0 {
      assert (rows + [x])[1..] == rows[1..] + [x];
      FindByKeyAppend(rows[1..], x);
    }
  }

  /** With no row holding `id`, an appended row is the one found for it. */
  lemma {:induction false} FindByIdAppend<T>(rows: seq<Row<T>>, x: Row<T>)
    requires FindById(rows, x.id).None?
    ensures FindById(rows + [x], x.id) == Some(x)
  {
    if |rows| > 0 {
      assert (rows + [x])[1..] == rows[1..] + [x];
      FindByIdAppend(rows[1..], x);
    }
  }

  /** A created row is then found under both its id and its key. */
  lemma CreateThenFind<T>(rows: seq<Row<T>>, newId: string, key: string, data: T)
    requires Create(rows, newId, key, data).Success?
    ensures var created := Create(rows, newId, key, data).value;
      && FindByKey(created.0, key) == Some(created.1)
      && FindById(created.0, newId) == Some(created.1)
  {
    FindByKeyAppend(rows, Row(newId, key, data));
    FindByIdAppend(rows, Row(newId, key, data));
  }

  /** In a valid table the row with a given key is the only one. */
  lemma FindByKeyUnique<T>(rows: seq<Row<T>>, i: nat)
    requires UniqueKeys(rows) && i < |rows|
    ensures FindByKey(rows, rows[i].key) == Some(rows[i])
  {
    var r := FindByKey(rows, rows[i].key);
    var j :| 0 <= j < |rows| && rows[j] == r.value;
  }

  /** A saved update keeps the table's constraints, and the updated row is
      then found under its id and its (possibly new) key. */
  lemma {:induction false} UpdateKeepsValid<T>(rows: seq<Row<T>>, id: string, key: Field<string>, patch: T -> Option<T>)
    requires Valid(rows)
    requires Update(rows, id, key, patch).Saved?
    ensures Valid(Update(rows, id, key, patch).rows)
    ensures var r := Update(rows, id, key, patch);
      FindById(r.rows, id) == Some(r.row) && FindByKey(r.rows, r.row.key) == Some(r.row)
  {
    var r := Update(rows, id, key, patch);
    var i := IndexOfId(rows, id).value;
    assert r.rows[i] == r.row;
    forall a, b | 0 <= a < b < |r.rows| ensures r.rows[a].id != r.rows[b].id && r.rows[a].key != r.rows[b].key {
      if rows[a].id == id {
        assert a == i;
        assert rows[b].id != id;
      } else if rows[b].id == id {
        assert rows[a].id != id;
      }
    }
    FindByKeyUnique(r.rows, i);
    var f := FindById(r.rows, id);
    var k :| 0 <= k < |r.rows| && r.rows[k] == f.value;
    assert k == i;
  }

  /** No update can give a key to a second row. A non-empty key another row
      holds is refused by the service; the empty key slips past that check
      and is refused only by the database's unique constraint. */
  lemma TakenKeyRefused<T>(rows: seq<Row<T>>, id: string, k: string, patch: T -> Option<T>)
    requires Valid(rows) && FindById(rows, id).Some?
    requires KeyHeldByOther(rows, k, id)
    ensures k != "" ==> Update(rows, id, Set(k), patch) == Rejected(DuplicateKey(k))
    ensures k == "" ==> Update(rows, id, Set(k), patch) == Rejected(ConstraintViolation)
  {
    var i :| 0 <= i < |rows| && rows[i].key == k && rows[i].id != id;
    var before := FindById(rows, id).value;
    var j := IndexOfId(rows, id).value;
    assert before == rows[j];
    assert before.key != k by {
      assert j != i;
    }
  }

  lemma ValidTail<T>(rows: seq<Row<T>>)
    requires Valid(rows) && |rows| > 0
    ensures Valid(rows[1..])
    ensures forall y :: y in rows[1..] ==> y.id != rows[0].id && y.key != rows[0].key
  {
    var tail := rows[1..];
    forall a, b | 0 <= a < b < |tail| ensures tail[a].id != tail[b].id && tail[a].key != tail[b].key {
      assert tail[a] == rows[a + 1] && tail[b] == rows[b + 1];
    }
    forall y | y in tail ensures y.id != rows[0].id && y.key != rows[0].key {
      var k :| 0 <= k < |tail| && tail[k] == y;
      assert rows[k + 1] == y;
    }
  }

  lemma ValidCons<T>(x: Row<T>, rest: seq<Row<T>>)
    requires Valid(rest)
    requires forall y :: y in rest ==> y.id != x.id && y.key != x.key
    ensures Valid([x] + rest)
  {
    var r := [x] + rest;
    forall a, b | 0 <= a < b < |r| ensures r[a].id != r[b].id && r[a].key != r[b].key {
      assert r[b] == rest[b - 1];
      if a > 0 {
        assert r[a] == rest[a - 1];
      }
    }
  }

  /** Removing a row keeps the constraints, and the id is gone. */
  lemma {:induction false} RemoveKeepsValid<T(!new)>(rows: seq<Row<T>>, id: string)
    requires Valid(rows)
    ensures Valid(Remove(rows, id).0)
    ensures FindById(Remove(rows, id).0, id).None?
  {
    if |rows| > 0 {
      ValidTail(rows);
      RemoveKeepsValid(rows[1..], id);
      if rows[0].id != id {
        ValidCons(rows[0], Remove(rows[1..], id).0);
      }
    }
  }

  /** A committed delete leaves the constraints holding and the id gone. */
  lemma DeleteKeepsValid<T(!new)>(rows: seq<Row<T>>, id: string, referenced: set<string>)
    requires Valid(rows)
    ensures Delete(rows, id, referenced).Success? ==>
      && Valid(Delete(rows, id, referenced).value.0)
      && FindById(Delete(rows, id, referenced).value.0, id).None?
  {
    RemoveKeepsValid(rows, id);
  }
}

=== FILE: reports.dfy ===
/** The read side of `AttendanceService`: a session's roster, a student's
    history and a faculty member's per-session overview, each newest first
    and each with the same summary of the submitted factors. */
module Reports {
  import opened Wrappers
  import Sessions
  import Cipher
  import opened Attendance

  /** The `verification` object of a report row. `methods` is the set of
      submitted factor names. */
  datatype Summary = Summary(methods: set<string>, complete: bool, qr: bool, face: bool, proximity: bool)

  /** A factor counts only when it was submitted as `true`; a missing one
      reads as `false`. */
  function Passed(factors: Factors, name: string): (ok: bool)
    ensures ok <==> name in factors && factors[name]
  {
    if name in factors then factors[name] else false
  }

  /** The factors that were submitted as `false`. */
  function Failed(factors: Factors): (names: set<string>)
    ensures forall k :: k in names <==> k in factors && !factors[k]
  {
    set k | k in factors && !factors[k]
  }

  /** The verification summary of one record: complete only when at least
      one factor was submitted and none of them failed. */
  function Summarize(factors: Factors): (s: Summary)
    ensures s.methods == factors.Keys
    ensures s.complete <==> factors != map[] && Failed(factors) == {}
    ensures s.qr == Passed(factors, "qr") && s.face == Passed(factors, "face")
    ensures s.proximity == Passed(factors, "proximity")
  {
    var complete := if factors == map[] then false else forall k :: k in factors ==> factors[k];
    Summary(factors.Keys, complete, Passed(factors, "qr"), Passed(factors, "face"), Passed(factors, "proximity"))
  }

  /** A complete summary passes every method it lists, and a summary that
      passes qr, face and proximity and lists nothing else is complete. */
  lemma CompleteMeansAllPassed(factors: Factors)
    ensures Summarize(factors).complete <==>
      Summarize(factors).methods != {} && forall k :: k in Summarize(factors).methods ==> Passed(factors, k)
    ensures (factors.Keys == {"qr", "face", "proximity"} && Passed(factors, "qr") && Passed(factors, "face")
             && Passed(factors, "proximity")) ==> Summarize(factors).complete
  {
    if factors.Keys == {"qr", "face", "proximity"} && Passed(factors, "qr") && Passed(factors, "face") && Passed(factors, "proximity") {
      assert factors != map[] by { assert "qr" in factors.Keys; }
    }
    if factors.Keys != {} {
      var k :| k in factors.Keys;
      assert k in factors;
    }
  }

  /** Newest first by `marked_at`. */
  predicate NewestFirst(xs: seq<Attendance>) {
    forall i, j :: 0 <= i < j < |xs| ==> xs[i].markedAt >= xs[j].markedAt
  }

  /** No record of `rest` is newer than `x`. */
  predicate Bounds(x: Attendance, rest: seq<Attendance>) {
    forall b :: b in rest ==> b.markedAt <= x.markedAt
  }

  /** A newest-first list, split after its first record. */
  lemma SortedTail(xs: seq<Attendance>)
    requires NewestFirst(xs) && |xs| > 0
    ensures NewestFirst(xs[1..]) && Bounds(xs[0], xs[1..])
  {
    forall b | b in xs[1..] ensures b.markedAt <= xs[0].markedAt {
      var k :| 0 <= k < |xs[1..]| && xs[1..][k] == b;
      assert xs[k + 1] == b;
    }
  }

  /** A newest-first list, extended at the front by a record at least as new. */
  lemma SortedCons(x: Attendance, rest: seq<Attendance>)
    requires NewestFirst(rest) && Bounds(x, rest)
    ensures NewestFirst([x] + rest)
  {
    var r := [x] + rest;
    forall i, j | 0 <= i < j < |r| ensures r[i].markedAt >= r[j].markedAt {
      assert r[j] == rest[j - 1];
      if i > 0 {
        assert r[i] == rest[i - 1];
      }
    }
  }

  /** Inserting in front of a newest-first list whose head is no newer. */
  lemma InsertFront(a: Attendance, xs: seq<Attendance>)
    requires NewestFirst(xs) && (|xs| == 0 || a.markedAt >= xs[0].markedAt)
    ensures NewestFirst([a] + xs)
  {
    if |xs| > 0 {
      SortedTail(xs);
    }
    assert Bounds(a, xs);
    SortedCons(a, xs);
  }

  /** Inserting behind the head, once the tail has taken `a`. */
  lemma InsertBehind(a: Attendance, xs: seq<Attendance>, rest: seq<Attendance>)
    requires NewestFirst(xs) && |xs| > 0 && a.markedAt < xs[0].markedAt
    requires NewestFirst(rest) && multiset(rest) == multiset(xs[1..]) + multiset{a}
    ensures NewestFirst([xs[0]] + rest)
    ensures multiset([xs[0]] + rest) == multiset(xs) + multiset{a}
  {
    SortedTail(xs);
    assert Bounds(xs[0], rest) by {
      forall b | b in rest ensures b.markedAt <= xs[0].markedAt {
        assert b in multiset(rest);
      }
    }
    SortedCons(xs[0], rest);
    assert xs == [xs[0]] + xs[1..];
  }

  /** Places `a` into a newest-first list. */
  function Insert(a: Attendance, xs: seq<Attendance>): (r: seq<Attendance>)
    requires NewestFirst(xs)
    ensures NewestFirst(r)
    ensures multiset(r) == multiset(xs) + multiset{a}
    ensures |r| == |xs| + 1
  {
    if |xs| == 0 || a.markedAt >= xs[0].markedAt then
      InsertFront(a, xs);
      [a] + xs
    else
      SortedTail(xs);
      var rest := Insert(a, xs[1..]);
      InsertBehind(a, xs, rest);
      [xs[0]] + rest
  }

  /** `ORDER BY marked_at DESC`: the same records, newest first. */
  function SortNewestFirst(xs: seq<Attendance>): (r: seq<Attendance>)
    ensures NewestFirst(r)
    ensures multiset(r) == multiset(xs)
    ensures |r| == |xs|
  {
    if |xs| == 0 then []
    else
      assert xs == [xs[0]] + xs[1..];
      Insert(xs[0], SortNewestFirst(xs[1..]))
  }

  /** The records of one session, in table order. */
  function OfSession(records: seq<Attendance>, sessionId: string): (r: seq<Attendance>)
    ensures forall a :: a in r <==> a in records && a.sessionId == sessionId
    ensures |r| <= |records|
  {
    if |records| == 0 then []
    else
      var rest := OfSession(records[1..], sessionId);
      assert forall a :: a in records <==> a == records[0] || a in records[1..];
      if records[0].sessionId == sessionId then [records[0]] + rest else rest
  }

  /** Name, e-mail and roll number of a user. */
  datatype Person = Person(name: string, email: string, roll: string)

  /** The user table as the reports see it. */
  type Directory = map<string, Person>

  /** A student's details, with the source's placeholder for unknown ids. */
  function Lookup(directory: Directory, studentId: string): (p: Person)
    ensures studentId in directory ==> p == directory[studentId]
    ensures studentId !in directory ==> p == Person("Unknown", "Unknown", "")
  {
    if studentId in directory then directory[studentId] else Person("Unknown", "Unknown", "")
  }

  /** One row of a session's roster. */
  datatype RosterRow = RosterRow(record: Attendance, student: Person, verification: Summary)

  function RosterRowOf(directory: Directory, a: Attendance): RosterRow {
    RosterRow(a, Lookup(directory, a.studentId), Summarize(a.factors))
  }

  /** The records a list of rows shows, in order. */
  function RosterRecords(rows: seq<RosterRow>): (records: seq<Attendance>)
    ensures |records| == |rows|
    ensures forall i :: 0 <= i < |rows| ==> records[i] == rows[i].record
  {
    seq(|rows|, i requires 0 <= i < |rows| => rows[i].record)
  }

  /** One roster row per record, in order. */
  function RosterRows(directory: Directory, records: seq<Attendance>): (rows: seq<RosterRow>)
    ensures RosterRecords(rows) == records
    ensures forall i :: 0 <= i < |rows| ==> rows[i] == RosterRowOf(directory, rows[i].record)
  {
    seq(|records|, i requires 0 <= i < |records| => RosterRowOf(directory, records[i]))
  }

  /** `get_session_attendances_with_details`: exactly the session's
      records, newest first, each with the student's details (or the
      placeholder) and its summary. */
  function Roster(records: seq<Attendance>, directory: Directory, sessionId: string): (rows: seq<RosterRow>)
    ensures multiset(RosterRecords(rows)) == multiset(OfSession(records, sessionId))
    ensures NewestFirst(RosterRecords(rows))
    ensures forall i :: 0 <= i < |rows| ==> rows[i] == RosterRowOf(directory, rows[i].record)
  {
    RosterRows(directory, SortNewestFirst(OfSession(records, sessionId)))
  }

  /** A new record joins the end of its own session's records and no other. */
  lemma {:induction false} OfSessionAppend(records: seq<Attendance>, a: Attendance, sessionId: string)
    ensures OfSession(records + [a], sessionId)
            == OfSession(records, sessionId) + (if a.sessionId == sessionId then [a] else [])
  {
    if |records| > 0 {
      assert (records + [a])[1..] == records[1..] + [a];
      OfSessionAppend(records[1..], a, sessionId);
    }
  }

  /** A successful check-in adds exactly its record to the roster of its
      session and leaves every other roster as it was. */
  lemma CheckInShowsInRoster(
    db: Db, key: Cipher.Key, studentId: string, token: string, factors: Factors, newId: string, now: nat,
    directory: Directory, sessionId: string)
    requires Sessions.WellKeyed(db.sessions)
    requires MarkAttendanceWithQr(db, key, studentId, token, factors, newId, now).reply.Marked?
    ensures
      var m := MarkAttendanceWithQr(db, key, studentId, token, factors, newId, now);
      multiset(RosterRecords(Roster(m.records, directory, sessionId)))
        == multiset(RosterRecords(Roster(db.records, directory, sessionId)))
           + (if sessionId == m.reply.record.sessionId then multiset{m.reply.record} else multiset{})
  {
    var m := MarkAttendanceWithQr(db, key, studentId, token, factors, newId, now);
    OfSessionAppend(db.records, m.reply.record, sessionId);
  }

  /** The records of one student whose session still exists (the inner
      join with the session table), in table order. */
  function Joined(db: Db, studentId: string): (r: seq<Attendance>)
    ensures forall a :: a in r <==> a in db.records && a.studentId == studentId && a.sessionId in db.sessions
    decreases |db.records|
  {
    if |db.records| == 0 then []
    else
      var a := db.records[0];
      var rest := Joined(Db(db.sessions, db.records[1..]), studentId);
      assert forall b :: b in db.records <==> b == a || b in db.records[1..];
      if a.studentId == studentId && a.sessionId in db.sessions then [a] + rest else rest
  }

  /** The records of one student, in table order. */
  function OfStudent(records: seq<Attendance>, studentId: string): (r: seq<Attendance>)
    ensures forall a :: a in r <==> a in records && a.studentId == studentId
  {
    if |records| == 0 then []
    else
      var rest := OfStudent(records[1..], studentId);
      assert forall b :: b in records <==> b == records[0] || b in records[1..];
      if records[0].studentId == studentId then [records[0]] + rest else rest
  }

  /** One row of a student's history. */
  datatype HistoryRow = HistoryRow(record: Attendance, session: Sessions.Session, verification: Summary)

  function HistoryRecords(rows: seq<HistoryRow>): (records: seq<Attendance>)
    ensures |records| == |rows|
    ensures forall i :: 0 <= i < |rows| ==> records[i] == rows[i].record
  {
    seq(|rows|, i requires 0 <= i < |rows| => rows[i].record)
  }

  /** One history row per record, each with its stored session. */
  function HistoryRows(sessions: Sessions.Store, records: seq<Attendance>): (rows: seq<HistoryRow>)
    requires forall a :: a in records ==> a.sessionId in sessions
    ensures HistoryRecords(rows) == records
    ensures forall i :: 0 <= i < |rows| ==>
      && rows[i].record.sessionId in sessions
      && rows[i].session == sessions[rows[i].record.sessionId]
      && rows[i].verification == Summarize(rows[i].record.factors)
  {
    seq(|records|, i requires 0 <= i < |records| =>
      HistoryRow(records[i], sessions[records[i].sessionId], Summarize(records[i].factors)))
  }

  /** `get_student_attendance_history`: the student's records whose session
      exists, newest first, each with its session and summary. */
  function History(db: Db, studentId: string): (rows: seq<HistoryRow>)
    ensures multiset(HistoryRecords(rows)) == multiset(Joined(db, studentId))
    ensures NewestFirst(HistoryRecords(rows))
    ensures forall i :: 0 <= i < |rows| ==>
      && rows[i].record.sessionId in db.sessions
      && rows[i].session == db.sessions[rows[i].record.sessionId]
      && rows[i].verification == Summarize(rows[i].record.factors)
  {
    var joined := Joined(db, studentId);
    var sorted := SortNewestFirst(joined);
    assert forall a :: a in sorted ==> a.sessionId in db.sessions by {
      forall a | a in sorted ensures a.sessionId in db.sessions {
        assert a in multiset(joined);
      }
    }
    HistoryRows(db.sessions, sorted)
  }

  /** In a consistent database the join loses nothing: a student's history
      shows every one of their records. */
  lemma {:induction false} HistoryIsComplete(db: Db, studentId: string)
    requires Referenced(db)
    ensures Joined(db, studentId) == OfStudent(db.records, studentId)
    decreases |db.records|
  {
    if |db.records| > 0 {
      var tail := Db(db.sessions, db.records[1..]);
      assert Referenced(tail) by {
        forall i | 0 <= i < |tail.records| ensures tail.records[i].sessionId in tail.sessions {
          assert tail.records[i] == db.records[i + 1];
        }
      }
      assert db.records[0].sessionId in db.sessions;
      HistoryIsComplete(tail, studentId);
    }
  }

  /** How many previews a session's overview shows. */
  const RecentLimit: nat := 5

  /** A session's entry in the faculty overview. */
  datatype SessionStats = SessionStats(session: Sessions.Session, count: nat, recent: seq<Attendance>)

  /** `shown` is drawn from `pool` and nothing left in `pool` is newer than
      anything shown. */
  predicate NewestOf(shown: seq<Attendance>, pool: multiset<Attendance>) {
    && multiset(shown) <= pool
    && forall a, k :: a in pool - multiset(shown) && 0 <= k < |shown| ==> shown[k].markedAt >= a.markedAt
  }

  /** One session's count and its newest `RecentLimit` records. */
  function Stats(records: seq<Attendance>, session: Sessions.Session): (st: SessionStats)
    ensures st.session == session
    ensures st.count == |OfSession(records, session.id)|
    ensures |st.recent| == if st.count < RecentLimit then st.count else RecentLimit
    ensures NewestFirst(st.recent)
    ensures NewestOf(st.recent, multiset(OfSession(records, session.id)))
  {
    var sorted := SortNewestFirst(OfSession(records, session.id));
    var n := if |sorted| < RecentLimit then |sorted| else RecentLimit;
    PrefixIsNewest(sorted, n);
    SessionStats(session, |sorted|, sorted[..n])
  }

  /** The first `n` entries of a newest-first list are the newest `n` of
      its records, still newest first. */
  lemma PrefixIsNewest(sorted: seq<Attendance>, n: nat)
    requires NewestFirst(sorted) && n <= |sorted|
    ensures NewestFirst(sorted[..n])
    ensures NewestOf(sorted[..n], multiset(sorted))
  {
    SplitMultiset(sorted, n);
    HiddenIsOlder(sorted, n);
    var shown := sorted[..n];
    forall a: Attendance, k: int | a in multiset(sorted) - multiset(shown) && 0 <= k < |shown|
      ensures shown[k].markedAt >= a.markedAt
    {
      assert shown[k] == sorted[k];
    }
  }

  /** Splitting a list splits its multiset of records. */
  lemma SplitMultiset(xs: seq<Attendance>, n: nat)
    requires n <= |xs|
    ensures multiset(xs[..n]) <= multiset(xs)
    ensures multiset(xs) - multiset(xs[..n]) == multiset(xs[n..])
  {
    assert xs == xs[..n] + xs[n..];
  }

  /** In a newest-first list, every record after position `n` is no newer
      than any record before it. */
  lemma HiddenIsOlder(sorted: seq<Attendance>, n: nat)
    requires NewestFirst(sorted) && n <= |sorted|
    ensures forall a, k :: a in multiset(sorted[n..]) && 0 <= k < n ==> sorted[k].markedAt >= a.markedAt
  {
    var hidden := sorted[n..];
    forall a: Attendance, k: int | a in multiset(hidden) && 0 <= k < n ensures sorted[k].markedAt >= a.markedAt {
      var h :| 0 <= h < |hidden| && hidden[h] == a;
      assert sorted[n + h] == a;
    }
  }

  /** `get_faculty_session_attendance`: one entry per session the faculty
      member created, keyed by session id. */
  function FacultyOverview(db: Db, facultyId: string): (overview: map<string, SessionStats>)
    ensures forall id :: id in overview <==> id in db.sessions && db.sessions[id].facultyId == facultyId
    ensures forall id :: id in overview ==> overview[id].session == db.sessions[id]
    ensures forall id :: id in overview ==> overview[id].count == |OfSession(db.records, db.sessions[id].id)|
  {
    map id | id in db.sessions && db.sessions[id].facultyId == facultyId :: Stats(db.records, db.sessions[id])
  }

  /** The overview agrees with the roster: its count is the roster's length
      and its previews are the roster's first rows. */
  lemma OverviewMatchesRoster(db: Db, facultyId: string, directory: Directory, id: string)
    requires id in db.sessions && db.sessions[id].facultyId == facultyId
    ensures id in FacultyOverview(db, facultyId)
    ensures
      var st := FacultyOverview(db, facultyId)[id];
      var shown := RosterRecords(Roster(db.records, directory, db.sessions[id].id));
      && st.count == |shown|
      && st.recent == shown[..|st.recent|]
  {
    var shown := RosterRecords(Roster(db.records, directory, db.sessions[id].id));
    assert shown == SortNewestFirst(OfSession(db.records, db.sessions[id].id));
  }
}

=== FILE: rooms.dfy ===
/** `RoomService`: the room register, keyed by its unique room number. */
module Rooms {
  import opened Wrappers
  import opened Registry

  /** The columns of a room besides its id and number; all nullable. */
  datatype RoomInfo = RoomInfo(building: Option<string>, capacity: Option<int>, description: Option<string>)

  /** A row of the `rooms` table; its key is the room number. */
  type Room = Row<RoomInfo>

  /** `RoomUpdate` after `dict(exclude_unset=True)`. */
  datatype RoomPatch = RoomPatch(
    number: Field<string>, building: Field<string>, capacity: Field<int>, description: Field<string>)

  /** Assigns the patched columns; as every one of them is nullable this
      never fails. */
  function ApplyPatch(info: RoomInfo, p: RoomPatch): (r: Option<RoomInfo>)
    ensures r.Some?
    ensures r.value.building == Patched(info.building, p.building)
    ensures r.value.capacity == Patched(info.capacity, p.capacity)
    ensures r.value.description == Patched(info.description, p.description)
  {
    Some(RoomInfo(Patched(info.building, p.building), Patched(info.capacity, p.capacity),
                  Patched(info.description, p.description)))
  }

  /** The patch as the function the registry applies to a row's data. */
  function Patcher(p: RoomPatch): RoomInfo -> Option<RoomInfo> {
    info => ApplyPatch(info, p)
  }

  /** The text of the service's `ValueError`. */
  function DuplicateMessage(number: string): string {
    "Room with number " + number + " already exists"
  }

  /** `get_room_by_number`. */
  function GetRoomByNumber(rows: seq<Room>, number: string): (r: Option<Room>)
    ensures r.None? <==> forall i :: 0 <= i < |rows| ==> rows[i].key != number
    ensures r.Some? ==> r.value in rows && r.value.key == number
  {
    FindByKey(rows, number)
  }

  /** `create_room`: refused when the number is taken; otherwise the new
      room is found under its number. */
  function CreateRoom(rows: seq<Room>, newId: string, number: string, info: RoomInfo)
    : (r: Result<(seq<Room>, Room), Error>)
    ensures r == Failure(DuplicateKey(number)) <==> GetRoomByNumber(rows, number).Some?
    ensures r.Success? ==>
      && r.value.1 == Row(newId, number, info)
      && GetRoomByNumber(r.value.0, number) == Some(r.value.1)
      && |r.value.0| == |rows| + 1
  {
    var r := Create(rows, newId, number, info);
    if r.Success? then
      CreateThenFind(rows, newId, number, info);
      r
    else r
  }

  /** `update_room`: only the number can be refused, by the service when
      another room holds a non-empty number, by the database when the
      number is nulled or is an empty one another room holds. */
  function UpdateRoom(rows: seq<Room>, id: string, p: RoomPatch): (r: Updated<RoomInfo>)
    ensures r.NotFound? <==> FindById(rows, id).None?
    ensures r.Saved? ==>
      && var before := FindById(rows, id).value;
         && Some(r.row.key) == Patched(Some(before.key), p.number)
         && ApplyPatch(before.data, p) == Some(r.row.data)
    ensures Valid(rows) && r.Rejected? ==>
      p.number.Null? || (p.number.Set? && KeyHeldByOther(rows, p.number.value, id))
  {
    Update(rows, id, p.number, Patcher(p))
  }

  /** `delete_room`: refused while an assignment references the room. */
  function DeleteRoom(rows: seq<Room>, id: string, referenced: set<string>): (r: Result<(seq<Room>, bool), Error>)
    ensures r == Failure(ConstraintViolation) <==> FindById(rows, id).Some? && id in referenced
    ensures r.Success? ==> (r.value.1 <==> FindById(rows, id).Some?)
    ensures r.Success? ==> forall x :: x in r.value.0 <==> x in rows && x.id != id
  {
    Delete(rows, id, referenced)
  }

  /** Numbers stay unique through any create, update or delete. */
  lemma NumbersStayUnique(rows: seq<Room>, newId: string, number: string, info: RoomInfo, id: string, p: RoomPatch, referenced: set<string>)
    requires Valid(rows)
    ensures CreateRoom(rows, newId, number, info).Success? ==> Valid(CreateRoom(rows, newId, number, info).value.0)
    ensures UpdateRoom(rows, id, p).Saved? ==> Valid(UpdateRoom(rows, id, p).rows)
    ensures DeleteRoom(rows, id, referenced).Success? ==> Valid(DeleteRoom(rows, id, referenced).value.0)
  {
    if UpdateRoom(rows, id, p).Saved? {
      UpdateKeepsValid(rows, id, p.number, Patcher(p));
    }
    CreateKeepsValid(rows, newId, number, info);
    DeleteKeepsValid(rows, id, referenced);
  }

  /** Moving a room to a free number succeeds and the room is then found
      under it. */
  lemma RenumberToFreeNumber(rows: seq<Room>, id: string, number: string)
    requires Valid(rows) && FindById(rows, id).Some?
    requires GetRoomByNumber(rows, number).None?
    ensures var r := UpdateRoom(rows, id, RoomPatch(Set(number), Unset, Unset, Unset));
      && r.Saved? && r.row.key == number
      && GetRoomByNumber(r.rows, number) == Some(r.row)
      && r.row.data == FindById(rows, id).value.data
  {
    var p := RoomPatch(Set(number), Unset, Unset, Unset);
    UpdateKeepsValid(rows, id, p.number, Patcher(p));
  }
}

=== FILE: session_endpoints.dfy ===
/** The session routes: creating (and at once starting) a session, the
    owner-only start and end, the QR and proximity reads, refreshing the
    QR code and the student's token check. What each decides first, and
    which HTTP status each refusal surfaces as once the route's catch-all
    handler has re-raised it. */
module SessionEndpoints {
  import opened Wrappers
  import Json
  import Cipher
  import QrCode
  import Persistence
  import Sessions
  import opened Http

  /** The fields of a session that go into its check-in token. */
  function Facts(s: Sessions.Session): (f: QrCode.SessionFacts)
    ensures f.sessionId == s.id && f.facultyId == s.facultyId && f.courseCode == s.courseCode
    ensures f.roomNumber == s.roomNumber && f.proximityUuid == s.proximityUuid
  {
    QrCode.SessionFacts(s.id, s.facultyId, s.courseCode, s.roomNumber, s.proximityUuid)
  }

  /** The body of `POST /create`. */
  datatype NewSession = NewSession(session: Sessions.Session, qr: QrCode.QrData)

  /** The service calls of `POST /create`: create the session with the
      fresh proximity token, then start it. */
  function Launch(
    store: Sessions.Store, facultyId: string, courseCode: string, roomNumber: Option<string>,
    newId: string, generated: string, now: nat)
    : (r: Result<(Sessions.Store, Sessions.Session), Persistence.Fault>)
    requires Sessions.IsProximityToken(generated)
    ensures r.Success? <==> facultyId != "" && newId !in store
    ensures r.Success? ==>
      var s := r.value.1;
      && r.value.0 == store[newId := s]
      && s.id == newId && s.facultyId == facultyId && s.courseCode == courseCode && s.roomNumber == roomNumber
      && s.status == Sessions.Active && s.startTime == Some(now) && s.endTime.None?
      && s.proximityUuid == generated
  {
    match Sessions.CreateSession(store, facultyId, courseCode, roomNumber, Some(generated), newId, generated, now)
    case Failure(fault) => Failure(fault)
    case Success(created) =>
      var started := Sessions.StartSession(created.0, created.1.id, now);
      Success((started.store, started.session.value))
  }

  /** `POST /create`: faculty only. Creates the session with a fresh
      proximity token, starts it, and issues its first QR code; a database
      error surfaces as 500. */
  function CreateEndpoint(
    store: Sessions.Store, key: Cipher.Key, caller: Caller, courseCode: string, roomNumber: Option<string>,
    newId: string, generated: string, now: nat)
    : (r: (Sessions.Store, Response<NewSession>))
    requires Sessions.IsProximityToken(generated)
    ensures caller.role != Faculty ==> r == (store, Err(Problem(Forbidden, "Faculty access required")))
    ensures r.1.Ok? <==> caller.role == Faculty && caller.id != "" && newId !in store
    ensures r.1.Err? ==> r.0 == store
    ensures caller.role == Faculty && r.1.Err? ==> r.1.problem.status == ServerError
    ensures r.1.Ok? ==>
      var s := r.1.body.session;
      && r.0 == store[newId := s]
      && s.id == newId && s.facultyId == caller.id && s.courseCode == courseCode && s.roomNumber == roomNumber
      && s.status == Sessions.Active && s.startTime == Some(now) && s.endTime.None?
      && s.proximityUuid == generated
      && r.1.body.qr == QrCode.GenerateSessionQr(key, Facts(s), now)
  {
    match Refusal(FacultyUser, caller)
    case Some(p) => (store, Err(p))
    case None =>
      match Launch(store, caller.id, courseCode, roomNumber, newId, generated, now)
      case Failure(fault) =>
        (store, Err(Problem(ServerError, "Failed to create session: " + Persistence.Message(fault))))
      case Success(launched) =>
        var s := launched.1;
        var facts := QrCode.SessionFacts(s.id, s.facultyId, s.courseCode, s.roomNumber, generated);
        assert facts == Facts(s);
        (launched.0, Ok(NewSession(s, QrCode.GenerateSessionQr(key, facts, now))))
  }

  /** The checks `start` and `end` make before calling the service: the
      session must exist (404), then belong to the caller (403). */
  function OwnedSession(store: Sessions.Store, caller: Caller, id: string): (r: Result<Sessions.Session, Problem>)
    ensures r.Success? <==> id in store && store[id].facultyId == caller.id
    ensures r.Success? ==> r.value == store[id]
    ensures r == Failure(Problem(NotFound, "Session not found")) <==> id !in store
    ensures r.Failure? && id in store ==> r.error == Problem(Forbidden, "Not authorized to access this session")
  {
    match Sessions.GetSession(store, id)
    case None => Failure(Problem(NotFound, "Session not found"))
    case Some(s) =>
      if s.facultyId != caller.id then Failure(Problem(Forbidden, "Not authorized to access this session"))
      else Success(s)
  }

  /** `POST /{session_id}/start`: 403 for a non-faculty caller, then 404,
      403 for someone else's session, 400 when the service refuses. */
  function StartEndpoint(store: Sessions.Store, caller: Caller, id: string, now: nat)
    : (r: (Sessions.Store, Response<Sessions.Session>))
    ensures caller.role != Faculty ==> r == (store, Err(Problem(Forbidden, "Faculty access required")))
    ensures caller.role == Faculty ==>
      && (r.1 == Err(Problem(NotFound, "Session not found")) <==> id !in store)
      && (r.1 == Err(Problem(Forbidden, "Not authorized to access this session")) <==>
            id in store && store[id].facultyId != caller.id)
      && (r.1 == Err(Problem(BadRequest, "Cannot start session")) <==>
            id in store && store[id].facultyId == caller.id && store[id].status != Sessions.Created)
      && (r.1.Ok? <==> id in store && store[id].facultyId == caller.id && store[id].status == Sessions.Created)
    ensures r.1.Err? ==> r.0 == store
    ensures r.1.Ok? ==>
      var c := Sessions.StartSession(store, id, now);
      r == (c.store, Ok(c.session.value))
  {
    match Refusal(FacultyUser, caller)
    case Some(p) => (store, Err(p))
    case None =>
      match OwnedSession(store, caller, id)
      case Failure(p) => (store, Err(p))
      case Success(_) =>
        var c := Sessions.StartSession(store, id, now);
        match c.session
        case None => (store, Err(Problem(BadRequest, "Cannot start session")))
        case Some(s) => (c.store, Ok(s))
  }

  /** `POST /{session_id}/end` as intended: the same checks as start, and
      400 unless the session is ACTIVE. */
  function EndEndpoint(store: Sessions.Store, caller: Caller, id: string, now: nat)
    : (r: (Sessions.Store, Response<Sessions.Session>))
    ensures caller.role != Faculty ==> r == (store, Err(Problem(Forbidden, "Faculty access required")))
    ensures caller.role == Faculty ==>
      && (r.1 == Err(Problem(NotFound, "Session not found")) <==> id !in store)
      && (r.1 == Err(Problem(Forbidden, "Not authorized to access this session")) <==>
            id in store && store[id].facultyId != caller.id)
      && (r.1 == Err(Problem(BadRequest, "Cannot end session")) <==>
            id in store && store[id].facultyId == caller.id && store[id].status != Sessions.Active)
      && (r.1.Ok? <==> id in store && store[id].facultyId == caller.id && store[id].status == Sessions.Active)
    ensures r.1.Err? ==> r.0 == store
    ensures r.1.Ok? ==>
      var c := Sessions.EndSession(store, id, now);
      r == (c.store, Ok(c.session.value))
  {
    match Refusal(FacultyUser, caller)
    case Some(p) => (store, Err(p))
    case None =>
      match OwnedSession(store, caller, id)
      case Failure(p) => (store, Err(p))
      case Success(_) =>
        var c := Sessions.EndSession(store, id, now);
        match c.session
        case None => (store, Err(Problem(BadRequest, "Cannot end session")))
        case Some(s) => (c.store, Ok(s))
  }

  /** `POST /{session_id}/end` as written: the service raises for every
      ACTIVE session, and with no handler in the route the app-wide
      handler answers 500 with the exception's text. */
  function EndEndpointAsWritten(store: Sessions.Store, caller: Caller, id: string, now: nat)
    : (r: (Sessions.Store, Response<Sessions.Session>))
    ensures r.0 == store
    ensures r.1.Err? && r.1.problem.status == ServerError <==>
      caller.role == Faculty && id in store && store[id].facultyId == caller.id && store[id].status == Sessions.Active
    ensures r.1.Err? && r.1.problem.status == ServerError ==> r.1.problem == Crash("ENDED")
  {
    match Refusal(FacultyUser, caller)
    case Some(p) => (store, Err(p))
    case None =>
      match OwnedSession(store, caller, id)
      case Failure(p) => (store, Err(p))
      case Success(_) =>
        match Sessions.EndSessionAsWritten(store, id, now)
        case Failure(e) => (store, Err(Crash(Sessions.Text(e))))
        case Success(c) =>
          match c.session
          case None => (store, Err(Problem(BadRequest, "Cannot end session")))
          case Some(s) => (c.store, Ok(s))
  }

  /** The end route as written never ends a session: where the intended
      route succeeds, it answers 500 and the store keeps the session
      ACTIVE. */
  lemma EndEndpointNeverSucceeds(store: Sessions.Store, caller: Caller, id: string, now: nat)
    ensures EndEndpointAsWritten(store, caller, id, now).1.Err?
    ensures EndEndpoint(store, caller, id, now).1.Ok? ==>
      && EndEndpointAsWritten(store, caller, id, now).1.problem.status == ServerError
      && EndEndpointAsWritten(store, caller, id, now).0[id].status == Sessions.Active
  {
  }

  /** The checks of the QR and proximity reads: the session must exist, and
      a FACULTY caller must own it; anyone else may read. */
  function ReadableSession(store: Sessions.Store, caller: Caller, id: string): (r: Result<Sessions.Session, Problem>)
    ensures r.Success? <==> id in store && (caller.role != Faculty || store[id].facultyId == caller.id)
    ensures r.Success? ==> r.value == store[id]
    ensures r.Failure? ==> r.error.status == (if id in store then Forbidden else NotFound)
  {
    match Sessions.GetSession(store, id)
    case None => Failure(Problem(NotFound, "Session " + id + " not found"))
    case Some(s) =>
      if caller.role == Faculty && caller.id != s.facultyId then
        Failure(Problem(Forbidden, "Not authorized to access this session"))
      else Success(s)
  }

  /** `GET /{session_id}/qr`: any authenticated caller; a fresh QR code for
      the stored session. Every refusal is re-raised as 500. */
  function SessionQrEndpoint(store: Sessions.Store, key: Cipher.Key, caller: Caller, id: string, now: nat)
    : (r: Response<QrCode.QrData>)
    ensures r.Ok? <==> id in store && (caller.role != Faculty || store[id].facultyId == caller.id)
    ensures r.Ok? ==> r.body == QrCode.GenerateSessionQr(key, Facts(store[id]), now)
    ensures r.Err? ==> r.problem.status == ServerError
  {
    match ReadableSession(store, caller, id)
    case Failure(p) => Err(Rewrap(ServerError, "Failed to get QR code: ", p))
    case Success(s) => Ok(QrCode.GenerateSessionQr(key, Facts(s), now))
  }

  /** The body of `GET /{session_id}/uuid`. */
  datatype ProximityInfo = ProximityInfo(sessionId: string, proximityUuid: string)

  /** `GET /{session_id}/uuid`: the same access rule as the QR read, and
      the same re-raising as 500. */
  function SessionUuidEndpoint(store: Sessions.Store, caller: Caller, id: string): (r: Response<ProximityInfo>)
    ensures r.Ok? <==> id in store && (caller.role != Faculty || store[id].facultyId == caller.id)
    ensures r.Ok? ==> r.body == ProximityInfo(store[id].id, store[id].proximityUuid)
    ensures r.Err? ==> r.problem.status == ServerError
  {
    match ReadableSession(store, caller, id)
    case Failure(p) => Err(Rewrap(ServerError, "Failed to get session UUID: ", p))
    case Success(s) => Ok(ProximityInfo(s.id, s.proximityUuid))
  }

  /** `POST /{session_id}/refresh-qr`: faculty only, then only the owner;
      the inner 404 and 403 are re-raised as 500. */
  function RefreshEndpoint(store: Sessions.Store, key: Cipher.Key, caller: Caller, id: string, now: nat)
    : (r: Response<QrCode.QrData>)
    ensures caller.role != Faculty ==> r == Err(Problem(Forbidden, "Faculty access required"))
    ensures r.Ok? <==> caller.role == Faculty && id in store && store[id].facultyId == caller.id
    ensures r.Ok? ==> r.body == QrCode.RefreshSessionQr(key, Facts(store[id]), now)
    ensures caller.role == Faculty && r.Err? ==> r.problem.status == ServerError
  {
    match Refusal(FacultyUser, caller)
    case Some(p) => Err(p)
    case None =>
      match Sessions.GetSession(store, id)
      case None => Err(Rewrap(ServerError, "Failed to refresh QR code: ", Problem(NotFound, "Session " + id + " not found")))
      case Some(s) =>
        if caller.id != s.facultyId then
          Err(Rewrap(ServerError, "Failed to refresh QR code: ",
                     Problem(Forbidden, "Not authorized to refresh this session's QR code")))
        else Ok(QrCode.RefreshSessionQr(key, Facts(s), now))
  }

  /** The body of a successful `POST /verify`. */
  datatype VerifiedSession = VerifiedSession(
    sessionId: string, facultyId: string, courseCode: string, roomNumber: Option<string>, proximityUuid: string)

  /** The checks `verify` makes inside its handler, in order: a token was
      sent (422), it verifies (400), its session exists (404), the session
      is ACTIVE (400). */
  function VerifyChecks(store: Sessions.Store, key: Cipher.Key, token: string, now: nat)
    : (r: Result<Sessions.Session, Problem>)
    ensures r.Success? <==>
      && token != ""
      && QrCode.VerifyQrData(key, token, now).Valid?
      && var named := Json.Get(QrCode.VerifyQrData(key, token, now).data, "session_id");
         named.Some? && named.value in store && store[named.value].status == Sessions.Active
    ensures r.Success? ==>
      r.value == store[Json.Get(QrCode.VerifyQrData(key, token, now).data, "session_id").value]
  {
    if token == "" then Failure(Problem(Unprocessable, "Missing required field: encrypted_data"))
    else
      match QrCode.VerifyQrData(key, token, now)
      case Invalid(e) => Failure(Problem(BadRequest, QrCode.ErrorMessage(e)))
      case Valid(data) =>
        match Json.Get(data, "session_id")
        case None => Failure(Problem(NotFound, "Session not found"))
        case Some(sid) =>
          match Sessions.GetSession(store, sid)
          case None => Failure(Problem(NotFound, "Session not found"))
          case Some(s) =>
            if s.status != Sessions.Active then
              Failure(Problem(BadRequest, "Session is not active (status: " + Sessions.StatusName(s.status) + ")"))
            else Success(s)
  }

  /** `POST /verify`: students only; every refusal inside the handler,
      the 422 and the 404 included, is re-raised as 400. On success the
      session's own fields are returned. */
  function VerifyEndpoint(store: Sessions.Store, key: Cipher.Key, caller: Caller, token: string, now: nat)
    : (r: Response<VerifiedSession>)
    ensures caller.role != Student ==> r == Err(Problem(Forbidden, "Student access required"))
    ensures r.Ok? <==> caller.role == Student && VerifyChecks(store, key, token, now).Success?
    ensures caller.role == Student && r.Err? ==> r.problem.status == BadRequest
    ensures r.Ok? ==>
      var s := VerifyChecks(store, key, token, now).value;
      r.body == VerifiedSession(s.id, s.facultyId, s.courseCode, s.roomNumber, s.proximityUuid)
  {
    match Refusal(StudentUser, caller)
    case Some(p) => Err(p)
    case None =>
      match VerifyChecks(store, key, token, now)
      case Failure(p) => Err(Rewrap(BadRequest, "Error processing request: ", p))
      case Success(s) => Ok(VerifiedSession(s.id, s.facultyId, s.courseCode, s.roomNumber, s.proximityUuid))
  }

  /** A created session is stored under its own id, so the store stays
      keyed by session id. */
  lemma CreateKeepsWellKeyed(
    store: Sessions.Store, key: Cipher.Key, caller: Caller, courseCode: string, roomNumber: Option<string>,
    newId: string, generated: string, now: nat)
    requires Sessions.IsProximityToken(generated) && Sessions.WellKeyed(store)
    ensures
      var r := CreateEndpoint(store, key, caller, courseCode, roomNumber, newId, generated, now);
      && Sessions.WellKeyed(r.0)
      && (r.1.Ok? ==> newId in r.0 && r.0[newId] == r.1.body.session)
  {
  }

  /** A QR code read from a started session verifies, until it expires, to
      that session and its proximity token. */
  lemma IssuedQrVerifies(
    store: Sessions.Store, key: Cipher.Key, reader: Caller, student: Caller, id: string, issued: nat, now: nat)
    requires Sessions.WellKeyed(store)
    requires id in store && store[id].status == Sessions.Active
    requires reader.role != Faculty || store[id].facultyId == reader.id
    requires student.role == Student
    requires now <= issued + QrCode.ExpirySeconds
    ensures SessionQrEndpoint(store, key, reader, id, issued).Ok?
    ensures
      var token := SessionQrEndpoint(store, key, reader, id, issued).body.encryptedData;
      var r := VerifyEndpoint(store, key, student, token, now);
      r.Ok? && r.body.sessionId == id && r.body.proximityUuid == store[id].proximityUuid
  {
    var s := store[id];
    var q := QrCode.GenerateSessionQr(key, Facts(s), issued);
    QrCode.FreshTokenVerifies(key, Facts(s), issued, now);
    assert q.encryptedData != "" by {
      assert |q.encryptedData| == 1 + Cipher.TagWidth + |Json.Serialize(QrCode.Payload(Facts(s), issued))|;
    }
  }

  /** Once its session has ended, a QR code no longer verifies, whatever
      its age. */
  lemma EndedSessionTokenRefused(
    store: Sessions.Store, key: Cipher.Key, caller: Caller, student: Caller, id: string, issued: nat, t: nat, now: nat)
    requires Sessions.WellKeyed(store)
    requires caller.role == Faculty
    requires EndEndpoint(store, caller, id, t).1.Ok?
    ensures
      var token := QrCode.GenerateSessionQr(key, Facts(store[id]), issued).encryptedData;
      VerifyEndpoint(EndEndpoint(store, caller, id, t).0, key, student, token, now).Err?
  {
    QrCode.GeneratedTokenLifetime(key, Facts(store[id]), issued, now);
    QrCode.PayloadFields(Facts(store[id]), issued);
  }
}

=== FILE: sessions.dfy ===
/** The attendance-session lifecycle (`SessionService`): sessions are
    created, started once and ended once. Every refused move returns `None`
    and leaves the store as it was. The database table is a map from session
    id to record. */
module Sessions {
  import opened Wrappers
  import Numerals
  import Persistence

  /** `SessionStatus`. `end_session` assigns `SessionStatus.ENDED`, which the
      enum does not declare; the corrected end moves a session to the enum's
      terminal state COMPLETED. `Cancelled` is declared but never assigned. */
  datatype Status = Created | Active | Completed | Cancelled

  /** A row of the `session` table (timestamps as seconds). */
  datatype Session = Session(
    id: string,
    facultyId: string,
    courseCode: string,
    roomNumber: Option<string>,
    proximityUuid: string,
    startTime: Option<nat>,
    endTime: Option<nat>,
    isActive: bool,
    status: Status)

  type Store = map<string, Session>

  /** Length of a generated proximity token (`secrets.token_hex(4)`). */
  const ProximityTokenLength: nat := 8

  /** What `secrets.token_hex(4)` can return: eight lower-case hex digits. */
  predicate IsProximityToken(s: string) {
    |s| == ProximityTokenLength && Numerals.IsHex(s)
  }

  /** Every row is stored under its own id. */
  predicate WellKeyed(store: Store) {
    forall id :: id in store ==> store[id].id == id
  }

  /** The timestamps agree with the status: nothing has ended before it was
      active, and an ended session carries both its start and its end time. */
  predicate Lifecycle(s: Session) {
    && (s.status == Created ==> s.endTime.None?)
    && (s.status == Active ==> s.startTime.Some? && s.endTime.None?)
    && (s.status == Completed ==> s.startTime.Some? && s.endTime.Some?)
  }

  /** The store invariant every operation keeps. */
  predicate Valid(store: Store) {
    && WellKeyed(store)
    && forall id :: id in store ==> Lifecycle(store[id])
  }

  /** `b` is `a` after a status change: everything but the status and the
      two timestamps is unchanged. */
  predicate SameSession(a: Session, b: Session) {
    && a.id == b.id
    && a.facultyId == b.facultyId
    && a.courseCode == b.courseCode
    && a.roomNumber == b.roomNumber
    && a.proximityUuid == b.proximityUuid
    && a.isActive == b.isActive
  }

  /** The stored value of a status. */
  function StatusName(status: Status): string {
    match status
    case Created => "CREATED"
    case Active => "ACTIVE"
    case Completed => "COMPLETED"
    case Cancelled => "CANCELLED"
  }

  /** `get_session`: the stored row, or `None` for an unknown id. */
  function GetSession(store: Store, id: string): (r: Option<Session>)
    ensures r.None? <==> id !in store
    ensures r.Some? ==> r.value == store[id]
  {
    if id in store then Some(store[id]) else None
  }

  /** `create_session`: a new CREATED row under `newId` (the caller's stand-in
      for `uuid4`). A missing or empty `proximity` is replaced by `generated`
      (the stand-in for `secrets.token_hex(4)`). As in the source, the
      start time is stamped at creation and `is_active` is set. An empty
      `facultyId` is falsy, so the source stores `None` in the non-nullable
      `faculty_id` column and the commit fails. */
  function CreateSession(
    store: Store, facultyId: string, courseCode: string, roomNumber: Option<string>,
    proximity: Option<string>, newId: string, generated: string, now: nat)
    : (r: Result<(Store, Session), Persistence.Fault>)
    requires IsProximityToken(generated)
    ensures r.Failure? <==> facultyId == "" || newId in store
    ensures facultyId == "" ==> r == Failure(Persistence.NullColumn("faculty_id"))
    ensures r.Success? ==>
      var (store', s) := r.value;
      && store' == store[newId := s]
      && GetSession(store', newId) == Some(s)
      && s.id == newId && s.status == Created
      && s.facultyId == facultyId && s.courseCode == courseCode && s.roomNumber == roomNumber
      && (proximity.Some? && proximity.value != [] ==> s.proximityUuid == proximity.value)
      && (proximity.None? || proximity.value == [] ==> IsProximityToken(s.proximityUuid))
      && s.startTime == Some(now) && s.endTime.None?
  {
    if facultyId == "" then Failure(Persistence.NullColumn("faculty_id"))
    else if newId in store then Failure(Persistence.DuplicateId(newId))
    else
      var token := if proximity.None? || proximity.value == [] then generated else proximity.value;
      var s := Session(newId, facultyId, courseCode, roomNumber, token, Some(now), None, true, Created);
      Success((store[newId := s], s))
  }

  /** A store after a lifecycle call, and the session the call returned
      (`None` when it refused). */
  datatype Change = Change(store: Store, session: Option<Session>)

  /** `start_session`: CREATED to ACTIVE, stamping the start time. */
  function StartSession(store: Store, id: string, now: nat): (r: Change)
    ensures r.session.Some? <==> id in store && store[id].status == Created
    ensures r.session.None? ==> r.store == store
    ensures r.session.Some? ==>
      var s := r.session.value;
      && r.store == store[id := s]
      && SameSession(store[id], s)
      && s.status == Active && s.startTime == Some(now) && s.endTime == store[id].endTime
  {
    match GetSession(store, id)
    case None => Change(store, None)
    case Some(s) =>
      if s.status != Created then Change(store, None)
      else
        var started := s.(status := Active, startTime := Some(now));
        Change(store[id := started], Some(started))
  }

  /** `end_session` as intended: ACTIVE to COMPLETED, stamping the end
      time. */
  function EndSession(store: Store, id: string, now: nat): (r: Change)
    ensures r.session.Some? <==> id in store && store[id].status == Active
    ensures r.session.None? ==> r.store == store
    ensures r.session.Some? ==>
      var s := r.session.value;
      && r.store == store[id := s]
      && SameSession(store[id], s)
      && s.status == Completed && s.endTime == Some(now) && s.startTime == store[id].startTime
  {
    match GetSession(store, id)
    case None => Change(store, None)
    case Some(s) =>
      if s.status != Active then Change(store, None)
      else
        var ended := s.(status := Completed, endTime := Some(now));
        Change(store[id := ended], Some(ended))
  }

  /** An exception escaping a call. */
  datatype Raised = AttributeError(name: string)

  /** `str(e)`: the enum's member lookup raises `AttributeError(name)`, whose
      text is the missing name alone. */
  function Text(e: Raised): string {
    match e
    case AttributeError(name) => name
  }

  /** `end_session` as written: the refusal paths are as intended, but for an
      ACTIVE session the assignment reads `SessionStatus.ENDED`, a member the
      enum does not have, so the call raises before anything is written. */
  function EndSessionAsWritten(store: Store, id: string, now: nat): (r: Result<Change, Raised>)
    ensures r.Failure? <==> id in store && store[id].status == Active
  {
    match GetSession(store, id)
    case None => Success(Change(store, None))
    case Some(s) =>
      if s.status != Active then Success(Change(store, None))
      else Failure(AttributeError("ENDED"))
  }

  /** As written, no call to `end_session` ever ends a session: it either
      refuses with the store unchanged or raises. */
  lemma EndAsWrittenNeverEnds(store: Store, id: string, now: nat)
    ensures EndSessionAsWritten(store, id, now).Success? ==>
      EndSessionAsWritten(store, id, now).value == Change(store, None)
    ensures EndSessionAsWritten(store, id, now).Failure? ==> EndSession(store, id, now).session.Some?
  {
  }

  /** The concrete case: ending a freshly started session raises instead of
      ending it, while the intended transition succeeds. */
  lemma EndAsWrittenCounterexample()
    ensures
      var s := Session("s1", "f1", "CS101", Some("R101"), "abcd1234", Some(0), None, true, Active);
      var store := map["s1" := s];
      && EndSessionAsWritten(store, "s1", 60) == Failure(AttributeError("ENDED"))
      && EndSession(store, "s1", 60).session == Some(s.(status := Completed, endTime := Some(60)))
  {
  }

  /** A second start is refused and the session stays ACTIVE. */
  lemma StartTwice(store: Store, id: string, t1: nat, t2: nat)
    requires StartSession(store, id, t1).session.Some?
    ensures StartSession(StartSession(store, id, t1).store, id, t2) == Change(StartSession(store, id, t1).store, None)
    ensures StartSession(store, id, t1).store[id].status == Active
  {
  }

  /** Ending before starting is refused; ending twice is refused. */
  lemma EndOnlyOnce(store: Store, id: string, t1: nat, t2: nat)
    requires id in store && store[id].status == Created
    ensures EndSession(store, id, t1) == Change(store, None)
    ensures var first := EndSession(StartSession(store, id, t1).store, id, t2);
            && first.session.Some?
            && EndSession(first.store, id, t2).session.None?
  {
  }

  /** Lifecycle calls touch only the target session. */
  lemma TransitionsTouchOnlyTarget(store: Store, id: string, other: string, now: nat)
    requires other != id && other in store
    ensures other in StartSession(store, id, now).store && StartSession(store, id, now).store[other] == store[other]
    ensures other in EndSession(store, id, now).store && EndSession(store, id, now).store[other] == store[other]
  {
  }

  /** Every operation keeps the store invariant. */
  lemma OperationsKeepValid(store: Store, id: string, now: nat)
    requires Valid(store)
    ensures Valid(StartSession(store, id, now).store)
    ensures Valid(EndSession(store, id, now).store)
  {
  }

  lemma CreateKeepsValid(
    store: Store, facultyId: string, courseCode: string, roomNumber: Option<string>,
    proximity: Option<string>, newId: string, generated: string, now: nat)
    requires Valid(store) && IsProximityToken(generated)
    requires CreateSession(store, facultyId, courseCode, roomNumber, proximity, newId, generated, now).Success?
    ensures Valid(CreateSession(store, facultyId, courseCode, roomNumber, proximity, newId, generated, now).value.0)
  {
  }

  /** No session is CANCELLED. */
  predicate NoneCancelled(store: Store) {
    forall id :: id in store ==> store[id].status != Cancelled
  }

  /** No operation ever produces a CANCELLED session. */
  lemma NothingCancels(
    store: Store, id: string, now: nat,
    facultyId: string, courseCode: string, roomNumber: Option<string>,
    proximity: Option<string>, newId: string, generated: string)
    requires NoneCancelled(store) && IsProximityToken(generated)
    ensures NoneCancelled(StartSession(store, id, now).store)
    ensures NoneCancelled(EndSession(store, id, now).store)
    ensures var created := CreateSession(store, facultyId, courseCode, roomNumber, proximity, newId, generated, now);
            created.Success? ==> NoneCancelled(created.value.0)
  {
  }

  /** `if faculty_id:` in the source: absent and empty both mean "no filter". */
  function FacultyFilter(faculty: Option<string>): bool {
    faculty.Some? && faculty.value != []
  }

  /** `get_active_sessions`: the ACTIVE sessions, restricted to one faculty
      when one is given. */
  function GetActiveSessions(store: Store, faculty: Option<string>): (r: set<Session>)
    ensures forall s :: s in r <==>
      && s in store.Values
      && s.status == Active
      && (FacultyFilter(faculty) ==> s.facultyId == faculty.value)
  {
    set s | s in store.Values && s.status == Active && (!FacultyFilter(faculty) || s.facultyId == faculty.value)
  }

  /** `get_faculty_sessions`: every session the faculty created. */
  function GetFacultySessions(store: Store, facultyId: string): (r: set<Session>)
    ensures forall s :: s in r <==> s in store.Values && s.facultyId == facultyId
  {
    set s | s in store.Values && s.facultyId == facultyId
  }

  /** Storing a session under a fresh key adds exactly it to the table's
      values. */
  lemma AddedValues(store: Store, newId: string, x: Session)
    requires newId !in store
    ensures store[newId := x].Values == store.Values + {x}
  {
    forall v | v in store.Values ensures v in store[newId := x].Values {
      var k :| k in store && store[k] == v;
      assert store[newId := x][k] == v;
    }
    assert store[newId := x][newId] == x;
  }

  /** Storing a changed copy of a session under its own key swaps it in the
      table's values: no other key holds the old copy. */
  lemma ReplacedValues(store: Store, id: string, x: Session)
    requires WellKeyed(store) && id in store && x.id == id
    ensures store[id := x].Values == store.Values - {store[id]} + {x}
  {
    forall v | v in store[id := x].Values ensures v in store.Values - {store[id]} + {x} {
      var k :| k in store[id := x] && store[id := x][k] == v;
      if k != id {
        assert store[k] == v && v.id == k;
      }
    }
    forall v | v in store.Values - {store[id]} + {x} ensures v in store[id := x].Values {
      if v == x {
        assert store[id := x][id] == x;
      } else {
        var k :| k in store && store[k] == v;
        assert k != id;
        assert store[id := x][k] == v;
      }
    }
  }

  /** A created session joins its creator's list and no other. */
  lemma FacultyListOnCreate(
    store: Store, owner: string, facultyId: string, courseCode: string, roomNumber: Option<string>,
    proximity: Option<string>, newId: string, generated: string, now: nat)
    requires IsProximityToken(generated)
    ensures var created := CreateSession(store, facultyId, courseCode, roomNumber, proximity, newId, generated, now);
      created.Success? ==>
        GetFacultySessions(created.value.0, owner)
        == GetFacultySessions(store, owner) + (if owner == facultyId then {created.value.1} else {})
  {
    var created := CreateSession(store, facultyId, courseCode, roomNumber, proximity, newId, generated, now);
    if created.Success? {
      AddedValues(store, newId, created.value.1);
    }
  }

  /** Starting a session replaces it in its owner's list by its started
      state; every other list stays as it was. */
  lemma FacultyListOnStart(store: Store, owner: string, id: string, now: nat)
    requires WellKeyed(store)
    ensures var c := StartSession(store, id, now);
      c.session.Some? ==>
        GetFacultySessions(c.store, owner)
        == if owner == store[id].facultyId then GetFacultySessions(store, owner) - {store[id]} + {c.session.value}
           else GetFacultySessions(store, owner)
  {
    var c := StartSession(store, id, now);
    if c.session.Some? {
      ReplacedValues(store, id, c.session.value);
    }
  }

  /** Ending a session replaces it in its owner's list by its completed
      state; every other list stays as it was. */
  lemma FacultyListOnEnd(store: Store, owner: string, id: string, now: nat)
    requires WellKeyed(store)
    ensures var c := EndSession(store, id, now);
      c.session.Some? ==>
        GetFacultySessions(c.store, owner)
        == if owner == store[id].facultyId then GetFacultySessions(store, owner) - {store[id]} + {c.session.value}
           else GetFacultySessions(store, owner)
  {
    var c := EndSession(store, id, now);
    if c.session.Some? {
      ReplacedValues(store, id, c.session.value);
    }
  }

  /** Starting a session adds it to the active list; ending it removes it. */
  lemma ActiveListFollowsTransitions(store: Store, id: string, now: nat)
    requires Valid(store) && id in store
    ensures store[id].status == Created ==>
      StartSession(store, id, now).session.value in GetActiveSessions(StartSession(store, id, now).store, None)
    ensures store[id].status == Active ==>
      forall s :: s in GetActiveSessions(EndSession(store, id, now).store, None) ==> s.id != id
  {
    if store[id].status == Created {
      var c := StartSession(store, id, now);
      assert c.store[id] == c.session.value;
      assert c.session.value in c.store.Values;
    }
    if store[id].status == Active {
      var store' := EndSession(store, id, now).store;
      forall s | s in GetActiveSessions(store', None) ensures s.id != id {
        var k :| k in store' && store'[k] == s;
        assert Valid(store') by { OperationsKeepValid(store, id, now); }
      }
    }
  }
}

=== FILE: wrappers.dfy ===
/** Failure-carrying values shared by every module of the model: the Python
    code signals absence with `None` and failure with exceptions or error
    dictionaries; the model makes both explicit. */
module Wrappers {

  /** A value that may be absent (Python's `Optional[...]`). */
  datatype Option<+T> = None | Some(value: T) {

    /** The value, or `default` when absent. */
    function GetOr(default: T): T {
      match this
      case Some(v) => v
      case None => default
    }
  }

  /** Either a value or the reason it could not be produced. */
  datatype Result<+R, +E> = Success(value: R) | Failure(error: E)
}
